=== FILE: README.md ===
# Register-Funds decision logic in Dafny

Register-Funds is a crowdfunding platform for schools. An Express and Firestore backend stores schools, campaigns and campaign updates, behind Firebase or JWT authentication and a rate limiter, with S3 for uploaded files. A React frontend lets a school register, fill in its profile and population figures, create campaigns with images and an impact report, manage contact people, and lets donors browse campaigns and pick an amount.

This project models the decision logic of both halves as pure Dafny functions over immutable values, and proves what that logic promises.

- **Backend**
  - The fixed-window rate limiter is a step function over a map from `ip:path` keys to counters.
  - The authentication middleware covers Bearer-header parsing, the default role and the admin, school-owner and campaign-owner checks.
  - The error handler maps an error to a status and a message.
  - The campaign, school and update services and controllers are modelled over a Firestore collection, represented as a map from document id to document. Queries run over an ordered snapshot. The models cover the forced fields, pagination, the merge on update, and the order of the 401, 404 and 403 checks.
  - The upload service and controller cover the S3 key and URL, their inverse in `deleteFile`, the content-type table and the MIME whitelist.
- **Frontend**
  - The registration wizard: its five validators, the step counter, the challenge toggle and error clearing.
  - Population totals.
  - The verification card.
  - The campaign form and the two uploaders.
  - The rich-text length limit.
  - Contact management.
  - The donation amount state.
  - The dashboard, campaign-list and donate-page aggregations.
  - The school-profile conversions and per-section saves.

Shared modules give the JavaScript semantics the source relies on:

- `Wrappers` holds `Option` and `Result`.
- `JsText` models truthiness and `||`, `trim`, `split` and `pop`, `replace`, and ASCII case mapping.
- `JsNumber` models `parseInt` and the decimal rendering of numbers.
- `Json` models documents and object spread.
- `Seqs` holds the filter, map, take and subsequence facts.
- `Paging` covers offset and limit pagination.

Everything outside the modelled logic is an input of the functions: the clock, generated ids, the token verifier, the outcome of a storage call, the browser's files.

## Model

| member | source | states |
|---|---|---|
| RateLimit.Configure | Backend/src/api/middleware/rate-limit.middleware.ts:13-15 | a missing or zero window is one minute, a missing or zero maximum is 100, a missing or empty message is the default text |
| RateLimit.ClientIp | Backend/src/api/middleware/rate-limit.middleware.ts:18 | the client address is `req.ip`, else the forwarded-for header, else the socket's remote address |
| RateLimit.Step | Backend/src/api/middleware/rate-limit.middleware.ts:19-41 | only the request's own key changes; a missing or expired entry restarts at count 1 with a fresh window and lets the request through; otherwise the count grows by one, also for refused requests, and the request passes iff the new count is at most the maximum, else 429 with the configured message |
| RateLimit.ResetTimeBelongsToOldWindow | Backend/src/api/middleware/rate-limit.middleware.ts:23-32 | a request at exactly the reset time is counted in the old window; one a millisecond later opens a new one |
| RateLimit.RunInOpenWindow | Backend/src/api/middleware/rate-limit.middleware.ts:31-41 | a run of requests inside an open window adds one per request to the count and lets through exactly as many as fit under the maximum |
| RateLimit.WindowAllowsAtMostMax | Backend/src/api/middleware/rate-limit.middleware.ts:23-41 | one window lets through the opening request plus those that fit, so never more than a positive maximum |
| ErrorHandler.AppError | Backend/src/utils/error-handler.ts:4-15 | an application error is operational and carries the status and message it was built with |
| ErrorHandler.StatusOf | Backend/src/utils/error-handler.ts:18 | a missing or zero status becomes 500, any other is kept |
| ErrorHandler.MessageOf | Backend/src/utils/error-handler.ts:19 | the message is never empty: a missing or empty one becomes the default text |
| ErrorHandler.HandleError | Backend/src/utils/error-handler.ts:17-38 | operational errors are answered with their own status and message; all others with 500 and a generic message, plus, only in development mode, the error's message and its stack (the `stack` key is left out when the error has none) |
| ErrorHandler.StatusIsOwnOr500 | Backend/src/utils/error-handler.ts:25-38 | the reply's status is 500 or the operational error's own non-zero status, nothing else |
| ErrorHandler.AppErrorReply | Backend/src/api/middleware/error.middleware.ts:4-30 | an application error with a status and a message is answered with exactly those |
| ErrorHandler.InternalErrorsHideTheirMessage | Backend/src/api/middleware/error.middleware.ts:32-37 | outside development mode every non-operational error gets the same reply, so none leaks its details |
| Auth.UserOf | Backend/src/api/middleware/auth.middleware.ts:35-39 | the authenticated user carries the token's uid and email, and its role, or `user` when the token has none |
| Auth.Authenticate | Backend/src/api/middleware/auth.middleware.ts:20-46 | a header that is missing or not `Bearer `-prefixed is a 401 "No token provided"; every refusal is a 401; the request is authenticated iff the prefix is there, the second word is non-empty and the verifier accepts it, and then as that token's user |
| Auth.TokenIsSecondWord | Backend/src/api/middleware/auth.middleware.ts:57 | the token is the text after `Bearer ` up to the next space |
| Auth.EmptyTokenRefused | Backend/src/api/middleware/auth.ts:26-31 | `Bearer ` followed by nothing or by a second space is refused as a malformed token, whatever the verifier accepts |
| Auth.VerifiedTokenAuthenticates | Backend/src/api/middleware/auth.ts:33-40 | a well-formed header with an accepted token authenticates as that token's user |
| Auth.OtherSchemeRefused | Backend/src/api/middleware/auth.ts:21-24 | a header `<scheme> <credentials>` whose scheme is a word other than `Bearer` (such as `Basic`, or `bearer`, since the test is case-sensitive) never reaches the verifier and gets the "No token provided" 401 |
| Auth.AuthorizeAdmin | Backend/src/api/middleware/auth.ts:47-53 | the request passes iff there is a user whose role is `admin`; otherwise a 403 |
| Auth.SchoolParam | Backend/src/api/middleware/auth.middleware.ts:87 | the school is the non-empty `id` parameter, else the `schoolId` parameter |
| Auth.AuthorizeSchoolOwner | Backend/src/api/middleware/auth.middleware.ts:86-94 | the request passes iff it names a school and the user's uid is that school's id; otherwise a 403 |
| Auth.SchoolOwnerIdTakesPrecedence | Backend/src/api/middleware/auth.middleware.ts:87-89 | with a non-empty `id` parameter the `schoolId` parameter is ignored |
| Auth.AuthorizeCampaignOwner | Backend/src/api/middleware/auth.middleware.ts:97-117 | no id gives 400, then an unknown campaign 404, then a stored `schoolId` that is not the user's uid 403; the request passes iff none applies |
| Auth.CampaignOwnerPasses | Backend/src/api/middleware/auth.middleware.ts:111-117 | the campaign's owner is always let through |
| Auth.UnownedCampaignPassesWithoutUser | Backend/src/api/middleware/auth.middleware.ts:113 | because the comparison is `!==` on possibly absent values, a campaign with no `schoolId` lets a request without a user through |
| Firestore.WithId | Backend/src/api/services/campaigns.service.ts:116-119 | a document read with its id has every stored field, plus `id` set to the document id unless a stored `id` field overrides it |
| Firestore.WhereEquals | Backend/src/api/services/campaigns.service.ts:133-135 | an equality query returns, in store order, exactly the documents whose field holds the value |
| Firestore.Patch | Backend/src/api/services/campaigns.service.ts:180 | an update sets each patch key as a top-level field of that one document, overwriting a field of that name, keeps its other fields, and leaves every other document alone |
| Firestore.OwnerCheck | Backend/src/api/controllers/campaignController.ts:162-179 | an owner-only write is refused with 401 without a user, then 404 for a missing document, then 403 for another school's document, and goes ahead iff none applies |
| Campaigns.ForcedFields | Backend/src/api/services/campaigns.service.ts:19-24 | the forced fields are exactly owner, amount raised, featured, status and the two timestamps |
| Campaigns.NewCampaign | Backend/src/api/services/campaigns.service.ts:17-25 | a new campaign keeps every request field except the forced ones, which are the caller as owner, 0 raised, not featured, `active`, and the given timestamps |
| Campaigns.CreateCampaign | Backend/src/api/services/campaigns.service.ts:13-32 | the service stores the new campaign under the fresh id and returns it with that id; `createdAt` equals `updatedAt` |
| Campaigns.CreatedCampaignIsFresh | Backend/src/api/services/campaigns.service.ts:13-25 | whatever the request holds, the created campaign belongs to the caller, has raised 0, is not featured and is active |
| Campaigns.Query | Backend/src/api/services/campaigns.service.ts:60-68 | the query keeps, in order, exactly the campaigns with the status, also the category when one is given, and featured when that is asked for |
| Campaigns.GetAllCampaigns | Backend/src/api/services/campaigns.service.ts:44-96 | a page holds at most `limit` campaigns, each with the requested status |
| Campaigns.ListPageIsWindow | Backend/src/api/services/campaigns.service.ts:71-94 | the page is the selection's window at offset `(page - 1) * limit`, each campaign with its id, and the pagination gives the whole selection's size and `ceil(total / limit)` pages |
| Campaigns.ListDefaults | Backend/src/api/services/campaigns.service.ts:52-58 | filters left out mean status `active`, limit 10 and page 1 |
| Campaigns.ListPageNonEmptyIffWithinCount | Backend/src/api/services/campaigns.service.ts:71-94 | a page has campaigns iff its number is at most the page count |
| Firestore.GetById | Backend/src/api/services/campaigns.service.ts:108-124 | `getCampaignById`, and `getSchoolById` at Backend/src/api/services/schools.service.ts lines 42-53: a missing document is the service's not-found error ("Campaign not found", "School not found"); otherwise the stored document with its id |
| Firestore.GetAfterPatch | Backend/src/api/services/campaigns.service.ts:159-186 | a read after an update sees the document merged key by key with the patch, and reads of other ids are unaffected |
| Campaigns.GetCampaignsBySchoolId | Backend/src/api/services/campaigns.service.ts:131-145 | every returned campaign has that `schoolId`, and there are as many as the query selects |
| Campaigns.UpdateCampaign | Backend/src/api/services/campaigns.service.ts:159-186 | "not found" comes before "Forbidden"; the update succeeds iff the campaign exists and the caller owns it; then the patch stamped with `updatedAt` is written and returned on top of the stored campaign and its id |
| Campaigns.UpdateResultPrecedence | Backend/src/api/services/campaigns.service.ts:182-186 | in the returned campaign the fresh `updatedAt` wins, then the patch, then the stored fields, then the id |
| Campaigns.DeleteCampaign | Backend/src/api/services/campaigns.service.ts:199-217 | the same two checks in the same order; deletion succeeds iff the caller owns an existing campaign, and removes just it |
| Campaigns.DeleteOnlyRemovesTarget | Backend/src/api/services/campaigns.service.ts:215 | after a deletion the campaign is gone and every other campaign is as it was |
| Campaigns.PopulateFields | Backend/src/api/controllers/campaignController.ts:9-35 | without a school the campaign is returned unchanged; with one, only `location` and `organizer` are added, from the school's city and country with `''` fallbacks and its contact name or `Anonymous` with its profile image or `null` |
| Campaigns.PopulateIdempotent | Backend/src/api/controllers/campaignController.ts:9-35 | populating a populated campaign changes nothing |
| Campaigns.CreateCampaignHandler | Backend/src/api/controllers/campaignController.ts:38-59 | 401 without a user; otherwise the body with the forced fields is stored under the new id and echoed with it under 201 |
| Campaigns.GetAllCampaignsHandler | Backend/src/api/controllers/campaignController.ts:67-98 | the reply is 200 with every selected campaign populated, selected by `status || 'active'`, the category when given, and featured only for the text `true` |
| Campaigns.ListQueryFallbacks | Backend/src/api/controllers/campaignController.ts:69-78 | any featured text other than `true` is as if it were absent, and an empty status is `active` |
| Campaigns.GetCampaignHandler | Backend/src/api/controllers/campaignController.ts:106-123 | 404 iff the campaign is missing; otherwise 200 with the populated campaign |
| Campaigns.GetSchoolCampaignsHandler | Backend/src/api/controllers/campaignController.ts:131-152 | 401 without a user; otherwise the campaigns of the `schoolId` parameter, else of the caller, populated |
| Campaigns.UpdateCampaignHandler | Backend/src/api/controllers/campaignController.ts:160-191 | 401, 404 and 403 in that order leave the store unchanged; 200 iff an owner updates an existing campaign, with the stamped body written and echoed with the id |
| Campaigns.UpdateHandlerAgreesWithService | Backend/src/api/controllers/campaignController.ts:160-191 | for a signed-in caller the controller and the service refuse the same requests for the same reasons and write the same document |
| Schools.Stamped | Backend/src/api/services/schools.service.ts:17-21 | the stored school keeps every given field and has both timestamps set |
| Schools.CreateSchool | Backend/src/api/services/schools.service.ts:13-30 | the school is written under the caller's uid, replacing any earlier one and leaving other schools alone; it is returned with that id, and `createdAt` equals `updatedAt` |
| Schools.UpdateSchool | Backend/src/api/services/schools.service.ts:66-86 | the update fails iff the school is missing, and then nothing is written; otherwise the patch stamped with `updatedAt` is written and returned on top of the stored school and its id |
| Schools.UpdateSchoolPrecedence | Backend/src/api/services/schools.service.ts:82-86 | in the returned school the fresh `updatedAt` wins, then the patch, then the stored fields |
| Schools.GetAllSchools | Backend/src/api/services/schools.service.ts:99-127 | a page holds at most `limit` schools; the total is the number of schools and the page count is the least number of pages of `limit` that holds them all |
| Schools.SchoolPageIsWindow | Backend/src/api/services/schools.service.ts:102-117 | the listed schools are those from offset `(page - 1) * limit` onwards, in order, each with its id |
| Schools.TargetSchool | Backend/src/api/controllers/schoolController.ts:41 | the school a request is about is the non-empty `id` parameter, else the caller's uid |
| Schools.CreateSchoolHandler | Backend/src/api/controllers/schoolController.ts:8-27 | 401 without a user; otherwise the stamped body is written under the caller's uid and echoed with it under 201 |
| Schools.GetSchoolHandler | Backend/src/api/controllers/schoolController.ts:35-51 | 401 without a user, then 404 for a missing school, otherwise 200 with the school and its id |
| Schools.UpdateSchoolHandler | Backend/src/api/controllers/schoolController.ts:59-83 | 401 without a user, then 404 with nothing written; 200 iff the target school exists, with the stamped body written and echoed with the id |
| Schools.UpdateHandlerAgreesWithService | Backend/src/api/controllers/schoolController.ts:65-78 | the controller and the service fail on the same updates and write the same document |
| Schools.CreateThenGet | Backend/src/api/controllers/schoolController.ts:21-51 | a school created by a user and then read without an id comes back exactly as it was returned on creation |
| Updates.CreateUpdateHandler | Backend/src/api/controllers/updates.controller.ts:8-26 | 401 without a user; otherwise only the new update is added, with `schoolId` forced to the caller, the two timestamps and every other body field, and it is echoed with its id under 201 |
| Updates.ParsedPagingNeverZero | Backend/src/api/controllers/updates.controller.ts:39-47 | the parsed limit and page are never zero, and a missing limit or page is 10 or 1 |
| Updates.ParsedPagingOfNumber | Backend/src/api/controllers/updates.controller.ts:46-47 | a positive number written in decimal is read back as that number |
| Updates.NegativeLimitKept | Backend/src/api/controllers/updates.controller.ts:46 | a negative limit such as `-5` is not replaced by the fallback |
| Updates.SchoolSelection | Backend/src/api/controllers/updates.controller.ts:42-44 | a non-empty `schoolId` narrows the updates to that school's; otherwise all are taken |
| Firestore.OrderByDesc | Backend/src/api/controllers/updates.controller.ts:40 | `orderBy(field, 'desc')` keeps exactly the documents whose field holds a string, as a permutation of them sorted largest value first |
| Updates.UpdatesQuery | Backend/src/api/controllers/updates.controller.ts:40-44 | the queried updates come newest `createdAt` first |
| Updates.UpdatesQueryContents | Backend/src/api/controllers/updates.controller.ts:40-44 | the query is a permutation of the selected updates that have a `createdAt` text: every one of them is listed, each from the store and, when a school is given, that school's |
| Updates.ListUpdates | Backend/src/api/controllers/updates.controller.ts:37-73 | the reply is 200 with the window of the newest-first query at offset `(pageNum - 1) * limitNum`, each update with its id, and the selection's size, the page, the limit and `ceil(total / limitNum)` pages |
| Updates.UpdatesPageBelongsToSchool | Backend/src/api/controllers/updates.controller.ts:42-63 | for a given school every listed update is that school's, and a page holds at most `limitNum` updates |
| Updates.WindowBelongsToSchool | Backend/src/api/controllers/updates.controller.ts:42-55 | any window over one school's updates lists only that school's updates, at most limit of them |
| Updates.GetUpdateById | Backend/src/api/controllers/updates.controller.ts:84-96 | 404 iff the update is missing; otherwise 200 with the update and its id |
| Updates.UpdateUpdateHandler | Backend/src/api/controllers/updates.controller.ts:107-138 | 401, 404 and 403 in that order leave the store unchanged; 200 iff the owner updates an existing update, writing the body stamped with `updatedAt` and echoing it with the `id` first, so a body field named `id` overrides the document id |
| Updates.DeleteUpdateHandler | Backend/src/api/controllers/updates.controller.ts:149-175 | the same checks in the same order; 200 iff the owner deletes an existing update, which removes just it |
| Updates.UpdateAndDeleteRefuseAlike | Backend/src/api/controllers/updates.controller.ts:109-126 | update and delete refuse exactly the same requests with the same replies |
| Uploads.ContentType | Backend/src/api/services/file-upload.service.ts:85-100 | the content type is the table's entry for the lower-cased extension, and the generic binary type for any extension outside the table |
| Uploads.ContentTypeIgnoresCase | Backend/src/api/services/file-upload.service.ts:100 | upper-casing or lower-casing the extension does not change its content type |
| Uploads.ContentTypeKnownIff | Backend/src/api/services/file-upload.service.ts:86-100 | the generic binary type comes back exactly for extensions outside the eleven-entry table |
| Uploads.Extension | Backend/src/api/services/file-upload.service.ts:30 | the extension contains no dot; it is the whole name when the name has no dot, and otherwise the text after the name's last dot |
| Uploads.ObjectKeyKeepsExtension | Backend/src/api/services/file-upload.service.ts:30-38 | the key `folder/uuid.ext` has the original name's extension, so it gets the original's content type |
| Uploads.PublicUrl | Backend/src/api/services/file-upload.service.ts:45 | a public URL starts with the bucket's base URL |
| Uploads.DeleteRecoversKey | Backend/src/api/services/file-upload.service.ts:59-68 | removing the base URL from an upload's public URL gives back exactly its key |
| Uploads.ForeignUrlIsItsOwnKey | Backend/src/api/services/file-upload.service.ts:63 | a URL that does not contain the base URL is used as the key unchanged |
| Uploads.UploadFile | Backend/src/api/services/file-upload.service.ts:27-47 | an upload is stored under `folder/uuid.ext`, with the content type of the original extension, and its public URL is returned |
| Uploads.Multer | Backend/src/api/controllers/upload.controller.ts:6-25 | a file is passed on iff it is of one of the eight allowed types and at most 5 MiB; another type is refused before its size is looked at; no file is passed on as no file |
| Uploads.UploadHandler | Backend/src/api/controllers/upload.controller.ts:29-55 | no file is a 400; a store failure a 500; otherwise 200 with the URL of the object stored under the folder, `uploads` when none is given |
| Uploads.UploadedUrlDeletesUpload | Backend/src/api/controllers/upload.controller.ts:36-48 | the URL an upload replies with deletes exactly the uploaded object |
| Register.WithText | Frontend/src/pages/RegisterPage.tsx:47 | an edit sets the named text and leaves every other text, the challenges and the terms box as they were |
| Register.IsEmailMatchesPattern | Frontend/src/pages/RegisterPage.tsx:102 | the character-level email check holds iff the text matches `^[^\s@]+@[^\s@]+\.[^\s@]+$`, that is, some `@` and a later dot split it into three non-empty runs without spaces or `@` |
| Register.Collect | Frontend/src/pages/RegisterPage.tsx:81-96 | a validator's error map has an entry for exactly the checked fields that have a message, holding that message |
| Register.CollectEmptyIff | Frontend/src/pages/RegisterPage.tsx:96 | a validator passes iff none of its fields has a message |
| Register.EmisError | Frontend/src/pages/RegisterPage.tsx:89-93 | the EMIS code gets exactly one error: "required" iff it is blank, the format message iff it is not blank but the trimmed code is not 6 to 12 upper-case letters and digits, and none otherwise |
| Register.Step1PassesIff | Frontend/src/pages/RegisterPage.tsx:80-97 | step 1 passes iff the school name holds more than spaces, country, city and type are non-empty, and the trimmed EMIS code is 6 to 12 upper-case letters and digits |
| Register.SchoolEmailError | Frontend/src/pages/RegisterPage.tsx:110-114 | the school email gets "required" iff it is blank, "invalid" iff it is not blank but fails the pattern, and none otherwise |
| Register.Step2AddressIff | Frontend/src/pages/RegisterPage.tsx:104-106 | address line 1, digital address and town each pass iff they hold more than spaces |
| Register.Step2ContactIff | Frontend/src/pages/RegisterPage.tsx:107-116 | region, postal address and contact number each pass iff they hold more than spaces |
| Register.Step2EmailIff | Frontend/src/pages/RegisterPage.tsx:110-114 | the school email passes iff its untrimmed text matches the email pattern |
| Register.EmailIsNotBlank | Frontend/src/pages/RegisterPage.tsx:110-112 | a text that passes the email check is never blank, so the "required" test cannot hide a valid email |
| Register.Step2PassesIff | Frontend/src/pages/RegisterPage.tsx:100-120 | step 2 passes iff the six required texts hold more than spaces and the school email matches the pattern |
| Register.AddressLine2Unchecked | Frontend/src/pages/RegisterPage.tsx:100-120 | the second address line never affects step 2's errors |
| Register.ValidateStep3 | Frontend/src/pages/RegisterPage.tsx:123-132 | step 3 passes iff at least one challenge is selected, and otherwise has only the challenges error |
| Register.EmailError | Frontend/src/pages/RegisterPage.tsx:140-144 | the contact email gets "required" iff it is blank, "invalid" iff it is not blank but fails the pattern, and none otherwise |
| Register.StaffIdError | Frontend/src/pages/RegisterPage.tsx:148-154 | the staff id gets exactly one of "required" (blank), "too short" (trimmed under 3) and "bad characters", in that order |
| Register.StaffIdPassesIff | Frontend/src/pages/RegisterPage.tsx:147-155 | a staff id passes iff its trimmed text has at least 3 characters, all letters, digits, `-` or `_` |
| Register.Step4ContactIff | Frontend/src/pages/RegisterPage.tsx:139-145 | the contact name and phone each pass iff they hold more than spaces |
| Register.Step4EmailIff | Frontend/src/pages/RegisterPage.tsx:140-144 | the contact email passes iff it matches the email pattern |
| Register.Step4PassesIff | Frontend/src/pages/RegisterPage.tsx:135-158 | step 4 passes iff name and phone hold more than spaces, the email matches the pattern and the staff id passes |
| Register.PasswordError | Frontend/src/pages/RegisterPage.tsx:164-168 | the password passes iff it has at least 6 characters, and "required" is given iff it is empty |
| Register.ConfirmError | Frontend/src/pages/RegisterPage.tsx:170-174 | the confirmation passes iff it is non-empty and equal to the password, and "required" is given iff it is empty |
| Register.Step5PassesIff | Frontend/src/pages/RegisterPage.tsx:161-182 | step 5 passes iff the password has at least 6 characters, the confirmation equals it and the terms are accepted |
| Register.NextStep | Frontend/src/pages/RegisterPage.tsx:184-207 | Continue never changes the form; on steps 1 to 4 the step's validator replaces the errors, and the step goes up by exactly one iff it passes; any other step is left as it is |
| Register.NextStepStaysInRange | Frontend/src/pages/RegisterPage.tsx:200-206 | the step stays within 1 to 5, and Continue on step 5 does nothing |
| Register.ReachingLastStepNeedsValidSteps | Frontend/src/pages/RegisterPage.tsx:184-207 | from step 1, four Continues reach step 5 exactly when the validators of steps 1 to 4 all pass on the form (which Continue never changes); in plain terms, a school name, country, city, type and EMIS code, the step 2 address and contact texts and email, a selected challenge, and the step 4 contact person and staff id |
| Register.SubmitRegistration | Frontend/src/pages/RegisterPage.tsx:209-210 | submitting replaces the errors with step 5's, and the account is created iff there are none |
| Register.ClearError | Frontend/src/pages/RegisterPage.tsx:50-55 | a field's error is removed iff it holds a non-empty message; otherwise the errors are unchanged |
| Register.EditText | Frontend/src/pages/RegisterPage.tsx:45-57 | typing changes only that text and removes only that field's error; the step and every other error stay |
| Register.ValidatorMessagesNonEmpty | Frontend/src/pages/RegisterPage.tsx:83-154 | every error a validator stores is a non-empty message, so the next edit of the field always clears it |
| Register.Toggle | Frontend/src/pages/RegisterPage.tsx:60-62 | a selected challenge is removed everywhere, keeping the others in order; an unselected one is appended |
| Register.ToggleChallenge | Frontend/src/pages/RegisterPage.tsx:59-77 | toggling changes only the challenges; the challenges error is cleared only when some challenge remains selected |
| Register.ToggleFlipsOnlyThatChallenge | Frontend/src/pages/RegisterPage.tsx:60-62 | after a toggle the challenge is selected iff it was not, and every other challenge is selected iff it was |
| Register.ToggleKeepsNoDuplicates | Frontend/src/pages/RegisterPage.tsx:60-62 | a list without duplicates stays without duplicates |
| Register.ToggleTwiceRestoresAbsent | Frontend/src/pages/RegisterPage.tsx:60-62 | toggling an unselected challenge twice gives back the very same list |
| Register.ToggleTwiceRestoresPresent | Frontend/src/pages/RegisterPage.tsx:60-62 | toggling a selected challenge twice keeps the same set without duplicates, with that challenge moved to the end |
| Population.OrZero | Frontend/src/components/settings/Population.tsx:45-52 | a missing figure reads as 0 and a present one as itself |
| Population.Max0 | Frontend/src/components/settings/Population.tsx:107 | the floored value is never negative, is at least the value, and is either 0 or the value |
| Population.ParseCountReadsLeadingNumber | Frontend/src/components/settings/Population.tsx:84 | typed text with no leading number counts as 0, otherwise as the number it starts with |
| Population.ParseCountOfDecimal | Frontend/src/components/settings/Population.tsx:84 | a count typed in decimal is read back unchanged |
| Population.Load | Frontend/src/components/settings/Population.tsx:40-58 | loaded counts default to 0; a missing or zero student total is male plus female; a missing or zero non-STEAM count is total minus STEAM, not floored, so it can be negative |
| Population.EditFrom | Frontend/src/components/settings/Population.tsx:59-69 | the edit data starts from the displayed figures with the student total carried over and the non-STEAM count left out |
| Population.EditStudent | Frontend/src/components/settings/Population.tsx:89-97 | a student edit sets that count, keeps the other and the teachers, and makes the total male plus female |
| Population.EditTeacher | Frontend/src/components/settings/Population.tsx:98-108 | a teacher edit sets that figure, keeps the other and the students, and makes the non-STEAM count total minus STEAM floored at 0, so never negative |
| Population.EditsKeepConsistent | Frontend/src/components/settings/Population.tsx:79-113 | every input change keeps both derived figures in step with their counts and touches only its own section |
| Population.NumericEditKeepsConsistent | Frontend/src/components/settings/Population.tsx:86-110 | once the typed number is read, an edit of either section keeps both derived figures in step and leaves the other section alone |
| Population.EditingBothSectionsMakesConsistent | Frontend/src/components/settings/Population.tsx:89-108 | after one student edit and one teacher edit, in either order, both derived figures agree with their counts |
| Population.SavePayload | Frontend/src/components/settings/Population.tsx:126-142 | the students payload recomputes the total as male plus female; the teachers payload recomputes the non-STEAM count as total minus STEAM floored at 0 |
| Population.PayloadOfConsistentEdit | Frontend/src/components/settings/Population.tsx:128-142 | for consistent edit data the payload sends exactly the totals the dialog shows |
| Population.Update | Frontend/src/components/settings/Population.tsx:115-154 | without a signed-in user nothing is sent; otherwise the section's payload is sent, a failure changes nothing, and a success replaces exactly that section of the displayed figures |
| Verification.CompletedSteps | Frontend/src/components/VerificationCard.tsx:69-86 | the number of passed checks is at most 3, is 3 exactly when contact, address and population all pass, and 0 exactly when none does |
| Verification.Remaining | Frontend/src/components/VerificationCard.tsx:152-157 | the steps-remaining figure is at most 3, 0 exactly when verification is complete, and 3 exactly when no check passes |
| Verification.NextStep | Frontend/src/components/VerificationCard.tsx:88-100 | the card points at the first failing check in the order contact, address, population, and at nothing exactly when verification is complete |
| Verification.LinkAndTextAgree | Frontend/src/components/VerificationCard.tsx:88-100 | the link and the button text always name the same step, and the plain settings link and "View Settings" are offered exactly when verification is complete |
| Verification.NoRecordNoSteps | Frontend/src/components/VerificationCard.tsx:69-93 | without a school record no check passes and the card sends the user to the contact settings |
| ImageFiles.FirstProblem | Frontend/src/components/campaign/MultipleImageUpload.tsx:18-30 | a batch has no problem exactly when every file passes; otherwise the problem reported is that of a file all of whose predecessors pass |
| CampaignForm.FileProblem | Frontend/src/components/campaign/CampaignForm.tsx:38-47 | a file passes exactly when it is at most 4 MiB and of one of the five image types; size is reported before type |
| CampaignForm.SubmitProblem | Frontend/src/components/campaign/CampaignForm.tsx:53-95 | each submit message is reported exactly when every earlier check passed and its own fails, in the order login, name, media, category, description, target, too few images, too many images |
| CampaignForm.SubmitChecksPassIff | Frontend/src/components/campaign/CampaignForm.tsx:53-95 | the submit checks pass exactly for a signed-in user with a non-blank name and description, media, a category, a positive target and three to five additional images |
| CampaignForm.Submit | Frontend/src/components/campaign/CampaignForm.tsx:53-127 | a campaign is created exactly when the checks pass and the media and every additional image are acceptable; otherwise the first failure's message is reported; the payload carries the form's fields, the target, the uploaded URLs, status active, nothing raised and the user as school |
| CampaignForm.EditName | Frontend/src/components/campaign/CampaignForm.tsx:188-193 | typed text of at most 60 characters becomes the name and longer text is ignored |
| CampaignForm.NameStaysWithinLimit | Frontend/src/components/campaign/CampaignForm.tsx:188-193 | a name within 60 characters stays within 60 characters whatever is typed |
| CampaignForm.AddImages | Frontend/src/components/campaign/CampaignForm.tsx:159-165 | picked images go after the current ones and the list is cut to five, keeping the prefix |
| CampaignForm.AddImagesKeepsCurrent | Frontend/src/components/campaign/CampaignForm.tsx:159-165 | a list within the cap keeps all its images in order and never grows beyond five |
| CampaignForm.RemoveAt | Frontend/src/components/campaign/CampaignForm.tsx:167-169 | exactly the image at the index goes and the others keep their order; an index outside the list removes nothing |
| CampaignForm.RemoveAtThenReinsert | Frontend/src/components/campaign/CampaignForm.tsx:167-169 | putting the removed image back at its index restores the list |
| ImageUpload.FileProblem | Frontend/src/components/campaign/MultipleImageUpload.tsx:23-30 | a file passes exactly when it is acceptable; the alert names the file, size before type |
| ImageUpload.GeneratedNameKeepsExtension | Frontend/src/components/campaign/MultipleImageUpload.tsx:33-34 | the stored name ends with the original name's last extension, or with the whole name when it has no dot |
| ImageUpload.UploadedUrls | Frontend/src/components/campaign/MultipleImageUpload.tsx:32-54 | one URL per file, in order, under the campaign's additional-image path with the generated name |
| ImageUpload.UploadBatch | Frontend/src/components/campaign/MultipleImageUpload.tsx:13-70 | the batch succeeds exactly when every file is acceptable, and then extends the existing list by one URL per file; otherwise it reports the alert of the first bad file |
| ImageUpload.RemoveImage | Frontend/src/components/campaign/MultipleImageUpload.tsx:73-80 | the URL is no longer in the list, every other URL stays, and nothing new appears |
| ImageUpload.RemoveImageKeepsOrder | Frontend/src/components/campaign/MultipleImageUpload.tsx:75 | what is left keeps its order, and removing an absent URL changes nothing |
| ImpactReport.ReportProblem | Frontend/src/components/campaign/ImpactReportUpload.tsx:47-58 | a document passes exactly when it is PDF or Word and at most 5 MiB; the type is reported before the size |
| ImpactReport.ReportsAreNotImages | Frontend/src/components/campaign/ImpactReportUpload.tsx:48 | no file the report uploader accepts is an acceptable image |
| ImpactReport.HandleUpload | Frontend/src/components/campaign/ImpactReportUpload.tsx:47-67 | a rejected file raises its message and changes nothing; an accepted file is remembered, name and size, only when storage returns a non-empty URL |
| ImpactReport.DisplayName | Frontend/src/components/campaign/ImpactReportUpload.tsx:81 | the uploaded name wins over the given name, which wins over "Impact Report"; the name shown is never empty |
| ImpactReport.DisplaySize | Frontend/src/components/campaign/ImpactReportUpload.tsx:82 | the uploaded size wins over the given size, which wins over 200 KiB, a zero size falling through; the size shown is never zero |
| ImpactReport.SuccessfulUploadIsShown | Frontend/src/components/campaign/ImpactReportUpload.tsx:60-85 | after a successful upload the uploaded view is shown with that file's name and size |
| RichText.MaxLength | Frontend/src/components/campaign/RichTextEditor.tsx:20 | the limit is the one given, or 200 when none is |
| RichText.HandleChange | Frontend/src/components/campaign/RichTextEditor.tsx:42-63 | a proposed state is taken exactly when it fits the limit, shortens the text or keeps it; the form hears of it exactly when it is taken and its text is new, and then hears that text |
| RichText.HandleChangeKeepsLimit | Frontend/src/components/campaign/RichTextEditor.tsx:49-55 | a text within the limit stays within it whatever is proposed |
| RichText.Run | Frontend/src/components/campaign/RichTextEditor.tsx:42-125 | over any run of edits, key commands and toolbar actions the text stays within the limit and every text reported to the form is within it |
| RichText.WarningsExclusive | Frontend/src/components/campaign/RichTextEditor.tsx:276-286 | the remaining-characters and limit-reached warnings never show together, and at the default limit the first shows from 180 to 199 characters |
| Contacts.SchoolContactPerson | Frontend/src/components/settings/hooks/useSecurityData.ts:25-31 | the school's own contact has the fixed id and role, the record's contact name or "School Representative", and the record's email and phone |
| Contacts.LoadSecurity | Frontend/src/components/settings/hooks/useSecurityData.ts:10-37 | without a user the account data is cleared; while the school is loading or failed nothing changes; otherwise the account email or its placeholder is shown with the school contact ahead of the stored ones, or no contacts without a school record |
| Contacts.SchoolContactUpdateData | Frontend/src/components/settings/hooks/useContactManagement.ts:22-24 | the school-record update always sends the name and sends email and phone exactly when they are non-empty, and nothing else |
| Contacts.ReplaceById | Frontend/src/components/settings/hooks/useContactManagement.ts:32-34 | every stored contact with the edited id is replaced by the edit under that id and the others are kept in place |
| Contacts.AddContact | Frontend/src/components/settings/hooks/useContactManagement.ts:12-48 | nothing happens without a user; a contact without name or role is refused; editing the school contact updates the school record; editing another contact with an id replaces it; anything else is appended under a new id |
| Contacts.EditKeepsIds | Frontend/src/components/settings/hooks/useContactManagement.ts:32-34 | editing keeps every stored contact's id |
| Contacts.DeleteContact | Frontend/src/components/settings/hooks/useContactManagement.ts:56-66 | the school contact cannot be deleted; otherwise exactly the contacts with that id go and every other one stays |
| Contacts.DeleteKeepsOrder | Frontend/src/components/settings/hooks/useContactManagement.ts:64 | deletion keeps the order of the remaining contacts |
| Contacts.DeleteUndoesAdd | Frontend/src/components/settings/hooks/useContactManagement.ts:38-64 | deleting a just-added contact by its new id gives back the list as it was before the addition |
| Donation.PressAmount | Frontend/src/pages/DonationPage.tsx:77-80 | clicking the selected amount clears the selection, another amount replaces it, the custom amount is cleared and the payment method is kept |
| Donation.TypeCustom | Frontend/src/pages/DonationPage.tsx:98-101 | typing keeps the text as the custom amount, clears the selection and keeps the payment method |
| Donation.Run | Frontend/src/pages/DonationPage.tsx:77-141 | along any sequence of clicks, typing and payment choices a selected amount and a custom amount are never both set, and the last amount event decides which one is |
| Donation.PressTwice | Frontend/src/pages/DonationPage.tsx:77-80 | clicking the same amount twice gives back the selection it started from, with the custom amount cleared |
| Donation.DisplayTotal | Frontend/src/pages/DonationPage.tsx:194 | the total shows the selected amount if any, else the custom text if any, else "0.00" |
| Donation.TotalFollowsTheSetAmount | Frontend/src/pages/DonationPage.tsx:194-207 | with the amounts exclusive the total shows whichever is set, and the donate button is enabled exactly when a payment method is chosen and some amount is set |
| CampaignCards.OwnedBy | Frontend/src/pages/campaigns/DashboardPage.tsx:30 | exactly the campaigns of the given school are kept, nothing else, in the list's order (a subsequence of the input) |
| CampaignCards.RaisedSplitsByOwner | Frontend/src/pages/campaigns/DashboardPage.tsx:30-31 | the money raised over a list is the school's share plus the other schools' share |
| Dashboard.UserCampaigns | Frontend/src/pages/campaigns/DashboardPage.tsx:18-42 | the signed-in school's campaigns, or none while the list has not arrived |
| Dashboard.ComputeStats | Frontend/src/pages/campaigns/DashboardPage.tsx:28-39 | the stat cards keep their value until campaigns and school both arrive; then they count the school's campaigns, add up what they raised, and show the student total or 0 |
| Dashboard.DonationsAreTheSchoolsShare | Frontend/src/pages/campaigns/DashboardPage.tsx:28-39 | the school's donations are the whole list's money minus what the other schools raised |
| Dashboard.Shown | Frontend/src/pages/campaigns/DashboardPage.tsx:170-172 | the dashboard list is a prefix of the school's campaigns of at most two, all of them when there are fewer |
| Dashboard.BannerTitle | Frontend/src/pages/campaigns/DashboardPage.tsx:128-133 | the banner names the school's last campaign, or invites support for the school by name or as "Your School" |
| CampaignList.Owned | Frontend/src/pages/campaigns/CampaignsListPage.tsx:14 | the signed-in user's campaigns; none without a user or a list |
| CampaignList.Insert | Frontend/src/pages/campaigns/CampaignsListPage.tsx:22-26 | inserting into a sorted list keeps it sorted and adds exactly that campaign |
| CampaignList.SortCampaigns | Frontend/src/pages/campaigns/CampaignsListPage.tsx:22-26 | the sorted copy is ordered by start date, newest or oldest first, and holds exactly the same campaigns |
| CampaignList.Views | Frontend/src/pages/campaigns/CampaignsListPage.tsx:111-202 | the two lists are prefixes of the sorted campaigns of at most two and at most five |
| CampaignList.StatusLabel | Frontend/src/pages/campaigns/CampaignsListPage.tsx:215 | the label has the status's length, its first letter upper-cased and the rest unchanged |
| DonateCategories.Distinct | Frontend/src/pages/DonatePage.tsx:21 | each value appears once, and exactly the values of the input appear |
| DonateCategories.DistinctInFirstOccurrenceOrder | Frontend/src/pages/DonatePage.tsx:21 | the distinct values come in the order of their first occurrences in the input, as a `Set` iterates in insertion order |
| DonateCategories.DistinctIsSubsequence | Frontend/src/pages/DonatePage.tsx:21 | the distinct values are a subsequence of the input |
| DonateCategories.CategoryIds | Frontend/src/pages/DonatePage.tsx:19-27 | the chips are "all" followed by every non-empty category of the campaigns, each once, and nothing else |
| DonateCategories.CategoryIdsFollowFirstOccurrence | Frontend/src/pages/DonatePage.tsx:19-27 | the category chips after "all" come in the order in which the categories first occur among the campaigns, and form a subsequence of the campaigns' categories |
| DonateCategories.ChipsDistinctUnlessCategoryAll | Frontend/src/pages/DonatePage.tsx:19-27 | the chips are all distinct when no campaign's category is itself "all" |
| DonateCategories.FilterByCategory | Frontend/src/pages/DonatePage.tsx:30-35 | "all" shows every campaign; another chip shows exactly the campaigns of that category |
| DonateCategories.FilterIsSubsequenceOfCampaigns | Frontend/src/pages/DonatePage.tsx:30-35 | the shown campaigns keep the list's order |
| SchoolProfileUtils.ToSchoolData | Frontend/src/utils/schoolProfileUtils.ts:5-23 | the required fields are copied and each missing optional address field becomes the empty string |
| SchoolProfileUtils.ToSchool | Frontend/src/utils/schoolProfileUtils.ts:26-44 | the API form carries every optional field, and converting it back gives the data it came from |
| SchoolProfileUtils.SchoolRoundTrip | Frontend/src/utils/schoolProfileUtils.ts:5-44 | converting a record to form data and back gives the record exactly when none of its optional fields is missing |
| SchoolProfile.SameFieldsSameData | Frontend/src/components/settings/SchoolProfile.tsx:7-15 | profile data is determined by its seven fields |
| SchoolProfile.Set | Frontend/src/components/settings/SchoolProfile.tsx:85-88 | setting a field changes that field to the value and keeps every other one |
| SchoolProfile.FromApi | Frontend/src/components/settings/SchoolProfile.tsx:18-26 | the six record fields are copied and the postal address starts empty |
| SchoolProfile.ToApi | Frontend/src/components/settings/SchoolProfile.tsx:29-36 | the API form has exactly the six record keys, each holding its field, and no postal address |
| SchoolProfile.ApiRoundTrip | Frontend/src/components/settings/SchoolProfile.tsx:18-36 | a record converted to profile data and back to the API form gives back its six fields |
| SchoolProfile.SavedFields | Frontend/src/components/settings/SchoolProfile.tsx:112-183 | a section saves locally what it sends, and the address section also saves the postal address |
| SchoolProfile.Payload | Frontend/src/components/settings/SchoolProfile.tsx:103-176 | a section's update has a key exactly for each field it sends, all of them record keys, each holding the form's value |
| SchoolProfile.Commit | Frontend/src/components/settings/SchoolProfile.tsx:112-183 | after a save the section's fields come from the form and every other field is kept from the loaded data |
| SchoolProfile.Load | Frontend/src/components/settings/SchoolProfile.tsx:58-80 | an arrived record becomes both the data and the form with no error; a failed request or a missing record for a signed-in user sets its error and stops loading; the form never exists without data |
| SchoolProfile.InputChange | Frontend/src/components/settings/SchoolProfile.tsx:82-89 | without a form nothing changes; otherwise exactly the named field of the form takes the value and the data and edit modes are kept |
| SchoolProfile.StartEditing | Frontend/src/components/settings/SchoolProfile.tsx:218-240 | the edit button puts its section in edit mode and leaves data and form alone |
| SchoolProfile.Cancel | Frontend/src/components/settings/SchoolProfile.tsx:220-224 | cancelling resets the whole form to the loaded data and ends that section's edit mode |
| SchoolProfile.Save | Frontend/src/components/settings/SchoolProfile.tsx:75-192 | without a form or a user nothing is sent; otherwise the section's update is sent; a failure shows its toast and changes nothing; a success commits the section's fields, ends its edit mode, and (through the effect that copies new data into the form) resets the whole form to the new data |
| SchoolProfile.TypedValueIsSaved | Frontend/src/components/settings/SchoolProfile.tsx:82-192 | a value typed and saved with its section ends up in the data, and is sent to the API exactly when it is not the postal address |
| SchoolProfile.SaveDiscardsOtherSectionsEdits | Frontend/src/components/settings/SchoolProfile.tsx:75-192 | a value typed into another section's field is dropped by a save: both the form and the data hold the loaded value again |
| SchoolProfile.SavingEverySectionKeepsFirstEdits | Frontend/src/components/settings/SchoolProfile.tsx:75-192 | saving Basic, Address and Contact in turn keeps only the edits of the first section saved (Basic); every other field keeps its loaded value, and the form ends level with the data |
| SchoolProfile.PostalAddressIsNotKept | Frontend/src/components/settings/SchoolProfile.tsx:23-149 | the postal address is never sent and every reload empties it, so a saved one is lost |
| SchoolProfile.AvatarInitial | Frontend/src/components/settings/SchoolProfile.tsx:207 | the avatar shows one character: the name's first, or "S" for an empty name |
| SchoolProfile.Render | Frontend/src/components/settings/SchoolProfile.tsx:194-207 | loading comes first, then an error with its message or the default one, then the missing-data notice; the profile is shown exactly when none of these applies |
| SchoolProfile.LoadedRecordIsShown | Frontend/src/components/settings/SchoolProfile.tsx:58-207 | a record that arrives without error is shown, with its converted data and avatar |
| RateLimit.NumberOr | Backend/src/api/middleware/rate-limit.middleware.ts:13-14 | a missing or zero option falls back to the default, any other number is kept |
| Paging.PageCount | Backend/src/api/services/campaigns.service.ts:94 | the page count is the fewest pages of the given size that hold the total, and zero exactly for an empty result |
| Paging.Window | Backend/src/api/services/campaigns.service.ts:71-78 | the page holds at most limit items, as many as remain after the offset, each the item at its place past the offset |
| Paging.PageNonEmptyIffWithinCount | Backend/src/api/services/campaigns.service.ts:71-94 | a page has items exactly when its number is at most the page count the reply announces |
| Paging.PagesCoverResult | Backend/src/api/services/campaigns.service.ts:71-94 | reading pages 1 up to the announced page count in turn returns every item of the result once, in order |

## Left out

- Firestore, Firebase Auth, the S3 SDK, JWT verification, `uuid`, `Date` and `Math.random` are foreign calls. The store is a map and a snapshot is a sequence. Ids, timestamps, tokens and storage replies are parameters. The token verifier is a map from accepted tokens to their claims.
- The `catch` branches of every controller, service and middleware are not modelled: the 500 replies and the rethrown errors when Firestore or S3 fails. Their failures are not part of the model.
- The thin wrappers of `Backend/src/api/controllers/auth.controller.ts` and `Backend/src/api/services/auth.service.ts` over Firebase are not part of this model.
- Rendering, CSS, routing and modals: only the decisions a page computes are modelled.
- Timers and concurrency are not modelled: fake upload progress, polling, toasts' timing, `Promise.all` fan-out, react-query caching and invalidation. Stored contacts are an in-memory list rather than `localStorage`.
- Floating point is not modelled: progress percentages, `formatFileSize`, `toFixed`, `toLocaleString`.
  - The campaign target is the value `parseFloat` produced, taken as an optional real; NaN is `None`.
  - The rich-text warning's `maxLength * 0.9` is the exact integer comparison `10 * len >= 9 * max`.
- JSON numbers (`Json.Num`) and campaign amounts (`amountRaised`) are whole numbers with exact, unbounded arithmetic. JavaScript numbers are doubles, so sums of fractional amounts would round, and the rounding depends on the order of the additions.
- Query-string values are single strings or absent. Express turns a repeated parameter such as `?schoolId=a&schoolId=b` into an array, and a bracketed one into an object. Those inputs are not modelled: the `typeof schoolId === 'string'` test in `getUpdates`, an array `category` reaching `where`, and `parseInt` of an array.
- Dates are not parsed: a campaign's start date is an integer number of milliseconds.
- `new Date().toISOString()` timestamps are string parameters.
- The three regular expressions are explicit character predicates. They cover the EMIS code, the email address and the staff id.
- The rich-text editor is modelled through its plain text and an opaque formatting label. Draft.js content, its raw-JSON parsing of the initial value, and key bindings are not modelled.
- Strings are sequences of code points. JavaScript's UTF-16 `length` and `charAt` differ for characters outside the Basic Multilingual Plane.
- `toLowerCase`/`toUpperCase` are modelled for ASCII letters only.
- `getContentType` looks up an object literal. The model's table holds its eleven own keys only, so inherited properties of `Object.prototype` such as `constructor` are not found.
- Multer internals (stream parsing, the 5 MiB limit's enforcement) are not modelled; the whitelist and the limit constant are.
- Registration: the page's hint asks for 8-character passwords, but the validator enforces 6. The model follows the validator.
- Mock data in the verification card is not modelled; its checks are stated over any school record.
- The school profile's `handleInputChange` sets whatever key the input element names. The model restricts it to the seven profile fields.
- Campaigns.GetAllCampaigns: requires a positive limit and a page of at least 1. The service computes a negative offset for other values, and what Firestore then does is not modelled.
- Campaigns.ListPageIsWindow: the same positive-paging precondition as `GetAllCampaigns`.
- Campaigns.ListPageNonEmptyIffWithinCount: the same positive-paging precondition as `GetAllCampaigns`.
- Schools.GetAllSchools: requires a positive limit and a page of at least 1, after the defaults of 10 and 1; other values give a negative offset, not modelled.
- Schools.SchoolPageIsWindow: the same positive-paging precondition as `GetAllSchools`.
- Updates.ListUpdates: requires a positive parsed limit and a parsed page of at least 1 (`getUpdates` parses them from the query texts, as `LimitNum` and `PageNum` model). A negative limit survives the parse (`"-5"` gives -5, see `NegativeLimitKept`), and what Firestore does with it is not modelled.
- Updates.UpdatesPageBelongsToSchool: the same precondition as `ListUpdates`.
- Firestore.Patch: update keys are literal top-level field names. Firestore's `update()` reads a dotted key such as `"location.city"` as a path into a nested map, and rejects a malformed path such as `""` or `"a..b"`. Neither is modelled, so for such keys the documents that UpdateCampaign, UpdateSchool and their handlers, and UpdateUpdateHandler write are not the ones Firestore would store. Their replies, `{id, ...stored, ...patch}`, are unaffected.
- Firestore.GetAfterPatch: holds for the flat merge of Firestore.Patch only; after a dotted-key update, Firestore's stored document differs as described there.
- CampaignList.SortCampaigns: the contract states order and contents but not where campaigns with equal start dates end up. `Array.prototype.sort` is stable, and that order decides which of them Views shows in the first 2 and first 5.
- Firestore.OrderByDesc: only string values are ordered, which is what the controllers write to `createdAt`. A document whose `createdAt` was overwritten with another type is dropped, whereas Firestore would place it by its type's rank. Documents with equal values keep their order in the snapshot; Firestore breaks such ties by document id.
- CampaignCards.RaisedSplitsByOwner: the exact split holds for the model's whole-number amounts. With JavaScript doubles and fractional amounts, the two shares need not add up exactly to the `reduce` total.
- Dashboard.DonationsAreTheSchoolsShare: exact for whole-number amounts only, for the same reason as `RaisedSplitsByOwner`.
- Updates.SchoolSelection: `schoolId` is a single string or absent. An array-valued `schoolId` fails the source's `typeof` test, so it would select every school's updates; that input is not modelled.
- SchoolProfile.Save: requires that a form never exists without loaded data. This stands for the source's `schoolData!` assertion, which the page's effects maintain (Load, InputChange and Cancel preserve it).

=== FILE: auth.dfy ===
/** Bearer-token authentication and the admin, school-owner and
    campaign-owner gates of the backend. */
module Auth {
  import opened Wrappers
  import opened Json
  import opened Http
  import JsText

  /** What a token verifier returns for a token it accepts. */
  datatype Claims = Claims(uid: string, email: Option<string>, role: Option<string>)

  /** `req.user` once a request is authenticated. */
  datatype AuthUser = AuthUser(uid: string, email: Option<string>, role: string)

  /** The tokens the verifier (Firebase or a JWT secret) accepts, with their
      claims; any other token makes verification throw. */
  type Verifier = map<string, Claims>

  const NoTokenMessage: string := "Unauthorized: No token provided"
  const BadFormatMessage: string := "Unauthorized: Invalid token format"
  const BadTokenMessage: string := "Unauthorized: Invalid token"
  const AdminOnlyMessage: string := "Forbidden: Admin access required"
  const NotSchoolOwnerMessage: string := "Forbidden: You do not have permission to access this school"
  const NotCampaignOwnerMessage: string := "Forbidden: You do not own this campaign"

  /** `authHeader.split(' ')[1]`: the word after the first space. */
  function TokenOf(header: string): Option<string> {
    JsText.PieceAt(header, ' ', 1)
  }

  /** The user a verified token stands for; the role defaults to `user`. */
  function UserOf(c: Claims): (u: AuthUser)
    ensures u.uid == c.uid && u.email == c.email
    ensures JsText.Truthy(c.role) ==> u.role == c.role.value
    ensures !JsText.Truthy(c.role) ==> u.role == "user"
  {
    AuthUser(c.uid, c.email, JsText.OrElse(c.role, "user"))
  }

  predicate HasBearerPrefix(header: Option<string>) {
    header.Some? && JsText.StartsWith(header.value, "Bearer ")
  }

  /** The authentication middlewares: a header that is missing or does not
      start with `Bearer ` is refused, then an empty second word, then a token
      the verifier does not accept; every refusal is a 401. */
  function Authenticate(header: Option<string>, verifier: Verifier): (r: Result<AuthUser, Response>)
    ensures !HasBearerPrefix(header) ==> r == Err(MessageReply(401, NoTokenMessage))
    ensures r.Err? ==> r.error.status == 401
    ensures r.Ok? <==>
              HasBearerPrefix(header) && JsText.Truthy(TokenOf(header.value))
              && TokenOf(header.value).value in verifier
    ensures r.Ok? ==> r.value == UserOf(verifier[TokenOf(header.value).value])
  {
    if !HasBearerPrefix(header) then Err(MessageReply(401, NoTokenMessage))
    else
      var token := TokenOf(header.value);
      if !JsText.Truthy(token) then Err(MessageReply(401, BadFormatMessage))
      else if token.value !in verifier then Err(MessageReply(401, BadTokenMessage))
      else Ok(UserOf(verifier[token.value]))
  }

  /** The token is the text after `Bearer ` up to the next space. */
  lemma TokenIsSecondWord(word: string, rest: string)
    requires ' ' !in word
    requires rest == [] || rest[0] == ' '
    ensures TokenOf("Bearer " + word + rest) == Some(word)
  {
    var h := "Bearer " + word + rest;
    assert h == "Bearer" + [' '] + (word + rest);
    JsText.SplitAtFirstSeparator("Bearer", ' ', word + rest);
    JsText.FirstPiece(word, ' ', rest);
  }

  /** `Bearer ` with nothing after it, or with a second space right after it,
      is refused as a malformed token whatever the verifier accepts. */
  lemma EmptyTokenRefused(rest: string, verifier: Verifier)
    requires rest == [] || rest[0] == ' '
    ensures Authenticate(Some("Bearer " + rest), verifier) == Err(MessageReply(401, BadFormatMessage))
  {
    var h := "Bearer " + rest;
    TokenIsSecondWord("", rest);
    assert "Bearer " + "" + rest == h;
    assert TokenOf(h) == Some("");
    assert h[..7] == "Bearer ";
    assert HasBearerPrefix(Some(h));
  }

  /** A header `Bearer <token>` with a token the verifier accepts authenticates
      as the token's user, with role `user` when the token carries none. */
  lemma VerifiedTokenAuthenticates(word: string, rest: string, verifier: Verifier)
    requires word != [] && ' ' !in word
    requires rest == [] || rest[0] == ' '
    requires word in verifier
    ensures Authenticate(Some("Bearer " + word + rest), verifier) == Ok(UserOf(verifier[word]))
  {
    TokenIsSecondWord(word, rest);
    var h := "Bearer " + word + rest;
    assert JsText.StartsWith(h, "Bearer ") by {
      assert h[..7] == "Bearer ";
    }
  }

  /** A header in another scheme, such as `Basic ...` or `bearer ...` (the
      test is case-sensitive), never reaches the verifier. */
  lemma OtherSchemeRefused(scheme: string, credentials: string, verifier: Verifier)
    requires ' ' !in scheme && scheme != "Bearer"
    ensures Authenticate(Some(scheme + " " + credentials), verifier) == Err(MessageReply(401, NoTokenMessage))
  {
    var h := scheme + " " + credentials;
    if |scheme| < 6 {
      assert h[|scheme|] == ' ' && "Bearer "[|scheme|] != ' ';
    } else if |scheme| == 6 {
      assert h[..6] == scheme;
    } else {
      assert h[6] == scheme[6] && scheme[6] != ' ';
    }
    assert !JsText.StartsWith(h, "Bearer ");
  }

  /** `authorizeAdmin`: only a user whose role is `admin` passes; everyone
      else, including an unauthenticated request, gets a 403. */
  function AuthorizeAdmin(user: Option<AuthUser>): (g: Gate)
    ensures g == Next <==> user.Some? && user.value.role == "admin"
    ensures g != Next ==> g == Halt(MessageReply(403, AdminOnlyMessage))
  {
    if user.Some? && user.value.role == "admin" then Next
    else Halt(MessageReply(403, AdminOnlyMessage))
  }

  /** `req.params[name]`, absent when the route has no such parameter. */
  function Param(params: map<string, string>, name: string): Option<string> {
    if name in params then Some(params[name]) else None
  }

  /** The school a request is about: `params.id`, else `params.schoolId`. */
  function SchoolParam(params: map<string, string>): (r: Option<string>)
    ensures JsText.Truthy(Param(params, "id")) ==> r == Param(params, "id")
    ensures !JsText.Truthy(Param(params, "id")) ==> r == Param(params, "schoolId")
  {
    if JsText.Truthy(Param(params, "id")) then Param(params, "id") else Param(params, "schoolId")
  }

  /** `authorizeSchoolOwner`: the request passes exactly when it names a school
      and the authenticated user's uid is that school's id. */
  function AuthorizeSchoolOwner(params: map<string, string>, user: Option<AuthUser>): (g: Gate)
    ensures g == Next <==>
              JsText.Truthy(SchoolParam(params)) && user.Some? && user.value.uid == SchoolParam(params).value
    ensures g != Next ==> g == Halt(MessageReply(403, NotSchoolOwnerMessage))
  {
    var schoolId := SchoolParam(params);
    if !JsText.Truthy(schoolId) || user.None? || user.value.uid != schoolId.value then
      Halt(MessageReply(403, NotSchoolOwnerMessage))
    else Next
  }

  /** A non-empty `id` parameter decides alone: `schoolId` is then ignored. */
  lemma SchoolOwnerIdTakesPrecedence(id: string, other: string, user: Option<AuthUser>)
    requires id != ""
    ensures AuthorizeSchoolOwner(map["id" := id, "schoolId" := other], user)
         == AuthorizeSchoolOwner(map["id" := id], user)
  {
    assert Param(map["id" := id, "schoolId" := other], "id") == Some(id);
    assert Param(map["id" := id], "id") == Some(id);
  }

  /** `req.user?.uid` as a value that `===` compares with a stored field. */
  function UidValue(user: Option<AuthUser>): Option<Value> {
    if user.Some? then Some(Str(user.value.uid)) else None
  }

  /** `authorizeCampaignOwner`: a missing id is a 400, an unknown campaign a
      404, and a campaign whose `schoolId` differs from the user's uid a 403,
      checked in that order. A stored `schoolId` compares with `===`, so a
      campaign without one is passed to a request without a user. */
  function AuthorizeCampaignOwner(params: map<string, string>, campaigns: map<string, Doc>,
                                  user: Option<AuthUser>): (g: Gate)
    ensures !JsText.Truthy(Param(params, "id")) ==> g == Halt(MessageReply(400, "Campaign ID is required"))
    ensures JsText.Truthy(Param(params, "id")) && params["id"] !in campaigns ==>
              g == Halt(MessageReply(404, "Campaign not found"))
    ensures g == Next <==>
              JsText.Truthy(Param(params, "id")) && params["id"] in campaigns
              && Get(campaigns[params["id"]], "schoolId") == UidValue(user)
    ensures g.Halt? && g.reply.status == 403 ==> g == Halt(MessageReply(403, NotCampaignOwnerMessage))
  {
    var id := Param(params, "id");
    if !JsText.Truthy(id) then Halt(MessageReply(400, "Campaign ID is required"))
    else if id.value !in campaigns then Halt(MessageReply(404, "Campaign not found"))
    else if Get(campaigns[id.value], "schoolId") != UidValue(user) then
      Halt(MessageReply(403, NotCampaignOwnerMessage))
    else Next
  }

  /** The owner of a campaign is always let through. */
  lemma CampaignOwnerPasses(id: string, campaigns: map<string, Doc>, u: AuthUser)
    requires id != "" && id in campaigns
    requires Get(campaigns[id], "schoolId") == Some(Str(u.uid))
    ensures AuthorizeCampaignOwner(map["id" := id], campaigns, Some(u)) == Next
  {
    assert Param(map["id" := id], "id") == Some(id);
  }

  /** A request without a user passes for a campaign that has no `schoolId`. */
  lemma UnownedCampaignPassesWithoutUser(id: string, campaigns: map<string, Doc>)
    requires id != "" && id in campaigns && "schoolId" !in campaigns[id]
    ensures AuthorizeCampaignOwner(map["id" := id], campaigns, None) == Next
  {
    assert Param(map["id" := id], "id") == Some(id);
  }
}

=== FILE: campaign_form.dfy ===
/** The create-campaign form: the checks run on submit and the order they run
    in, the image checks done before uploading, the payload sent, and the
    edits of the name and the additional-image list. */
module CampaignForm {
  import opened Wrappers
  import JsText
  import Seqs
  import ImageFiles

  datatype Form = Form(
    name: string, media: Option<ImageFiles.File>, category: string,
    description: string, additionalFiles: seq<ImageFiles.File>)

  const MaxNameLength: nat := 60
  const MinImages: nat := 3
  const MaxImages: nat := 5

  const LoginMessage: string := "Please login to create a campaign"
  const NameMessage: string := "Please enter a campaign name"
  const MediaMessage: string := "Please upload challenge media"
  const CategoryMessage: string := "Please select a challenge category"
  const DescriptionMessage: string := "Please enter a description"
  const TargetMessage: string := "Please enter a valid donation target amount"
  const TooFewMessage: string := "Please upload at least 3 additional images"
  const TooManyMessage: string := "Please upload no more than 5 additional images"
  const SizeMessage: string := "File size must be less than 4MB"
  const TypeMessage: string := "Please upload a valid image file (JPEG, PNG, GIF, or WebP)"

  /** `validateFile`: the size is checked before the type. */
  function FileProblem(f: ImageFiles.File): (r: Option<string>)
    ensures r.None? <==> ImageFiles.AcceptableImage(f)
    ensures ImageFiles.TooLarge(f) ==> r == Some(SizeMessage)
    ensures !ImageFiles.TooLarge(f) && !ImageFiles.IsImageType(f.mimeType) ==> r == Some(TypeMessage)
  {
    if ImageFiles.TooLarge(f) then Some(SizeMessage)
    else if !ImageFiles.IsImageType(f.mimeType) then Some(TypeMessage)
    else None
  }

  /** The checks of `handleSubmit`, in order; only the first failing one is
      reported. `user` is the signed-in uid and `target` what `parseFloat`
      made of the donation target (`None` for NaN). */
  function SubmitProblem(user: Option<string>, form: Form, target: Option<real>): (r: Option<string>)
    ensures r == Some(LoginMessage) <==> user.None?
    ensures r == Some(NameMessage) <==> user.Some? && JsText.Blank(form.name)
    ensures r == Some(MediaMessage) <==> user.Some? && !JsText.Blank(form.name) && form.media.None?
    ensures r == Some(CategoryMessage) <==>
              user.Some? && !JsText.Blank(form.name) && form.media.Some? && form.category == ""
    ensures r == Some(DescriptionMessage) <==>
              user.Some? && !JsText.Blank(form.name) && form.media.Some? && form.category != ""
              && JsText.Blank(form.description)
    ensures r == Some(TargetMessage) <==>
              user.Some? && !JsText.Blank(form.name) && form.media.Some? && form.category != ""
              && !JsText.Blank(form.description) && (target.None? || target.value <= 0.0)
    ensures r == Some(TooFewMessage) <==>
              user.Some? && !JsText.Blank(form.name) && form.media.Some? && form.category != ""
              && !JsText.Blank(form.description) && target.Some? && target.value > 0.0
              && |form.additionalFiles| < MinImages
    ensures r == Some(TooManyMessage) <==>
              user.Some? && !JsText.Blank(form.name) && form.media.Some? && form.category != ""
              && !JsText.Blank(form.description) && target.Some? && target.value > 0.0
              && |form.additionalFiles| > MaxImages
  {
    if user.None? then Some(LoginMessage)
    else if JsText.Blank(form.name) then Some(NameMessage)
    else if form.media.None? then Some(MediaMessage)
    else if form.category == "" then Some(CategoryMessage)
    else if JsText.Blank(form.description) then Some(DescriptionMessage)
    else if target.None? || target.value <= 0.0 then Some(TargetMessage)
    else if |form.additionalFiles| < MinImages then Some(TooFewMessage)
    else if |form.additionalFiles| > MaxImages then Some(TooManyMessage)
    else None
  }

  /** The submit checks pass exactly for a signed-in user with a non-blank
      name and description, media, a category, a positive target and three
      to five additional images. */
  lemma SubmitChecksPassIff(user: Option<string>, form: Form, target: Option<real>)
    ensures SubmitProblem(user, form, target).None? <==>
              && user.Some?
              && !JsText.Blank(form.name) && form.media.Some? && form.category != ""
              && !JsText.Blank(form.description)
              && target.Some? && target.value > 0.0
              && MinImages <= |form.additionalFiles| <= MaxImages
  {
  }

  /** The record sent to create the campaign. */
  datatype Payload = Payload(
    name: string, mediaUrl: string, category: string, description: string,
    goal: real, startDate: string, endDate: string, status: string,
    schoolId: string, amountRaised: int, additionalImages: seq<string>)

  /** `handleSubmit` end to end: the checks, then the media and every
      additional image validated in that order (the first bad one is
      reported), then the payload built from the uploaded URLs. The upload
      service's URLs and the two dates are inputs. */
  function Submit(user: Option<string>, form: Form, target: Option<real>,
                  mediaUrl: string, imageUrls: seq<string>, startDate: string, endDate: string): (r: Result<Payload, string>)
    ensures r.Ok? <==>
              && SubmitProblem(user, form, target).None?
              && ImageFiles.AcceptableImage(form.media.value)
              && forall k | 0 <= k < |form.additionalFiles| :: ImageFiles.AcceptableImage(form.additionalFiles[k])
    ensures SubmitProblem(user, form, target).Some? ==> r == Err(SubmitProblem(user, form, target).value)
    ensures SubmitProblem(user, form, target).None? && !ImageFiles.AcceptableImage(form.media.value) ==>
              r == Err(FileProblem(form.media.value).value)
    ensures SubmitProblem(user, form, target).None? && ImageFiles.AcceptableImage(form.media.value) ==>
              r.Err? ==> r == Err(ImageFiles.FirstProblem(form.additionalFiles, FileProblem).value)
    ensures r.Ok? ==>
              && r.value.name == form.name && r.value.category == form.category
              && r.value.description == form.description && r.value.goal == target.value
              && r.value.status == "active" && r.value.amountRaised == 0
              && r.value.schoolId == user.value
              && r.value.mediaUrl == mediaUrl && r.value.additionalImages == imageUrls
  {
    match SubmitProblem(user, form, target)
    case Some(m) => Err(m)
    case None =>
      assert ([form.media.value] + form.additionalFiles)[1..] == form.additionalFiles;
      match ImageFiles.FirstProblem([form.media.value] + form.additionalFiles, FileProblem)
      case Some(m) => Err(m)
      case None =>
        assert forall k | 0 <= k < |form.additionalFiles| ::
          form.additionalFiles[k] == ([form.media.value] + form.additionalFiles)[k + 1];
        Ok(Payload(form.name, mediaUrl, form.category, form.description, target.value,
                   startDate, endDate, "active", user.value, 0, imageUrls))
  }

  /** Typing in the name box: text longer than 60 characters is ignored. */
  function EditName(current: string, typed: string): (r: string)
    ensures |typed| <= MaxNameLength ==> r == typed
    ensures |typed| > MaxNameLength ==> r == current
  {
    if |typed| <= MaxNameLength then typed else current
  }

  /** A name within the limit stays within it whatever is typed. */
  lemma NameStaysWithinLimit(current: string, typed: string)
    requires |current| <= MaxNameLength
    ensures |EditName(current, typed)| <= MaxNameLength
  {
  }

  /** Picking more images: the new files go after the current ones and the
      list is cut to five. */
  function AddImages<T>(current: seq<T>, picked: seq<T>): (r: seq<T>)
    ensures |r| == if |current| + |picked| <= MaxImages then |current| + |picked| else MaxImages
    ensures forall k | 0 <= k < |r| && k < |current| :: r[k] == current[k]
    ensures forall k | |current| <= k < |r| :: r[k] == picked[k - |current|]
  {
    Seqs.Take(current + picked, MaxImages)
  }

  /** A list within the cap keeps all its images, in order, when more are picked. */
  lemma AddImagesKeepsCurrent<T>(current: seq<T>, picked: seq<T>)
    requires |current| <= MaxImages
    ensures AddImages(current, picked)[..|current|] == current
    ensures |AddImages(current, picked)| <= MaxImages
  {
  }

  /** `filter((_, i) => i !== index)`: the image at `index` goes, the rest keep
      their order; an index outside the list removes nothing. */
  function RemoveAt<T>(s: seq<T>, index: int): (r: seq<T>)
    ensures 0 <= index < |s| ==> |r| == |s| - 1
    ensures !(0 <= index < |s|) ==> r == s
    ensures forall k | 0 <= k < |r| && k < index :: r[k] == s[k]
    ensures forall k | 0 <= index <= k < |r| :: r[k] == s[k + 1]
  {
    if 0 <= index < |s| then s[..index] + s[index + 1..] else s
  }

  /** Putting the removed image back at its place restores the list. */
  lemma RemoveAtThenReinsert<T>(s: seq<T>, index: int)
    requires 0 <= index < |s|
    ensures RemoveAt(s, index)[..index] + [s[index]] + RemoveAt(s, index)[index..] == s
  {
    var r := RemoveAt(s, index);
    assert r[..index] == s[..index];
    assert r[index..] == s[index + 1..];
    assert s == s[..index] + [s[index]] + s[index + 1..];
  }
}

=== FILE: campaign_views.dfy ===
/** The campaign record as the frontend pages receive it, reduced to the
    fields they compute with. `startTime` is the start date in milliseconds
    (date parsing is not modelled). */
module CampaignCards {
  import Seqs

  datatype Card = Card(
    id: string, name: string, category: string, amountRaised: int,
    status: string, schoolId: string, startTime: int)

  /** The sum of `amountRaised` over a list, as `reduce` adds it up. */
  function Raised(cs: seq<Card>): int {
    if cs == [] then 0 else cs[0].amountRaised + Raised(cs[1..])
  }

  function OwnerIs(uid: string): Card -> bool {
    (c: Card) => c.schoolId == uid
  }

  function OwnerIsNot(uid: string): Card -> bool {
    (c: Card) => c.schoolId != uid
  }

  /** `campaigns.filter(c => c.schoolId === uid)`: the campaigns of one
      school, in the order given. */
  function OwnedBy(cs: seq<Card>, uid: string): (r: seq<Card>)
    ensures Seqs.IsSubsequence(r, cs)
    ensures forall k | 0 <= k < |r| :: r[k].schoolId == uid && r[k] in cs
    ensures forall k | 0 <= k < |cs| && cs[k].schoolId == uid :: cs[k] in r
  {
    Seqs.FilterIsSubsequence(OwnerIs(uid), cs);
    Seqs.Filter(OwnerIs(uid), cs)
  }

  /** The campaigns of other schools, in the order given. */
  function NotOwnedBy(cs: seq<Card>, uid: string): seq<Card> {
    Seqs.Filter(OwnerIsNot(uid), cs)
  }

  /** The money raised splits between one school's campaigns and the rest. */
  lemma {:induction false} RaisedSplitsByOwner(cs: seq<Card>, uid: string)
    ensures Raised(cs) == Raised(OwnedBy(cs, uid)) + Raised(NotOwnedBy(cs, uid))
  {
    if cs != [] {
      RaisedSplitsByOwner(cs[1..], uid);
      var own := OwnedBy(cs[1..], uid);
      var other := NotOwnedBy(cs[1..], uid);
      if cs[0].schoolId == uid {
        assert ([cs[0]] + own)[1..] == own;
      } else {
        assert ([cs[0]] + other)[1..] == other;
      }
    }
  }
}

/** The dashboard: the signed-in school's campaigns, its totals, and the two
    campaigns it shows. */
module Dashboard {
  import opened Wrappers
  import opened CampaignCards
  import Seqs
  import JsText

  datatype Stats = Stats(totalCampaigns: int, totalDonations: int, studentPopulation: int)

  const InitialStats: Stats := Stats(0, 0, 0)

  /** `auth.currentUser?.uid || ''`. */
  function CurrentUserId(uid: Option<string>): string {
    JsText.OrElse(uid, "")
  }

  /** The school's campaigns; none while the list has not arrived. */
  function UserCampaigns(campaigns: Option<seq<Card>>, uid: Option<string>): (r: seq<Card>)
    ensures campaigns.None? ==> r == []
    ensures campaigns.Some? ==> r == OwnedBy(campaigns.value, CurrentUserId(uid))
  {
    if campaigns.Some? then OwnedBy(campaigns.value, CurrentUserId(uid)) else []
  }

  /** The figures of the stat cards, recomputed once both the campaigns and
      the school have arrived; until then they keep their value. */
  function ComputeStats(previous: Stats, campaigns: Option<seq<Card>>, uid: Option<string>,
                        school: Option<Option<int>>): (r: Stats)
    ensures campaigns.None? || school.None? ==> r == previous
    ensures campaigns.Some? && school.Some? ==>
              && r.totalCampaigns == |UserCampaigns(campaigns, uid)|
              && r.totalDonations == Raised(UserCampaigns(campaigns, uid))
              && r.studentPopulation == (if school.value.Some? then school.value.value else 0)
  {
    if campaigns.None? || school.None? then previous
    else
      var mine := UserCampaigns(campaigns, uid);
      Stats(|mine|, Raised(mine), if school.value.Some? then school.value.value else 0)
  }

  /** The school's donations are the whole platform's minus the other
      schools' campaigns. */
  lemma DonationsAreTheSchoolsShare(previous: Stats, campaigns: seq<Card>, uid: Option<string>, students: Option<int>)
    ensures ComputeStats(previous, Some(campaigns), uid, Some(students)).totalDonations
            == Raised(campaigns) - Raised(NotOwnedBy(campaigns, CurrentUserId(uid)))
  {
    RaisedSplitsByOwner(campaigns, CurrentUserId(uid));
  }

  /** The "My campaigns" list shows the first two. */
  function Shown(campaigns: Option<seq<Card>>, uid: Option<string>): (r: seq<Card>)
    ensures |r| <= 2 && |r| <= |UserCampaigns(campaigns, uid)|
    ensures r == UserCampaigns(campaigns, uid)[..|r|]
    ensures |r| == 2 || r == UserCampaigns(campaigns, uid)
  {
    Seqs.Take(UserCampaigns(campaigns, uid), 2)
  }

  /** The banner title: the school's last campaign, else an invitation naming
      the school. */
  function BannerTitle(campaigns: Option<seq<Card>>, uid: Option<string>, schoolName: Option<string>): (t: string)
    ensures var mine := UserCampaigns(campaigns, uid);
            |mine| > 0 ==> t == mine[|mine| - 1].name
    ensures UserCampaigns(campaigns, uid) == [] ==> t == "Support " + JsText.OrElse(schoolName, "Your School")
  {
    var mine := UserCampaigns(campaigns, uid);
    if |mine| > 0 then mine[|mine| - 1].name else "Support " + JsText.OrElse(schoolName, "Your School")
  }
}

/** The "My campaigns" page: the signed-in school's campaigns sorted by start
    date, newest or oldest first, shown in two lists of two and five. */
module CampaignList {
  import opened Wrappers
  import opened CampaignCards
  import Seqs
  import JsText

  datatype SortOrder = Recent | Oldest

  /** The campaigns owned by the signed-in user; a missing user owns none,
      since no stored school id is `undefined`. */
  function Owned(all: Option<seq<Card>>, uid: Option<string>): (r: seq<Card>)
    ensures all.None? || uid.None? ==> r == []
    ensures all.Some? && uid.Some? ==> r == OwnedBy(all.value, uid.value)
  {
    if all.Some? && uid.Some? then OwnedBy(all.value, uid.value) else []
  }

  /** `a` must come strictly before `b` under the comparator: a later start
      for Recent, an earlier one for Oldest. */
  predicate Precedes(a: Card, b: Card, order: SortOrder) {
    match order
    case Recent => a.startTime > b.startTime
    case Oldest => a.startTime < b.startTime
  }

  /** No later element must come strictly before an earlier one. */
  predicate Sorted(s: seq<Card>, order: SortOrder) {
    forall i, j | 0 <= i < j < |s| :: !Precedes(s[j], s[i], order)
  }

  /** `x` placed in front of the first element it must precede, so after every
      element of equal date. The contract states only order and contents; the
      relative order of equal dates is not part of it. */
  function Insert(s: seq<Card>, x: Card, order: SortOrder): (r: seq<Card>)
    requires Sorted(s, order)
    ensures Sorted(r, order)
    ensures multiset(r) == multiset(s) + multiset{x}
    ensures |r| == |s| + 1
  {
    if s == [] then [x]
    else if Precedes(x, s[0], order) then
      [x] + s
    else
      var rest := Insert(s[1..], x, order);
      assert s == [s[0]] + s[1..];
      assert forall k | 0 <= k < |rest| :: !Precedes(rest[k], s[0], order) by {
        forall k | 0 <= k < |rest|
          ensures !Precedes(rest[k], s[0], order)
        {
          assert rest[k] in multiset(rest);
          assert rest[k] in multiset(s[1..]) || rest[k] == x;
        }
      }
      [s[0]] + rest
  }

  /** `[...campaigns].sort(...)`: a sorted copy holding exactly the same
      campaigns; the input list itself is a value and so unchanged. */
  function SortCampaigns(cs: seq<Card>, order: SortOrder): (r: seq<Card>)
    ensures Sorted(r, order)
    ensures multiset(r) == multiset(cs)
    ensures |r| == |cs|
  {
    if cs == [] then []
    else
      assert cs == cs[..|cs| - 1] + [cs[|cs| - 1]];
      Insert(SortCampaigns(cs[..|cs| - 1], order), cs[|cs| - 1], order)
  }

  /** The short and the full list: the first two and the first five. */
  function Views(all: Option<seq<Card>>, uid: Option<string>, order: SortOrder): (r: (seq<Card>, seq<Card>))
    ensures var sorted := SortCampaigns(Owned(all, uid), order);
            && |r.0| <= 2 && |r.0| <= |sorted| && r.0 == sorted[..|r.0|]
            && |r.1| <= 5 && |r.1| <= |sorted| && r.1 == sorted[..|r.1|]
  {
    var sorted := SortCampaigns(Owned(all, uid), order);
    (Seqs.Take(sorted, 2), Seqs.Take(sorted, 5))
  }

  /** `status.charAt(0).toUpperCase() + status.slice(1)`. */
  function StatusLabel(status: string): (r: string)
    ensures |r| == |status|
    ensures |status| > 0 ==> r[0] == JsText.UpperChar(status[0]) && r[1..] == status[1..]
  {
    if status == [] then [] else [JsText.UpperChar(status[0])] + status[1..]
  }
}

/** The donate page: the category chips and the campaigns of the chosen one. */
module DonateCategories {
  import opened CampaignCards
  import Seqs

  const AllCategories: string := "all"

  /** `Array.from(new Set(xs))`: each value once, where it first occurs. */
  function Distinct(xs: seq<string>): (r: seq<string>)
    ensures Seqs.NoDuplicates(r)
    ensures forall k | 0 <= k < |r| :: r[k] in xs
    ensures forall k | 0 <= k < |xs| :: xs[k] in r
  {
    if xs == [] then []
    else
      var init := xs[..|xs| - 1];
      var last := xs[|xs| - 1];
      var d := Distinct(init);
      assert xs == init + [last];
      if last in d then d else d + [last]
  }

  /** The distinct values come in the order of their first occurrences, as a
      `Set` iterates in insertion order. */
  lemma {:induction false} DistinctInFirstOccurrenceOrder(xs: seq<string>)
    ensures Seqs.InFirstOccurrenceOrder(Distinct(xs), xs)
  {
    if xs != [] {
      var init := xs[..|xs| - 1];
      var last := xs[|xs| - 1];
      DistinctInFirstOccurrenceOrder(init);
      assert xs == init + [last];
      var d := Distinct(init);
      forall k | 0 <= k < |d|
        ensures Seqs.FirstIndex(xs, d[k]) == Seqs.FirstIndex(init, d[k])
      {
        Seqs.FirstIndexAppend(init, last, d[k]);
      }
      if last !in d {
        assert last !in init;
        Seqs.FirstIndexAppend(init, last, last);
        var r := d + [last];
        forall i, j | 0 <= i < j < |r|
          ensures Seqs.FirstIndex(xs, r[i]) < Seqs.FirstIndex(xs, r[j])
        {
          assert r[i] == d[i];
          if j < |d| {
            assert r[j] == d[j];
          }
        }
      }
    }
  }

  /** The distinct values are a subsequence of the input. */
  lemma {:induction false} DistinctIsSubsequence(xs: seq<string>)
    ensures Seqs.IsSubsequence(Distinct(xs), xs)
  {
    if xs != [] {
      var init := xs[..|xs| - 1];
      var last := xs[|xs| - 1];
      DistinctIsSubsequence(init);
      assert xs == init + [last];
      Seqs.SubsequenceAppend(Distinct(init), init, last);
    }
  }

  function Categories(cs: seq<Card>): seq<string> {
    Seqs.Map((c: Card) => c.category, cs)
  }

  /** The chip ids: `all`, then each non-empty category once. */
  function CategoryIds(cs: seq<Card>): (r: seq<string>)
    ensures |r| >= 1 && r[0] == AllCategories
    ensures forall k | 1 <= k < |r| :: r[k] != "" && r[k] in Categories(cs)
    ensures forall k | 0 <= k < |cs| && cs[k].category != "" :: cs[k].category in r[1..]
    ensures Seqs.NoDuplicates(r[1..])
  {
    var d := Distinct(Categories(cs));
    var named := Seqs.Filter((c: string) => c != "", d);
    Seqs.FilterNoDuplicates((c: string) => c != "", d);
    assert ([AllCategories] + named)[1..] == named;
    [AllCategories] + named
  }

  /** The named chips follow the order in which the categories first occur. */
  lemma CategoryIdsFollowFirstOccurrence(cs: seq<Card>)
    ensures Seqs.InFirstOccurrenceOrder(CategoryIds(cs)[1..], Categories(cs))
    ensures Seqs.IsSubsequence(CategoryIds(cs)[1..], Categories(cs))
  {
    var d := Distinct(Categories(cs));
    var named := Seqs.Filter((c: string) => c != "", d);
    assert CategoryIds(cs)[1..] == named;
    DistinctInFirstOccurrenceOrder(Categories(cs));
    Seqs.FilterKeepsFirstOccurrenceOrder((c: string) => c != "", d, Categories(cs));
    Seqs.FilterIsSubsequence((c: string) => c != "", d);
    DistinctIsSubsequence(Categories(cs));
    Seqs.SubsequenceTransitive(named, d, Categories(cs));
  }

  /** The chips are all distinct unless some campaign's category is itself `all`. */
  lemma ChipsDistinctUnlessCategoryAll(cs: seq<Card>)
    requires forall k | 0 <= k < |cs| :: cs[k].category != AllCategories
    ensures Seqs.NoDuplicates(CategoryIds(cs))
  {
    var r := CategoryIds(cs);
    forall i, j | 0 <= i < j < |r|
      ensures r[i] != r[j]
    {
      if i == 0 {
        assert r[j] in Categories(cs);
      } else {
        assert r[i] == r[1..][i - 1] && r[j] == r[1..][j - 1];
      }
    }
  }

  /** The campaigns of the chosen chip: all of them for `all`, otherwise those
      of that category, in order. */
  function FilterByCategory(cs: seq<Card>, selected: string): (r: seq<Card>)
    ensures selected == AllCategories ==> r == cs
    ensures selected != AllCategories ==>
              && (forall k | 0 <= k < |r| :: r[k].category == selected && r[k] in cs)
              && (forall k | 0 <= k < |cs| && cs[k].category == selected :: cs[k] in r)
  {
    if selected == AllCategories then cs
    else Seqs.Filter((c: Card) => c.category == selected, cs)
  }

  /** The shown campaigns are always a subsequence of the list. */
  lemma FilterIsSubsequenceOfCampaigns(cs: seq<Card>, selected: string)
    ensures Seqs.IsSubsequence(FilterByCategory(cs, selected), cs)
  {
    if selected == AllCategories {
      Seqs.FilterAll((c: Card) => true, cs);
      Seqs.FilterIsSubsequence((c: Card) => true, cs);
    } else {
      Seqs.FilterIsSubsequence((c: Card) => c.category == selected, cs);
    }
  }
}

=== FILE: campaigns.dfy ===
/** The campaigns service and the campaign controller of the backend. */
module Campaigns {
  import opened Wrappers
  import opened Json
  import opened Http
  import opened Firestore
  import Seqs
  import Paging
  import JsText
  import Auth

  const NotFound: string := "Campaign not found"
  const NotOwner: string := "Forbidden: You do not own this campaign"

  /** The fields `createCampaign` sets whatever the request holds. */
  const ForcedKeys: set<string> := {"schoolId", "amountRaised", "featured", "status", "createdAt", "updatedAt"}

  function ForcedFields(userId: string, createdAt: string, updatedAt: string): (f: Doc)
    ensures f.Keys == ForcedKeys
  {
    map["schoolId" := Str(userId), "amountRaised" := Num(0), "featured" := Bool(false),
        "status" := Str("active"), "createdAt" := Str(createdAt), "updatedAt" := Str(updatedAt)]
  }

  /** A new campaign: the given fields, overridden by the forced ones. */
  function NewCampaign(data: Doc, userId: string, createdAt: string, updatedAt: string): (c: Doc)
    ensures c.Keys == data.Keys + ForcedKeys
    ensures c["schoolId"] == Str(userId) && c["amountRaised"] == Num(0)
    ensures c["featured"] == Bool(false) && c["status"] == Str("active")
    ensures c["createdAt"] == Str(createdAt) && c["updatedAt"] == Str(updatedAt)
    ensures forall k | k in data && k !in ForcedKeys :: c[k] == data[k]
  {
    data + ForcedFields(userId, createdAt, updatedAt)
  }

  /** `CampaignsService.createCampaign`: adds the campaign under the fresh id
      Firestore picks and returns it with that id; one timestamp is used for
      both `createdAt` and `updatedAt`. */
  function CreateCampaign(store: Collection, data: Doc, userId: string, timestamp: string, newId: string): (r: Written)
    ensures r.store == store[newId := NewCampaign(data, userId, timestamp, timestamp)]
    ensures r.result == WithId(newId, r.store[newId])
    ensures r.result["createdAt"] == r.result["updatedAt"]
  {
    var c := NewCampaign(data, userId, timestamp, timestamp);
    Written(store[newId := c], WithId(newId, c))
  }

  /** Whatever the request holds, a created campaign belongs to the caller,
      has raised nothing, is not featured and is active. */
  lemma CreatedCampaignIsFresh(store: Collection, data: Doc, userId: string, timestamp: string, newId: string)
    ensures var c := CreateCampaign(store, data, userId, timestamp, newId).result;
            && c["schoolId"] == Str(userId) && c["amountRaised"] == Num(0)
            && c["featured"] == Bool(false) && c["status"] == Str("active")
            && c["createdAt"] == c["updatedAt"] == Str(timestamp)
  {
  }

  /** The filters `getAllCampaigns` receives; destructuring defaults replace
      only missing ones. */
  datatype ListFilters = ListFilters(category: Option<string>, featured: Option<bool>,
                                     status: Option<string>, limit: Option<int>, page: Option<int>)

  function StatusFilter(f: ListFilters): string {
    f.status.GetOr("active")
  }

  function LimitOf(f: ListFilters): int {
    f.limit.GetOr(10)
  }

  function PageOf(f: ListFilters): int {
    f.page.GetOr(1)
  }

  /** A campaign the service's query selects. */
  predicate Selected(e: Entry, status: string, category: Option<string>, featured: bool) {
    && Get(e.data, "status") == Some(Str(status))
    && (JsText.Truthy(category) ==> Get(e.data, "category") == Some(Str(category.value)))
    && (featured ==> Get(e.data, "featured") == Some(Bool(true)))
  }

  /** The status query, narrowed by category when one is given and to
      featured campaigns when that is asked for. */
  function Query(entries: seq<Entry>, status: string, category: Option<string>, featured: bool): (r: seq<Entry>)
    ensures forall k | 0 <= k < |r| :: Selected(r[k], status, category, featured)
    ensures forall k | 0 <= k < |entries| && Selected(entries[k], status, category, featured) :: entries[k] in r
    ensures Seqs.IsSubsequence(r, entries)
  {
    var p := (e: Entry) => Selected(e, status, category, featured);
    Seqs.FilterIsSubsequence(p, entries);
    Seqs.Filter(p, entries)
  }

  datatype Listing = Listing(campaigns: seq<Doc>, pagination: Paging.Pagination)

  /** `CampaignsService.getAllCampaigns`: one page of the selected campaigns,
      with the total and the page count of the whole selection. */
  function GetAllCampaigns(entries: seq<Entry>, f: ListFilters): (r: Listing)
    requires LimitOf(f) > 0 && PageOf(f) >= 1
    ensures |r.campaigns| <= LimitOf(f)
    ensures forall k | 0 <= k < |r.campaigns| :: Get(r.campaigns[k], "status") == Some(Str(StatusFilter(f)))
  {
    var limit := LimitOf(f);
    var page := PageOf(f);
    var q := Query(entries, StatusFilter(f), f.category, f.featured == Some(true));
    Paging.MulMonotone(0, page - 1, limit);
    var w := Paging.Window(q, Paging.Offset(page, limit), limit);
    ListedKeepStatus(w, StatusFilter(f), f.category, f.featured == Some(true));
    Listing(Seqs.Map(EntryWithId, w), Paging.Pagination(|q|, page, limit, Paging.PageCount(|q|, limit)))
  }

  lemma ListedKeepStatus(w: seq<Entry>, status: string, category: Option<string>, featured: bool)
    requires forall k | 0 <= k < |w| :: Selected(w[k], status, category, featured)
    ensures forall k | 0 <= k < |w| :: Get(EntryWithId(w[k]), "status") == Some(Str(status))
  {
  }

  /** The listed campaigns are the selection's window at `(page - 1) * limit`,
      each with its id, and the pagination reports the size of the whole
      selection and `Math.ceil(total / limit)` pages. */
  lemma ListPageIsWindow(entries: seq<Entry>, f: ListFilters)
    requires LimitOf(f) > 0 && PageOf(f) >= 1
    ensures var q := Query(entries, StatusFilter(f), f.category, f.featured == Some(true));
            var r := GetAllCampaigns(entries, f);
            && Paging.Offset(PageOf(f), LimitOf(f)) >= 0
            && r.pagination == Paging.Pagination(|q|, PageOf(f), LimitOf(f), Paging.PageCount(|q|, LimitOf(f)))
            && r.campaigns == Seqs.Map(EntryWithId, Paging.Window(q, Paging.Offset(PageOf(f), LimitOf(f)), LimitOf(f)))
  {
    Paging.MulMonotone(0, PageOf(f) - 1, LimitOf(f));
  }

  /** Filters left out are status `active`, ten per page and the first page. */
  lemma ListDefaults(entries: seq<Entry>)
    ensures GetAllCampaigns(entries, ListFilters(None, None, None, None, None))
         == GetAllCampaigns(entries, ListFilters(None, None, Some("active"), Some(10), Some(1)))
  {
  }

  /** A page past the last one is empty, and every page up to the page count
      holds at least one campaign. */
  lemma {:induction false} ListPageNonEmptyIffWithinCount(entries: seq<Entry>, f: ListFilters)
    requires LimitOf(f) > 0 && PageOf(f) >= 1
    ensures var r := GetAllCampaigns(entries, f);
            |r.campaigns| > 0 <==> PageOf(f) <= r.pagination.pages
  {
    var q := Query(entries, StatusFilter(f), f.category, f.featured == Some(true));
    Paging.PageNonEmptyIffWithinCount(q, PageOf(f), LimitOf(f));
  }

  /** `getCampaignsBySchoolId`: the school's campaigns in query order. */
  function GetCampaignsBySchoolId(entries: seq<Entry>, schoolId: string): (r: seq<Doc>)
    ensures |r| == |WhereEquals(entries, "schoolId", Str(schoolId))|
    ensures forall k | 0 <= k < |r| :: "schoolId" in r[k] && r[k]["schoolId"] == Str(schoolId)
  {
    var q := WhereEquals(entries, "schoolId", Str(schoolId));
    var r := Seqs.Map(EntryWithId, q);
    assert forall k | 0 <= k < |r| :: Get(q[k].data, "schoolId") == Some(Str(schoolId));
    r
  }

  /** `updateCampaign`: a missing campaign is reported before ownership is
      looked at; the owner's patch, stamped with `updatedAt`, is written and
      the merged campaign returned. */
  function UpdateCampaign(store: Collection, id: string, patch: Doc, userId: string, timestamp: string)
    : (r: Result<Written, string>)
    ensures id !in store ==> r == Err(NotFound)
    ensures id in store && !OwnedBy(store[id], userId) ==> r == Err(NotOwner)
    ensures r.Ok? <==> id in store && OwnedBy(store[id], userId)
    ensures r.Ok? ==>
              && r.value.store == Patch(store, id, patch["updatedAt" := Str(timestamp)])
              && r.value.result == map["id" := Str(id)] + store[id] + patch["updatedAt" := Str(timestamp)]
  {
    if id !in store then Err(NotFound)
    else if !OwnedBy(store[id], userId) then Err(NotOwner)
    else
      var updated := patch["updatedAt" := Str(timestamp)];
      Ok(Written(Patch(store, id, updated), map["id" := Str(id)] + store[id] + updated))
  }

  /** In the returned campaign the fresh `updatedAt` wins, then the patch,
      then the stored fields, then the id. */
  lemma {:induction false} UpdateResultPrecedence(store: Collection, id: string, patch: Doc,
                                                  userId: string, timestamp: string, k: string)
    requires UpdateCampaign(store, id, patch, userId, timestamp).Ok?
    ensures var res := UpdateCampaign(store, id, patch, userId, timestamp).value.result;
            && ((k in res) <==> (k == "id" || k == "updatedAt" || k in patch || k in store[id]))
            && (k == "updatedAt" ==> res[k] == Str(timestamp))
            && (k != "updatedAt" && k in patch ==> res[k] == patch[k])
            && (k != "updatedAt" && k !in patch && k in store[id] ==> res[k] == store[id][k])
            && (k == "id" && k !in patch && k !in store[id] ==> res[k] == Str(id))
  {
  }

  /** `deleteCampaign`: the same two checks, then the campaign is removed. */
  function DeleteCampaign(store: Collection, id: string, userId: string): (r: Result<Collection, string>)
    ensures id !in store ==> r == Err(NotFound)
    ensures id in store && !OwnedBy(store[id], userId) ==> r == Err(NotOwner)
    ensures r.Ok? <==> id in store && OwnedBy(store[id], userId)
    ensures r.Ok? ==> r.value == store - {id}
  {
    if id !in store then Err(NotFound)
    else if !OwnedBy(store[id], userId) then Err(NotOwner)
    else Ok(store - {id})
  }

  /** Deleting leaves every other campaign as it was, and the deleted one is gone. */
  lemma DeleteOnlyRemovesTarget(store: Collection, id: string, userId: string)
    requires DeleteCampaign(store, id, userId).Ok?
    ensures var s := DeleteCampaign(store, id, userId).value;
            id !in s && s.Keys == store.Keys - {id} && forall k | k in s :: s[k] == store[k]
  {
  }

  // ----- Controller -----

  /** `populateCampaignData`: when the campaign's school exists, `location` and
      `organizer` are filled from it with `''`, `'Anonymous'` and `null` as
      fallbacks; otherwise (also when the school id is not a usable document
      id and the lookup throws) the campaign is returned as it was. */
  function Populate(campaign: Doc, schools: Collection): (r: Doc)
  {
    match Get(campaign, "schoolId")
    case Some(Str(sid)) =>
      if ValidDocId(sid) && sid in schools then
        var school := schools[sid];
        campaign["location" := Obj(map["city" := Or(Get(school, "city"), Str("")),
                                        "country" := Or(Get(school, "country"), Str(""))])]
                ["organizer" := Obj(map["name" := Or(Get(school, "contactName"), Str("Anonymous")),
                                         "profileImage" := Or(Get(school, "profileImage"), Null)])]
      else campaign
    case _ => campaign
  }

  predicate HasSchool(campaign: Doc, schools: Collection) {
    "schoolId" in campaign && campaign["schoolId"].Str?
    && ValidDocId(campaign["schoolId"].s) && campaign["schoolId"].s in schools
  }

  /** Population adds `location` and `organizer` and leaves every other field
      alone; without a school the campaign is returned unchanged. */
  lemma PopulateFields(campaign: Doc, schools: Collection)
    ensures !HasSchool(campaign, schools) ==> Populate(campaign, schools) == campaign
    ensures HasSchool(campaign, schools) ==>
              var r := Populate(campaign, schools);
              var school := schools[campaign["schoolId"].s];
              && r.Keys == campaign.Keys + {"location", "organizer"}
              && (forall k | k in campaign && k != "location" && k != "organizer" :: r[k] == campaign[k])
              && r["location"] == Obj(map["city" := Or(Get(school, "city"), Str("")),
                                          "country" := Or(Get(school, "country"), Str(""))])
              && r["organizer"] == Obj(map["name" := Or(Get(school, "contactName"), Str("Anonymous")),
                                           "profileImage" := Or(Get(school, "profileImage"), Null)])
  {
  }

  /** Populating an already populated campaign changes nothing. */
  lemma PopulateIdempotent(campaign: Doc, schools: Collection)
    ensures Populate(Populate(campaign, schools), schools) == Populate(campaign, schools)
  {
    var r := Populate(campaign, schools);
    if HasSchool(campaign, schools) {
      assert r["schoolId"] == campaign["schoolId"];
      assert HasSchool(r, schools);
      assert Populate(r, schools) == r;
    }
  }

  /** The controller's `createCampaign`: 401 without a user; otherwise the
      body with the forced fields (two separate clock readings) is added and
      echoed with its id under 201. */
  function CreateCampaignHandler(store: Collection, user: Option<Auth.AuthUser>, body: Doc,
                                 createdAt: string, updatedAt: string, newId: string): (r: Handled)
    ensures user.None? ==> r == Handled(store, Unauthorized)
    ensures user.Some? ==>
              var c := NewCampaign(body, user.value.uid, createdAt, updatedAt);
              r.store == store[newId := c] && r.reply == Response(201, Obj(WithId(newId, c)))
  {
    if user.None? then Handled(store, Unauthorized)
    else
      var c := NewCampaign(body, user.value.uid, createdAt, updatedAt);
      Handled(store[newId := c], Response(201, Obj(WithId(newId, c))))
  }

  /** The query string of the campaign list. */
  datatype ListQuery = ListQuery(category: Option<string>, featured: Option<string>, status: Option<string>)

  /** The controller's `getAllCampaigns`: status `req.query.status || 'active'`,
      a category when one is given, and the featured filter only for the exact
      text `true`; every campaign is populated and the whole list returned. */
  function GetAllCampaignsHandler(entries: seq<Entry>, schools: Collection, q: ListQuery): (r: Response)
    ensures r.status == 200 && r.body.Arr?
    ensures var sel := Query(entries, JsText.OrElse(q.status, "active"), q.category, q.featured == Some("true"));
            r.body.items == Seqs.Map((e: Entry) => Obj(Populate(EntryWithId(e), schools)), sel)
  {
    var sel := Query(entries, JsText.OrElse(q.status, "active"), q.category, q.featured == Some("true"));
    Response(200, Arr(Seqs.Map((e: Entry) => Obj(Populate(EntryWithId(e), schools)), sel)))
  }

  /** Any featured text other than `true` is the same as leaving it out, and an
      empty status is the same as `active`. */
  lemma ListQueryFallbacks(entries: seq<Entry>, schools: Collection, category: Option<string>, featured: string)
    requires featured != "true"
    ensures GetAllCampaignsHandler(entries, schools, ListQuery(category, Some(featured), Some("")))
         == GetAllCampaignsHandler(entries, schools, ListQuery(category, None, Some("active")))
  {
  }

  /** The controller's `getCampaign`. */
  function GetCampaignHandler(store: Collection, schools: Collection, id: string): (r: Response)
    ensures id !in store <==> r == MessageReply(404, NotFound)
    ensures id in store ==> r == Response(200, Obj(Populate(WithId(id, store[id]), schools)))
  {
    if id !in store then MessageReply(404, NotFound)
    else Response(200, Obj(Populate(WithId(id, store[id]), schools)))
  }

  /** The controller's `getSchoolCampaigns`: the school of `params.schoolId`,
      else the caller's own, populated. */
  function GetSchoolCampaignsHandler(entries: seq<Entry>, schools: Collection, user: Option<Auth.AuthUser>,
                                     schoolParam: Option<string>): (r: Response)
    ensures user.None? ==> r == Unauthorized
    ensures user.Some? ==>
              var sid := JsText.OrElse(schoolParam, user.value.uid);
              r == Response(200, Arr(Seqs.Map((e: Entry) => Obj(Populate(EntryWithId(e), schools)),
                                              WhereEquals(entries, "schoolId", Str(sid)))))
  {
    if user.None? then Unauthorized
    else
      var sid := JsText.OrElse(schoolParam, user.value.uid);
      Response(200, Arr(Seqs.Map((e: Entry) => Obj(Populate(EntryWithId(e), schools)),
                                 WhereEquals(entries, "schoolId", Str(sid)))))
  }

  function Uid(user: Option<Auth.AuthUser>): Option<string> {
    if user.Some? then Some(user.value.uid) else None
  }

  /** The controller's `updateCampaign`: 401, then 404, then 403, and only then
      the write; the reply echoes the id and the stamped patch. */
  function UpdateCampaignHandler(store: Collection, user: Option<Auth.AuthUser>, id: string,
                                 body: Doc, timestamp: string): (r: Handled)
    ensures OwnerCheck(store, Uid(user), id, NotFound, NotOwner).Some? ==>
              r == Handled(store, OwnerCheck(store, Uid(user), id, NotFound, NotOwner).value)
    ensures r.reply.status == 200 <==> user.Some? && id in store && OwnedBy(store[id], user.value.uid)
    ensures r.reply.status == 200 ==>
              var updated := body["updatedAt" := Str(timestamp)];
              r.store == Patch(store, id, updated) && r.reply == Response(200, Obj(map["id" := Str(id)] + updated))
  {
    match OwnerCheck(store, Uid(user), id, NotFound, NotOwner)
    case Some(refusal) => Handled(store, refusal)
    case None =>
      var updated := body["updatedAt" := Str(timestamp)];
      Handled(Patch(store, id, updated), Response(200, Obj(map["id" := Str(id)] + updated)))
  }

  /** For an authenticated caller the controller and the service refuse the
      same requests for the same reasons and write the same document. */
  lemma UpdateHandlerAgreesWithService(store: Collection, u: Auth.AuthUser, id: string,
                                       body: Doc, timestamp: string)
    ensures var h := UpdateCampaignHandler(store, Some(u), id, body, timestamp);
            var s := UpdateCampaign(store, id, body, u.uid, timestamp);
            && (h.reply.status == 404 <==> s == Err(NotFound))
            && (h.reply.status == 403 <==> s == Err(NotOwner))
            && (h.reply.status == 200 <==> s.Ok?)
            && (s.Ok? ==> h.store == s.value.store)
  {
  }
}

=== FILE: contacts.dfy ===
/** The contact people of the security settings: the school's own contact,
    always first and identified as `school-contact`, followed by additional
    contacts kept in the browser as a list, which can be added, edited and
    deleted by id. */
module Contacts {
  import opened Wrappers
  import JsText
  import JsNumber
  import Seqs

  datatype ContactPerson = ContactPerson(
    id: Option<string>, name: string, role: string,
    email: Option<string>, phone: Option<string>, staffId: Option<string>)

  const SchoolContactId: string := "school-contact"
  const SchoolRepresentative: string := "School Representative"
  const NoEmail: string := "No email available"

  const RequiredMessage: string := "Name and role are required"
  const DeleteSchoolContactMessage: string := "Cannot delete the main school contact. You can edit it instead."

  /** The contact fields of the school record. */
  datatype SchoolContact = SchoolContact(contactName: Option<string>, email: Option<string>, phone: Option<string>)

  /** What the settings page holds: the account email (`None` is `null`) and
      the contact list shown. */
  datatype SecurityView = SecurityView(email: Option<string>, contacts: seq<ContactPerson>)

  /** The contact the school record itself provides. */
  function SchoolContactPerson(s: SchoolContact): (c: ContactPerson)
    ensures c.id == Some(SchoolContactId) && c.role == SchoolRepresentative
    ensures c.name == JsText.OrElse(s.contactName, SchoolRepresentative)
    ensures c.email == s.email && c.phone == s.phone
  {
    ContactPerson(Some(SchoolContactId), JsText.OrElse(s.contactName, SchoolRepresentative), SchoolRepresentative,
                  s.email, s.phone, None)
  }

  /** `useSecurityData`'s effect. Without a user the account data is cleared;
      while the school record is loading or failed nothing changes; otherwise
      the account email (or a placeholder) is shown with the school contact in
      front of the stored ones, or with no contacts when there is no record. */
  function LoadSecurity(view: SecurityView, userId: Option<string>, schoolError: bool, schoolLoading: bool,
                        school: Option<SchoolContact>, authEmail: Option<string>, stored: seq<ContactPerson>): (r: SecurityView)
    ensures !JsText.Truthy(userId) ==> r == view.(email := None)
    ensures JsText.Truthy(userId) && (schoolError || schoolLoading) ==> r == view
    ensures JsText.Truthy(userId) && !schoolError && !schoolLoading ==>
              && r.email == Some(JsText.OrElse(authEmail, NoEmail))
              && (school.Some? ==> r.contacts == [SchoolContactPerson(school.value)] + stored)
              && (school.None? ==> r.contacts == [])
  {
    if !JsText.Truthy(userId) then view.(email := None)
    else if schoolError || schoolLoading then view
    else
      var contacts := if school.Some? then [SchoolContactPerson(school.value)] + stored else [];
      SecurityView(Some(JsText.OrElse(authEmail, NoEmail)), contacts)
  }

  /** What `handleAddContact` does. */
  datatype AddOutcome =
    | NoUser
    | Rejected(message: string)
    | SchoolContactUpdate(update: map<string, string>)
    | Stored(contacts: seq<ContactPerson>, message: string)

  /** The fields sent when the school contact is edited: the name always,
      email and phone only when non-empty. */
  function SchoolContactUpdateData(c: ContactPerson): (u: map<string, string>)
    ensures "contactName" in u && u["contactName"] == c.name
    ensures "email" in u <==> JsText.Truthy(c.email)
    ensures "phone" in u <==> JsText.Truthy(c.phone)
    ensures "email" in u ==> u["email"] == c.email.value
    ensures "phone" in u ==> u["phone"] == c.phone.value
    ensures u.Keys <= {"contactName", "email", "phone"}
  {
    var base := map["contactName" := c.name];
    var withEmail := if JsText.Truthy(c.email) then base["email" := c.email.value] else base;
    if JsText.Truthy(c.phone) then withEmail["phone" := c.phone.value] else withEmail
  }

  /** The edited contact put in place of every stored contact with its id. */
  function ReplaceById(stored: seq<ContactPerson>, id: string, c: ContactPerson): (r: seq<ContactPerson>)
    ensures |r| == |stored|
    ensures forall k | 0 <= k < |r| :: r[k] == if stored[k].id == Some(id) then c.(id := Some(id)) else stored[k]
  {
    seq(|stored|, k requires 0 <= k < |stored| => if stored[k].id == Some(id) then c.(id := Some(id)) else stored[k])
  }

  /** The id of a new contact: `contact-` and the current time in milliseconds. */
  function NewId(now: nat): string {
    "contact-" + JsNumber.ToDecimal(now)
  }

  /** `handleAddContact(contact, editing)`. Without a user nothing happens; a
      contact without name or role is refused; editing the school contact
      sends an update of the school record; editing another contact with an id
      replaces it in the stored list; anything else is appended with a new id. */
  function AddContact(userId: Option<string>, contact: ContactPerson, editing: Option<ContactPerson>,
                      stored: seq<ContactPerson>, now: nat): (r: AddOutcome)
    ensures r.NoUser? <==> !JsText.Truthy(userId)
    ensures JsText.Truthy(userId) && (contact.name == "" || contact.role == "") ==> r == Rejected(RequiredMessage)
    ensures r.SchoolContactUpdate? <==>
              JsText.Truthy(userId) && contact.name != "" && contact.role != ""
              && editing.Some? && editing.value.id == Some(SchoolContactId)
    ensures r.SchoolContactUpdate? ==> r.update == SchoolContactUpdateData(contact)
    ensures r.Stored? && editing.Some? && JsText.Truthy(editing.value.id) ==>
              && editing.value.id.value != SchoolContactId
              && r.contacts == ReplaceById(stored, editing.value.id.value, contact)
    ensures r.Stored? && !(editing.Some? && JsText.Truthy(editing.value.id)) ==>
              r.contacts == stored + [contact.(id := Some(NewId(now)))]
  {
    if !JsText.Truthy(userId) then NoUser
    else if contact.name == "" || contact.role == "" then Rejected(RequiredMessage)
    else if editing.Some? && editing.value.id == Some(SchoolContactId) then
      SchoolContactUpdate(SchoolContactUpdateData(contact))
    else if editing.Some? && JsText.Truthy(editing.value.id) then
      Stored(ReplaceById(stored, editing.value.id.value, contact), "Contact updated successfully")
    else
      Stored(stored + [contact.(id := Some(NewId(now)))], "Contact added successfully")
  }

  /** Editing keeps every stored contact's id, so the list's ids are unchanged. */
  lemma EditKeepsIds(stored: seq<ContactPerson>, id: string, c: ContactPerson)
    ensures forall k | 0 <= k < |stored| :: ReplaceById(stored, id, c)[k].id == stored[k].id
  {
  }

  /** `handleDeleteContact`: the school contact cannot be deleted; otherwise
      every stored contact with that id is dropped and the rest keep their order. */
  function DeleteContact(stored: seq<ContactPerson>, contactId: string): (r: Result<seq<ContactPerson>, string>)
    ensures contactId == SchoolContactId <==> r == Err(DeleteSchoolContactMessage)
    ensures r.Ok? ==> forall k | 0 <= k < |r.value| :: r.value[k].id != Some(contactId) && r.value[k] in stored
    ensures r.Ok? ==> forall k | 0 <= k < |stored| && stored[k].id != Some(contactId) :: stored[k] in r.value
  {
    if contactId == SchoolContactId then Err(DeleteSchoolContactMessage)
    else Ok(Seqs.Filter((c: ContactPerson) => c.id != Some(contactId), stored))
  }

  /** Deletion keeps the order of the remaining contacts. */
  lemma DeleteKeepsOrder(stored: seq<ContactPerson>, contactId: string)
    requires contactId != SchoolContactId
    ensures Seqs.IsSubsequence(DeleteContact(stored, contactId).value, stored)
  {
    Seqs.FilterIsSubsequence((c: ContactPerson) => c.id != Some(contactId), stored);
  }

  /** Deleting a contact just added, whose id no stored contact had, gives
      back the list as it was before the addition. */
  lemma DeleteUndoesAdd(userId: Option<string>, contact: ContactPerson, stored: seq<ContactPerson>, now: nat)
    requires JsText.Truthy(userId) && contact.name != "" && contact.role != ""
    requires forall k | 0 <= k < |stored| :: stored[k].id != Some(NewId(now))
    ensures AddContact(userId, contact, None, stored, now).Stored?
    ensures DeleteContact(AddContact(userId, contact, None, stored, now).contacts, NewId(now)) == Ok(stored)
  {
    var p := (c: ContactPerson) => c.id != Some(NewId(now));
    var added := contact.(id := Some(NewId(now)));
    assert NewId(now)[0] == 'c' != SchoolContactId[0];
    Seqs.FilterAppendDropped(p, stored, added);
    Seqs.FilterAll(p, stored);
  }
}

=== FILE: donation.dfy ===
/** The donation page's amount selection: a predefined amount and a typed
    custom amount exclude each other, the total shown follows whichever is
    set, and the donate button needs a payment method and an amount. */
module Donation {
  import opened Wrappers
  import JsNumber

  const PredefinedAmounts: seq<nat> := [50, 100, 150, 250]

  datatype PaymentMethod = Stripe | Apple

  datatype State = State(selected: Option<nat>, custom: string, payment: Option<PaymentMethod>)

  const Initial: State := State(None, "", None)

  /** JavaScript truthiness of `selectedAmount`: set and not zero. */
  predicate HasSelected(s: State) {
    s.selected.Some? && s.selected.value != 0
  }

  /** Clicking an amount button: the same amount again clears the selection,
      another amount replaces it; the custom amount is always cleared. */
  function PressAmount(s: State, amount: nat): (r: State)
    ensures r.custom == "" && r.payment == s.payment
    ensures s.selected == Some(amount) ==> r.selected == None
    ensures s.selected != Some(amount) ==> r.selected == Some(amount)
  {
    s.(selected := if s.selected == Some(amount) then None else Some(amount), custom := "")
  }

  /** Typing in the custom box: the text is kept and the selection cleared. */
  function TypeCustom(s: State, text: string): (r: State)
    ensures r == State(None, text, s.payment)
  {
    s.(custom := text, selected := None)
  }

  function ChoosePayment(s: State, m: PaymentMethod): (r: State)
    ensures r == s.(payment := Some(m))
  {
    s.(payment := Some(m))
  }

  /** A predefined selection and a custom amount are never both set. */
  predicate Exclusive(s: State) {
    !(s.selected.Some? && s.custom != "")
  }

  datatype Event = Press(amount: nat) | Type(text: string) | Choose(choice: PaymentMethod)

  function Apply(s: State, e: Event): State {
    match e
    case Press(a) => PressAmount(s, a)
    case Type(t) => TypeCustom(s, t)
    case Choose(m) => ChoosePayment(s, m)
  }

  /** Every state the page can reach from its initial state keeps the two
      amounts exclusive; the last amount event decides which one is set. */
  function Run(s: State, events: seq<Event>): (r: State)
    requires Exclusive(s)
    ensures Exclusive(r)
    ensures events != [] && events[|events| - 1].Type? ==>
              r.custom == events[|events| - 1].text && r.selected.None?
    ensures events != [] && events[|events| - 1].Press? ==> r.custom == ""
    decreases |events|
  {
    if events == [] then s
    else Apply(Run(s, events[..|events| - 1]), events[|events| - 1])
  }

  /** Clicking the same amount twice gives back the selection, when it was
      empty or that amount; the custom amount stays cleared. */
  lemma PressTwice(s: State, amount: nat)
    requires s.selected.None? || s.selected == Some(amount)
    ensures PressAmount(PressAmount(s, amount), amount) == s.(custom := "")
  {
  }

  /** The donate button is enabled with a payment method and an amount. */
  predicate DonateEnabled(s: State) {
    s.payment.Some? && (HasSelected(s) || s.custom != "")
  }

  /** `selectedAmount || customAmount || '0.00'`. */
  function DisplayTotal(s: State): (t: string)
    ensures HasSelected(s) ==> t == JsNumber.ToDecimal(s.selected.value)
    ensures !HasSelected(s) && s.custom != "" ==> t == s.custom
    ensures !HasSelected(s) && s.custom == "" ==> t == "0.00"
  {
    if HasSelected(s) then JsNumber.ToDecimal(s.selected.value)
    else if s.custom != "" then s.custom
    else "0.00"
  }

  /** With the amounts exclusive, the total shows whichever amount is set, and
      the button is enabled exactly when a method is chosen and the total is
      not the placeholder. */
  lemma TotalFollowsTheSetAmount(s: State)
    requires Exclusive(s)
    requires s.selected.Some? ==> s.selected.value in PredefinedAmounts
    ensures s.selected.Some? ==> DisplayTotal(s) == JsNumber.ToDecimal(s.selected.value)
    ensures s.custom != "" ==> DisplayTotal(s) == s.custom
    ensures DonateEnabled(s) <==> s.payment.Some? && (s.selected.Some? || s.custom != "")
  {
  }
}

=== FILE: error_handler.dfy ===
/** The Express error handler: the status and body sent for an error that
    reached the end of the middleware chain. */
module ErrorHandler {
  import opened Wrappers
  import opened Json
  import opened Http
  import JsText

  /** The fields the handler reads from an error; any of them may be missing,
      and `isOperational` is set only on application errors. */
  datatype Failure = Failure(statusCode: Option<int>, message: Option<string>,
                             isOperational: bool, stack: Option<string>)

  /** `new AppError(message, statusCode)`. */
  function AppError(message: string, statusCode: int): (e: Failure)
    ensures e.isOperational && e.statusCode == Some(statusCode) && e.message == Some(message)
  {
    Failure(Some(statusCode), Some(message), true, None)
  }

  /** `err.statusCode || 500`. */
  function StatusOf(e: Failure): (s: int)
    ensures e.statusCode.Some? && e.statusCode.value != 0 ==> s == e.statusCode.value
    ensures e.statusCode.None? || e.statusCode.value == 0 ==> s == 500
  {
    if e.statusCode.Some? && e.statusCode.value != 0 then e.statusCode.value else 500
  }

  /** `err.message || 'Internal Server Error'`. */
  function MessageOf(e: Failure): (m: string)
    ensures m != ""
    ensures JsText.Truthy(e.message) ==> m == e.message.value
  {
    JsText.OrElse(e.message, "Internal Server Error")
  }

  /** `{ stack: err.stack }` as `res.json` writes it: an undefined stack
      leaves the key out. */
  function StackField(stack: Option<string>): map<string, Value> {
    if stack.Some? then map["stack" := Str(stack.value)] else map[]
  }

  /** The reply for an error: an operational error is answered with its own
      status and message; any other error with 500 and a generic message, to
      which development mode adds the error's message and stack. */
  function HandleError(e: Failure, development: bool): (r: Response)
    ensures r.status == (if e.isOperational then StatusOf(e) else 500)
    ensures e.isOperational ==>
              r.body == Obj(map["status" := Str("error"), "message" := Str(MessageOf(e))])
    ensures !e.isOperational && !development ==>
              r.body == Obj(map["status" := Str("error"), "message" := Str("Something went wrong")])
    ensures !e.isOperational && development ==>
              && r.body.Obj?
              && r.body.fields - {"stack"} == map["status" := Str("error"), "message" := Str("Something went wrong"),
                                                  "error" := Str(MessageOf(e))]
              && ("stack" in r.body.fields <==> e.stack.Some?)
              && (e.stack.Some? ==> r.body.fields["stack"] == Str(e.stack.value))
  {
    if e.isOperational then
      Response(StatusOf(e), Obj(map["status" := Str("error"), "message" := Str(MessageOf(e))]))
    else
      var generic := map["status" := Str("error"), "message" := Str("Something went wrong")];
      if development then
        Response(500, Obj(generic["error" := Str(MessageOf(e))] + StackField(e.stack)))
      else Response(500, Obj(generic))
  }

  /** Whatever the error, the reply's status is the error's own non-zero
      status (for operational errors) or 500. */
  lemma StatusIsOwnOr500(e: Failure, development: bool)
    ensures var s := HandleError(e, development).status;
            s == 500 || (e.isOperational && e.statusCode == Some(s) && s != 0)
  {
  }

  /** An application error is answered with exactly the status and message it
      was built with, provided both are set. */
  lemma AppErrorReply(message: string, statusCode: int, development: bool)
    requires message != "" && statusCode != 0
    ensures HandleError(AppError(message, statusCode), development)
         == Response(statusCode, Obj(map["status" := Str("error"), "message" := Str(message)]))
  {
  }

  /** The message of a non-operational error never reaches the client outside
      development mode. */
  lemma InternalErrorsHideTheirMessage(e: Failure, f: Failure)
    requires !e.isOperational && !f.isOperational
    ensures HandleError(e, false) == HandleError(f, false)
  {
  }
}

=== FILE: firestore.dfy ===
/** A Firestore collection as a map from document id to document, and the
    few query and write operations the backend uses. */
module Firestore {
  import opened Wrappers
  import opened Json
  import opened Http
  import Seqs

  type Collection = map<string, Doc>

  /** A service's write: the collection after it and the document returned. */
  datatype Written = Written(store: Collection, result: Doc)

  /** A handler's reply together with the collection after it. */
  datatype Handled = Handled(store: Collection, reply: Response)

  /** A document of a query result, in the order Firestore returns them. */
  datatype Entry = Entry(id: string, data: Doc)

  /** A path segment Firestore accepts as a document id. */
  predicate ValidDocId(id: string) {
    id != "" && '/' !in id
  }

  /** `{ id: doc.id, ...doc.data() }`: a stored field named `id` wins over the
      document id. */
  function WithId(id: string, data: Doc): (r: Doc)
    ensures r.Keys == data.Keys + {"id"}
    ensures forall k | k in data :: r[k] == data[k]
    ensures "id" !in data ==> r["id"] == Str(id)
  {
    map["id" := Str(id)] + data
  }

  function EntryWithId(e: Entry): Doc {
    WithId(e.id, e.data)
  }

  /** `ref.get()` of one document: a missing document is the service's
      not-found error, a present one comes back with its id. */
  function GetById(store: Collection, id: string, notFound: string): (r: Result<Doc, string>)
    ensures r.Err? <==> id !in store
    ensures r.Err? ==> r.error == notFound
    ensures r.Ok? ==> r.value == WithId(id, store[id])
  {
    if id !in store then Err(notFound) else Ok(WithId(id, store[id]))
  }

  /** A read after `ref.update(patch)` sees the merged document; the other
      documents read as before. */
  lemma GetAfterPatch(c: Collection, id: string, patch: Doc, other: string, notFound: string)
    requires id in c
    ensures GetById(Patch(c, id, patch), id, notFound) == Ok(WithId(id, c[id] + patch))
    ensures other != id ==> GetById(Patch(c, id, patch), other, notFound) == GetById(c, other, notFound)
  {
  }

  /** `.where(field, '==', v)`: the documents whose `field` equals `v`. */
  function WhereEquals(entries: seq<Entry>, field: string, v: Value): (r: seq<Entry>)
    ensures forall k | 0 <= k < |r| :: Get(r[k].data, field) == Some(v)
    ensures forall k | 0 <= k < |entries| && Get(entries[k].data, field) == Some(v) :: entries[k] in r
    ensures Seqs.IsSubsequence(r, entries)
  {
    var p := (e: Entry) => Get(e.data, field) == Some(v);
    Seqs.FilterIsSubsequence(p, entries);
    Seqs.Filter(p, entries)
  }

  /** `ref.update(patch)`: each field of the patch replaces the stored one. */
  function Patch(c: Collection, id: string, patch: Doc): (r: Collection)
    requires id in c
    ensures r.Keys == c.Keys
    ensures r[id] == c[id] + patch
    ensures forall k | k in c && k != id :: r[k] == c[k]
  {
    c[id := c[id] + patch]
  }

  /** Whether the stored document's `schoolId` is the user's id under `===`. */
  predicate OwnedBy(data: Doc, userId: string) {
    Get(data, "schoolId") == Some(Str(userId))
  }

  /** The checks an owner-only write runs before touching the store: no user
      is a 401, a missing document a 404 and another school's document a 403,
      in that order; `None` lets the write go ahead. */
  function OwnerCheck(store: Collection, user: Option<string>, id: string,
                      notFound: string, notOwner: string): (r: Option<Response>)
    ensures user.None? ==> r == Some(Unauthorized)
    ensures user.Some? && id !in store ==> r == Some(MessageReply(404, notFound))
    ensures user.Some? && id in store && !OwnedBy(store[id], user.value) ==> r == Some(MessageReply(403, notOwner))
    ensures r.None? <==> user.Some? && id in store && OwnedBy(store[id], user.value)
  {
    if user.None? then Some(Unauthorized)
    else if id !in store then Some(MessageReply(404, notFound))
    else if !OwnedBy(store[id], user.value) then Some(MessageReply(403, notOwner))
    else None
  }

  /** Firestore's order on string values: by code units, a proper prefix
      first. For ISO 8601 timestamps of one format it is the order in time. */
  predicate StrLess(a: string, b: string)
    decreases |a|
  {
    if a == [] then b != []
    else b != [] && (a[0] < b[0] || (a[0] == b[0] && StrLess(a[1..], b[1..])))
  }

  /** The string order is total and strict. */
  lemma {:induction false} StrLessTotal(a: string, b: string)
    ensures a == b || StrLess(a, b) || StrLess(b, a)
    ensures !(StrLess(a, b) && StrLess(b, a))
    decreases |a|
  {
    if a != [] && b != [] && a[0] == b[0] {
      StrLessTotal(a[1..], b[1..]);
      if a[1..] == b[1..] {
        assert a == [a[0]] + a[1..] && b == [b[0]] + b[1..];
      }
    }
  }

  lemma {:induction false} StrLessTransitive(a: string, b: string, c: string)
    requires StrLess(a, b) && StrLess(b, c)
    ensures StrLess(a, c)
    decreases |a|
  {
    if a != [] && a[0] == b[0] && b[0] == c[0] {
      StrLessTransitive(a[1..], b[1..], c[1..]);
    }
  }

  /** What a descending insertion needs: a value larger than the head is
      larger than every value not above the head. */
  lemma AboveHeadIsAboveAll(head: string, x: string, y: string)
    requires StrLess(head, x) && !StrLess(head, y)
    ensures !StrLess(x, y)
  {
    StrLessTotal(head, y);
    StrLessTotal(x, y);
    if y != head {
      StrLessTransitive(y, head, x);
    }
  }

  /** Whether the document has `field` holding a string. */
  function HasString(field: string): Entry -> bool {
    (e: Entry) => field in e.data && e.data[field].Str?
  }

  /** The string in `field`, or the empty text when there is none. */
  function StrOf(e: Entry, field: string): string {
    if field in e.data && e.data[field].Str? then e.data[field].s else ""
  }

  /** Descending order on `field`: no document has a smaller value than a later one. */
  predicate SortedDesc(s: seq<Entry>, field: string) {
    forall i, j | 0 <= i < j < |s| :: !StrLess(StrOf(s[i], field), StrOf(s[j], field))
  }

  /** A document not below any of a sorted list can go in front of it. */
  lemma ConsSortedDesc(x: Entry, s: seq<Entry>, field: string)
    requires SortedDesc(s, field)
    requires forall k | 0 <= k < |s| :: !StrLess(StrOf(x, field), StrOf(s[k], field))
    ensures SortedDesc([x] + s, field)
  {
    var r := [x] + s;
    forall i, j | 0 <= i < j < |r|
      ensures !StrLess(StrOf(r[i], field), StrOf(r[j], field))
    {
      assert r[j] == s[j - 1];
      if i > 0 {
        assert r[i] == s[i - 1];
      }
    }
  }

  /** A document above the head of a sorted list is above all of it. */
  lemma AboveSortedHead(x: Entry, s: seq<Entry>, field: string)
    requires s != [] && SortedDesc(s, field)
    requires StrLess(StrOf(s[0], field), StrOf(x, field))
    ensures forall k | 0 <= k < |s| :: !StrLess(StrOf(x, field), StrOf(s[k], field))
  {
    forall k | 0 <= k < |s|
      ensures !StrLess(StrOf(x, field), StrOf(s[k], field))
    {
      if k > 0 {
        AboveHeadIsAboveAll(StrOf(s[0], field), StrOf(x, field), StrOf(s[k], field));
      } else {
        StrLessTotal(StrOf(s[0], field), StrOf(x, field));
      }
    }
  }

  /** `x` placed in front of the first document with a smaller value, so after
      every document with an equal one. */
  function InsertDesc(s: seq<Entry>, x: Entry, field: string): (r: seq<Entry>)
    requires SortedDesc(s, field)
    ensures SortedDesc(r, field)
    ensures multiset(r) == multiset(s) + multiset{x}
  {
    if s == [] then [x]
    else if StrLess(StrOf(s[0], field), StrOf(x, field)) then
      AboveSortedHead(x, s, field);
      ConsSortedDesc(x, s, field);
      [x] + s
    else
      var rest := InsertDesc(s[1..], x, field);
      assert s == [s[0]] + s[1..];
      assert forall k | 0 <= k < |rest| :: !StrLess(StrOf(s[0], field), StrOf(rest[k], field)) by {
        forall k | 0 <= k < |rest|
          ensures !StrLess(StrOf(s[0], field), StrOf(rest[k], field))
        {
          assert rest[k] in multiset(rest);
          assert rest[k] in multiset(s[1..]) || rest[k] == x;
        }
      }
      ConsSortedDesc(s[0], rest, field);
      [s[0]] + rest
  }

  function SortDesc(s: seq<Entry>, field: string): (r: seq<Entry>)
    ensures SortedDesc(r, field)
    ensures multiset(r) == multiset(s)
  {
    if s == [] then []
    else
      assert s == s[..|s| - 1] + [s[|s| - 1]];
      InsertDesc(SortDesc(s[..|s| - 1], field), s[|s| - 1], field)
  }

  /** A reordering of documents that all hold a string `field` has the same
      members, all holding one. */
  lemma SortedKeepsMembers(kept: seq<Entry>, r: seq<Entry>, field: string)
    requires multiset(r) == multiset(kept)
    requires forall k | 0 <= k < |kept| :: HasString(field)(kept[k])
    ensures forall k | 0 <= k < |r| :: r[k] in kept && field in r[k].data && r[k].data[field].Str?
    ensures forall k | 0 <= k < |kept| :: kept[k] in r
  {
    forall k | 0 <= k < |r|
      ensures r[k] in kept && field in r[k].data && r[k].data[field].Str?
    {
      assert r[k] in multiset(r);
      var i :| 0 <= i < |kept| && kept[i] == r[k];
    }
    forall k | 0 <= k < |kept|
      ensures kept[k] in r
    {
      assert kept[k] in multiset(kept);
    }
  }

  /** `.orderBy(field, 'desc')` over documents whose `field` is a string: the
      documents without one are left out, the rest come largest value first. */
  function OrderByDesc(entries: seq<Entry>, field: string): (r: seq<Entry>)
    ensures SortedDesc(r, field)
    ensures multiset(r) == multiset(Seqs.Filter(HasString(field), entries))
    ensures forall k | 0 <= k < |r| :: r[k] in entries && field in r[k].data && r[k].data[field].Str?
    ensures forall k | 0 <= k < |entries| && HasString(field)(entries[k]) :: entries[k] in r
  {
    var kept := Seqs.Filter(HasString(field), entries);
    var r := SortDesc(kept, field);
    SortedKeepsMembers(kept, r, field);
    r
  }
}

=== FILE: http.dfy ===
/** Express replies: a status code and a JSON body. */
module Http {
  import opened Json

  datatype Response = Response(status: int, body: Value)

  /** `res.status(status).json({ message: text })`. */
  function MessageReply(status: int, text: string): (r: Response)
    ensures r.status == status && r.body == Obj(map["message" := Str(text)])
  {
    Response(status, Obj(map["message" := Str(text)]))
  }

  const Unauthorized: Response := MessageReply(401, "Unauthorized")

  /** What a middleware does with a request: pass it on with `next()`, or
      answer it and stop the chain. */
  datatype Gate = Next | Halt(reply: Response)
}

=== FILE: image_files.dfy ===
/** Files picked in the browser, the image rule shared by the campaign form and
    the additional-image uploader (at most 4 MiB, one of five image types), and
    the first problem found in a batch of files checked in order. */
module ImageFiles {
  import opened Wrappers

  /** A browser `File`: its name, size in bytes and MIME type. */
  datatype File = File(name: string, size: int, mimeType: string)

  const MaxImageBytes: int := 4 * 1024 * 1024

  const ImageTypes: seq<string> := ["image/jpeg", "image/jpg", "image/png", "image/gif", "image/webp"]

  predicate TooLarge(f: File) {
    f.size > MaxImageBytes
  }

  predicate IsImageType(t: string) {
    t in ImageTypes
  }

  /** At most 4 MiB (exactly 4 MiB passes) and one of the five image types. */
  predicate AcceptableImage(f: File) {
    !TooLarge(f) && IsImageType(f.mimeType)
  }

  /** The first problem `problem` reports for the files taken in order, or
      none when every file passes; a batch stops at its first bad file. */
  function FirstProblem(files: seq<File>, problem: File -> Option<string>): (r: Option<string>)
    ensures r.None? <==> forall k | 0 <= k < |files| :: problem(files[k]).None?
    ensures r.Some? ==> exists k | 0 <= k < |files| ::
              && problem(files[k]) == r
              && forall j | 0 <= j < k :: problem(files[j]).None?
  {
    if files == [] then None
    else if problem(files[0]).Some? then
      problem(files[0])
    else
      var rest := FirstProblem(files[1..], problem);
      assert forall k | 0 < k < |files| :: files[k] == files[1..][k - 1];
      if rest.Some? then
        var k :| 0 <= k < |files[1..]| && problem(files[1..][k]) == rest
                  && forall j | 0 <= j < k :: problem(files[1..][j]).None?;
        assert problem(files[k + 1]) == rest;
        rest
      else rest
  }
}

=== FILE: image_upload.dfy ===
/** The additional-image uploader of a campaign page: every picked file is
    checked in turn, the generated file names keep the original extension, and
    a batch either extends the campaign's image list or changes nothing. */
module ImageUpload {
  import opened Wrappers
  import JsText
  import Seqs
  import ImageFiles

  /** The alert for a file, naming it; the size is checked before the type. */
  function FileProblem(f: ImageFiles.File): (r: Option<string>)
    ensures r.None? <==> ImageFiles.AcceptableImage(f)
    ensures ImageFiles.TooLarge(f) ==> r == Some("File " + f.name + " is too large. Maximum size is 4MB.")
    ensures !ImageFiles.TooLarge(f) && !ImageFiles.IsImageType(f.mimeType) ==>
              r == Some("File " + f.name + " is not a valid image format.")
  {
    if ImageFiles.TooLarge(f) then Some("File " + f.name + " is too large. Maximum size is 4MB.")
    else if !ImageFiles.IsImageType(f.mimeType) then Some("File " + f.name + " is not a valid image format.")
    else None
  }

  /** The stored name of an upload: a time-and-random stamp (an input here),
      a dot, and `name.split('.').pop()`. */
  function GeneratedName(stamp: string, name: string): string {
    stamp + "." + JsText.AfterLast(name, '.')
  }

  /** The generated name ends with the original name's last extension, and
      with the whole original name when it has no dot. */
  lemma GeneratedNameKeepsExtension(stamp: string, name: string)
    ensures JsText.AfterLast(GeneratedName(stamp, name), '.') == JsText.AfterLast(name, '.')
    ensures '.' !in name ==> JsText.AfterLast(GeneratedName(stamp, name), '.') == name
  {
    JsText.AfterLastIsTextAfterLastSeparator(name, '.');
    JsText.AfterLastOfJoined(stamp, '.', JsText.AfterLast(name, '.'));
  }

  function ImageUrl(campaignId: string, fileName: string): string {
    "https://mock-image-server.com/campaigns/" + campaignId + "/additional/" + fileName
  }

  /** The URLs of a batch of accepted files, one per file in order. */
  function UploadedUrls(campaignId: string, files: seq<ImageFiles.File>, stamps: seq<string>): (r: seq<string>)
    requires |stamps| == |files|
    ensures |r| == |files|
    ensures forall k | 0 <= k < |files| :: r[k] == ImageUrl(campaignId, GeneratedName(stamps[k], files[k].name))
  {
    seq(|files|, k requires 0 <= k < |files| => ImageUrl(campaignId, GeneratedName(stamps[k], files[k].name)))
  }

  /** `uploadMultipleFiles`: the first bad file aborts the batch with its alert
      and the list is not updated; otherwise the new list is the current one
      followed by one URL per file. One stamp per file is an input. */
  function UploadBatch(campaignId: string, existing: seq<string>, files: seq<ImageFiles.File>, stamps: seq<string>): (r: Result<seq<string>, string>)
    requires |stamps| == |files|
    ensures r.Ok? <==> forall k | 0 <= k < |files| :: ImageFiles.AcceptableImage(files[k])
    ensures r.Err? ==> exists k | 0 <= k < |files| ::
              && !ImageFiles.AcceptableImage(files[k])
              && r.error == FileProblem(files[k]).value
              && forall j | 0 <= j < k :: ImageFiles.AcceptableImage(files[j])
    ensures r.Ok? ==> |r.value| == |existing| + |files| && r.value[..|existing|] == existing
    ensures r.Ok? ==> forall k | 0 <= k < |files| ::
              r.value[|existing| + k] == ImageUrl(campaignId, GeneratedName(stamps[k], files[k].name))
  {
    match ImageFiles.FirstProblem(files, FileProblem)
    case Some(m) => Err(m)
    case None => Ok(existing + UploadedUrls(campaignId, files, stamps))
  }

  /** `removeImage`: every copy of `url` goes and the rest keep their order. */
  function RemoveImage(existing: seq<string>, url: string): (r: seq<string>)
    ensures url !in r
    ensures forall k | 0 <= k < |existing| && existing[k] != url :: existing[k] in r
    ensures forall k | 0 <= k < |r| :: r[k] in existing
  {
    Seqs.Filter((u: string) => u != url, existing)
  }

  /** Removal keeps the order of what is left, and removing a URL that is not
      in the list leaves it as it was. */
  lemma RemoveImageKeepsOrder(existing: seq<string>, url: string)
    ensures Seqs.IsSubsequence(RemoveImage(existing, url), existing)
    ensures url !in existing ==> RemoveImage(existing, url) == existing
  {
    Seqs.FilterIsSubsequence((u: string) => u != url, existing);
    if url !in existing {
      Seqs.FilterAll((u: string) => u != url, existing);
    }
  }
}

=== FILE: impact_report.dfy ===
/** The impact-report uploader: which documents it takes, in what order it
    checks them, and what the panel shows afterwards. */
module ImpactReport {
  import opened Wrappers
  import JsText
  import ImageFiles

  const ReportTypes: seq<string> := [
    "application/pdf", "application/msword",
    "application/vnd.openxmlformats-officedocument.wordprocessingml.document"]

  const MaxReportBytes: int := 5 * 1024 * 1024
  const DefaultDisplaySize: int := 200 * 1024
  const DefaultDisplayName: string := "Impact Report"

  const TypeMessage: string := "Please upload a PDF or Word document"
  const SizeMessage: string := "File size must be less than 5MB"

  /** The type is checked before the size; exactly 5 MiB is accepted. */
  function ReportProblem(f: ImageFiles.File): (r: Option<string>)
    ensures r.None? <==> f.mimeType in ReportTypes && f.size <= MaxReportBytes
    ensures f.mimeType !in ReportTypes ==> r == Some(TypeMessage)
    ensures f.mimeType in ReportTypes && f.size > MaxReportBytes ==> r == Some(SizeMessage)
  {
    if f.mimeType !in ReportTypes then Some(TypeMessage)
    else if f.size > MaxReportBytes then Some(SizeMessage)
    else None
  }

  /** No image type is a report type: the two uploaders accept disjoint files. */
  lemma ReportsAreNotImages(f: ImageFiles.File)
    requires ReportProblem(f).None?
    ensures !ImageFiles.AcceptableImage(f)
  {
  }

  /** What the panel remembers of the last successful upload. */
  datatype Uploaded = Uploaded(name: Option<string>, size: Option<int>)

  /** `handleFileUpload`: a rejected file raises its message and changes
      nothing; an accepted one is sent to storage (its reply, `reportUrl`, is an
      input), and only a non-empty URL records the file's name and size. */
  function HandleUpload(state: Uploaded, f: ImageFiles.File, reportUrl: Option<string>): (r: (Uploaded, Option<string>))
    ensures ReportProblem(f).Some? ==> r == (state, ReportProblem(f))
    ensures ReportProblem(f).None? && !JsText.Truthy(reportUrl) ==> r.0 == state
    ensures ReportProblem(f).None? && JsText.Truthy(reportUrl) ==>
              r == (Uploaded(Some(f.name), Some(f.size)), None)
  {
    match ReportProblem(f)
    case Some(m) => (state, Some(m))
    case None =>
      if JsText.Truthy(reportUrl) then (Uploaded(Some(f.name), Some(f.size)), None)
      else (state, None)
  }

  /** `uploadedFileName || fileName || 'Impact Report'`. */
  function DisplayName(state: Uploaded, fileName: Option<string>): (r: string)
    ensures JsText.Truthy(state.name) ==> r == state.name.value
    ensures !JsText.Truthy(state.name) && JsText.Truthy(fileName) ==> r == fileName.value
    ensures !JsText.Truthy(state.name) && !JsText.Truthy(fileName) ==> r == DefaultDisplayName
    ensures r != ""
  {
    JsText.OrElse(state.name, JsText.OrElse(fileName, DefaultDisplayName))
  }

  /** `uploadedFileSize || fileSize || 200 * 1024`: a zero size falls through too. */
  function DisplaySize(state: Uploaded, fileSize: Option<int>): (r: int)
    ensures state.size.Some? && state.size.value != 0 ==> r == state.size.value
    ensures (state.size.None? || state.size.value == 0) && fileSize.Some? && fileSize.value != 0 ==> r == fileSize.value
    ensures (state.size.None? || state.size.value == 0) && (fileSize.None? || fileSize.value == 0) ==> r == DefaultDisplaySize
    ensures r != 0
  {
    if state.size.Some? && state.size.value != 0 then state.size.value
    else if fileSize.Some? && fileSize.value != 0 then fileSize.value
    else DefaultDisplaySize
  }

  /** The "uploaded" view is shown when a report exists or one was just uploaded. */
  predicate ShowsUploaded(state: Uploaded, existingReport: Option<string>) {
    JsText.Truthy(existingReport) || JsText.Truthy(state.name)
  }

  /** After a successful upload of a file with a name, the uploaded view shows
      that name and size. */
  lemma SuccessfulUploadIsShown(state: Uploaded, f: ImageFiles.File, reportUrl: Option<string>, existingReport: Option<string>, fileName: Option<string>, fileSize: Option<int>)
    requires ReportProblem(f).None? && JsText.Truthy(reportUrl) && f.name != "" && f.size != 0
    ensures var s := HandleUpload(state, f, reportUrl).0;
            && ShowsUploaded(s, existingReport)
            && DisplayName(s, fileName) == f.name
            && DisplaySize(s, fileSize) == f.size
  {
  }
}

=== FILE: js_number.dfy ===
/** JavaScript's `parseInt`, the decimal rendering of whole numbers, and the
    `x || fallback` idiom applied to a parsed number. */
module JsNumber {
  import opened Wrappers
  import JsText

  predicate IsDecimalDigit(c: char) {
    '0' <= c <= '9'
  }

  predicate IsHexDigit(c: char) {
    IsDecimalDigit(c) || 'a' <= c <= 'f' || 'A' <= c <= 'F'
  }

  /** A digit of base 16 when `hex` holds, of base 10 otherwise. */
  predicate IsDigitOf(c: char, hex: bool) {
    if hex then IsHexDigit(c) else IsDecimalDigit(c)
  }

  function DigitValue(c: char, hex: bool): (v: nat)
    requires IsDigitOf(c, hex)
    ensures v < (if hex then 16 else 10)
  {
    if IsDecimalDigit(c) then c as int - '0' as int
    else if 'a' <= c <= 'f' then c as int - 'a' as int + 10
    else c as int - 'A' as int + 10
  }

  predicate AllDigitsOf(s: string, hex: bool) {
    forall k | 0 <= k < |s| :: IsDigitOf(s[k], hex)
  }

  /** The length of the longest prefix of `s` made of digits. */
  function DigitRun(s: string, hex: bool): (n: nat)
    ensures n <= |s|
    ensures AllDigitsOf(s[..n], hex)
    ensures n < |s| ==> !IsDigitOf(s[n], hex)
  {
    if s == [] || !IsDigitOf(s[0], hex) then 0
    else
      var n := DigitRun(s[1..], hex) + 1;
      assert s[..n] == [s[0]] + s[1..][..n - 1];
      n
  }

  /** The number a string of digits denotes, most significant digit first. */
  function DigitsValue(ds: string, hex: bool): nat
    requires AllDigitsOf(ds, hex)
  {
    if ds == [] then 0
    else DigitsValue(ds[..|ds| - 1], hex) * (if hex then 16 else 10) + DigitValue(ds[|ds| - 1], hex)
  }

  /** Whether `parseInt` is given radix 10 or no radix at all (which lets a
      leading `0x` select base 16). */
  datatype Radix = NoRadix | Radix10

  /** The text after leading spaces and an optional sign. */
  function Unsigned(s: string): string
  {
    var t := JsText.TrimStart(s);
    if |t| > 0 && (t[0] == '-' || t[0] == '+') then t[1..] else t
  }

  predicate Negative(s: string) {
    var t := JsText.TrimStart(s);
    |t| > 0 && t[0] == '-'
  }

  predicate HexPrefixed(u: string, radix: Radix) {
    radix == NoRadix && |u| >= 2 && u[0] == '0' && (u[1] == 'x' || u[1] == 'X')
  }

  /** `parseInt(s)` / `parseInt(s, 10)`: skip leading spaces, read an optional
      sign, then (without a radix) an optional `0x` prefix, and take the
      longest run of digits; no digits at all gives NaN, here `None`. */
  function ParseInt(s: string, radix: Radix): (r: Option<int>)
    ensures r.Some? && r.value < 0 ==> Negative(s)
  {
    var u := Unsigned(s);
    var hex := HexPrefixed(u, radix);
    var w := if hex then u[2..] else u;
    var n := DigitRun(w, hex);
    if n == 0 then None
    else
      var v := DigitsValue(w[..n], hex);
      var signed: int := if Negative(s) then -(v as int) else v;
      Some(signed)
  }

  /** JavaScript's `parseInt(s) || fallback`: NaN and zero (also `-0`) give the fallback. */
  function ParseIntOr(s: string, radix: Radix, fallback: int): (r: int)
    ensures r == fallback || ParseInt(s, radix) == Some(r)
    ensures r != 0 || fallback == 0
  {
    match ParseInt(s, radix)
    case Some(v) => if v == 0 then fallback else v
    case None => fallback
  }

  function DecimalChar(d: nat): (c: char)
    requires d < 10
    ensures IsDecimalDigit(c) && DigitValue(c, false) == d
  {
    ('0' as int + d) as char
  }

  /** `String(n)` for a whole number `n >= 0`. */
  function ToDecimal(n: nat): (s: string)
    ensures |s| >= 1 && AllDigitsOf(s, false)
    ensures DigitsValue(s, false) == n
    ensures |s| > 1 ==> s[0] != '0'
  {
    if n < 10 then [DecimalChar(n)]
    else
      var s := ToDecimal(n / 10) + [DecimalChar(n % 10)];
      assert s[..|s| - 1] == ToDecimal(n / 10);
      s
  }

  lemma {:induction false} DigitRunOfAllDigits(s: string, hex: bool)
    requires AllDigitsOf(s, hex)
    ensures DigitRun(s, hex) == |s|
  {
    if s != [] {
      DigitRunOfAllDigits(s[1..], hex);
    }
  }

  /** Once spaces and sign are skipped, a plain run of decimal digits (no
      leading zero that could start `0x`) is read whole, and the sign applied. */
  lemma {:induction false} ParseSignedDigits(s: string, radix: Radix)
    requires |Unsigned(s)| >= 1 && AllDigitsOf(Unsigned(s), false)
    requires |Unsigned(s)| > 1 ==> Unsigned(s)[0] != '0'
    ensures var v := DigitsValue(Unsigned(s), false);
            ParseInt(s, radix) == Some(if Negative(s) then -(v as int) else v)
  {
    var u := Unsigned(s);
    assert !HexPrefixed(u, radix);
    DigitRunOfAllDigits(u, false);
    assert u[..|u|] == u;
  }

  /** A rendering has no spaces, no sign and no `0x` prefix in front of its digits. */
  lemma {:induction false} PlainDigitsParse(s: string, radix: Radix)
    requires |s| >= 1 && AllDigitsOf(s, false)
    requires |s| > 1 ==> s[0] != '0'
    ensures ParseInt(s, radix) == Some(DigitsValue(s, false))
  {
    assert IsDecimalDigit(s[0]);
    assert JsText.TrimStart(s) == s;
    assert Unsigned(s) == s;
    ParseSignedDigits(s, radix);
  }

  /** Parsing the decimal rendering of a whole number gives the number back,
      with or without a radix. */
  lemma {:induction false} ParseIntOfDecimal(n: nat, radix: Radix)
    ensures ParseInt(ToDecimal(n), radix) == Some(n)
  {
    PlainDigitsParse(ToDecimal(n), radix);
  }

  /** Parsing `-` followed by a rendering gives the negated number. */
  lemma {:induction false} ParseIntOfNegativeDecimal(n: nat, radix: Radix)
    ensures var r := ParseInt("-" + ToDecimal(n), radix); r.Some? && r.value == -(n as int)
  {
    var d := ToDecimal(n);
    var s := "-" + d;
    assert JsText.TrimStart(s) == s;
    assert s[1..] == d;
    ParseSignedDigits(s, radix);
  }
}

=== FILE: js_text.dfy ===
/** The JavaScript string operations the application relies on, over `seq<char>`:
    `trim`, `split`, `pop` of a split, `startsWith`, `replace` with a string
    pattern, and ASCII case mapping. */
module JsText {
  import opened Wrappers

  /** The code points JavaScript's `trim()` strips and the regular-expression
      class `\s` matches: WhiteSpace and LineTerminator of ECMAScript. */
  predicate IsSpace(c: char) {
    || c == '\t' || c == '\n' || c == '\U{000B}' || c == '\U{000C}' || c == '\r' || c == ' '
    || c == '\U{00A0}' || c == '\U{1680}' || ('\U{2000}' <= c <= '\U{200A}')
    || c == '\U{2028}' || c == '\U{2029}' || c == '\U{202F}' || c == '\U{205F}'
    || c == '\U{3000}' || c == '\U{FEFF}'
  }

  predicate AllSpace(s: string) {
    forall k | 0 <= k < |s| :: IsSpace(s[k])
  }

  /** `s.trimStart()`: the suffix of `s` left after dropping every leading space. */
  function TrimStart(s: string): (r: string)
    ensures |r| <= |s| && r == s[|s| - |r|..]
    ensures forall k | 0 <= k < |s| - |r| :: IsSpace(s[k])
    ensures r == [] || !IsSpace(r[0])
  {
    if s == [] || !IsSpace(s[0]) then s
    else
      var r := TrimStart(s[1..]);
      assert forall k | 0 < k < |s| :: s[k] == s[1..][k - 1];
      r
  }

  /** `r` is the infix of `s` at offset `i` with only spaces on either side. */
  predicate SpaceFramed(s: string, r: string, i: int) {
    0 <= i <= |s| - |r| && r == s[i..i + |r|] && AllSpace(s[..i]) && AllSpace(s[i + |r|..])
  }

  /** `s.trim()`: spaces are dropped from either end until none is left there.
      What it keeps is stated by `TrimIsSpaceFramed`. */
  function Trim(s: string): (r: string)
    ensures |r| <= |s|
    decreases |s|
  {
    if s == [] then []
    else if IsSpace(s[0]) then Trim(s[1..])
    else if IsSpace(s[|s| - 1]) then Trim(s[..|s| - 1])
    else s
  }

  /** A leading space widens the frame on the left. */
  lemma FramedAfterLeadingSpace(s: string, r: string, i: int)
    requires s != [] && IsSpace(s[0]) && SpaceFramed(s[1..], r, i)
    ensures SpaceFramed(s, r, i + 1)
  {
    var t := s[1..];
    assert s[..i + 1] == [s[0]] + t[..i];
    assert s[i + 1..i + 1 + |r|] == t[i..i + |r|];
    assert s[i + 1 + |r|..] == t[i + |r|..];
  }

  /** A trailing space widens the frame on the right. */
  lemma FramedBeforeTrailingSpace(s: string, r: string, i: int)
    requires s != [] && IsSpace(s[|s| - 1]) && SpaceFramed(s[..|s| - 1], r, i)
    ensures SpaceFramed(s, r, i)
  {
    var t := s[..|s| - 1];
    assert s[..i] == t[..i];
    assert s[i..i + |r|] == t[i..i + |r|];
    assert s[i + |r|..] == t[i + |r|..] + [s[|s| - 1]];
  }

  /** `s.trim()` is the infix of `s` between its leading and its trailing
      spaces: only spaces on either side, and no space at either end. */
  lemma {:induction false} TrimIsSpaceFramed(s: string)
    ensures exists i :: SpaceFramed(s, Trim(s), i)
    ensures Trim(s) == [] || (!IsSpace(Trim(s)[0]) && !IsSpace(Trim(s)[|Trim(s)| - 1]))
    decreases |s|
  {
    var r := Trim(s);
    if s == [] {
      assert SpaceFramed(s, r, 0);
    } else if IsSpace(s[0]) {
      TrimIsSpaceFramed(s[1..]);
      var i :| SpaceFramed(s[1..], r, i);
      FramedAfterLeadingSpace(s, r, i);
    } else if IsSpace(s[|s| - 1]) {
      TrimIsSpaceFramed(s[..|s| - 1]);
      var i :| SpaceFramed(s[..|s| - 1], r, i);
      FramedBeforeTrailingSpace(s, r, i);
    } else {
      assert s[0..0 + |r|] == s;
      assert SpaceFramed(s, r, 0);
    }
  }

  /** Some character of `s` is not a space. */
  predicate HasNonSpace(s: string) {
    exists k | 0 <= k < |s| :: !IsSpace(s[k])
  }

  /** JavaScript's `!s.trim()`: nothing but spaces, which is exactly when
      trimming leaves the empty text (`BlankIffTrimEmpty`). */
  predicate Blank(s: string) {
    AllSpace(s)
  }

  lemma NotBlankIffHasNonSpace(s: string)
    ensures !Blank(s) <==> HasNonSpace(s)
  {
  }

  lemma {:induction false} BlankIffTrimEmpty(s: string)
    ensures Blank(s) <==> Trim(s) == []
    decreases |s|
  {
    if s == [] {
    } else if IsSpace(s[0]) {
      BlankIffTrimEmpty(s[1..]);
      assert AllSpace(s) <==> AllSpace(s[1..]) by {
        assert forall k | 0 < k < |s| :: s[k] == s[1..][k - 1];
      }
    } else {
      assert !AllSpace(s);
      if IsSpace(s[|s| - 1]) {
        var t := s[..|s| - 1];
        BlankIffTrimEmpty(t);
        assert t[0] == s[0];
      }
    }
  }

  /** Trimming twice trims no more than trimming once. */
  lemma {:induction false} TrimIdempotent(s: string)
    ensures Trim(Trim(s)) == Trim(s)
  {
    TrimIsSpaceFramed(s);
  }

  /** `s.indexOf(c)`: the first position of `c` in `s`, if any. */
  function IndexOf(s: string, c: char): (r: Option<nat>)
    ensures r.None? <==> c !in s
    ensures r.Some? ==> r.value < |s| && s[r.value] == c && c !in s[..r.value]
  {
    if s == [] then None
    else if s[0] == c then Some(0)
    else
      match IndexOf(s[1..], c)
      case None => None
      case Some(i) =>
        assert s[..i + 1] == [s[0]] + s[1..][..i];
        Some(i + 1)
  }

  /** `parts.join(sep)`. */
  function Join(parts: seq<string>, sep: char): string
  {
    if |parts| == 0 then ""
    else if |parts| == 1 then parts[0]
    else parts[0] + [sep] + Join(parts[1..], sep)
  }

  /** `s.split(sep)` for a one-character separator: the maximal pieces of `s`
      between separators, which join back to `s` (`JoinOfSplit`). */
  function Split(s: string, sep: char): (parts: seq<string>)
    ensures |parts| >= 1
    ensures forall i | 0 <= i < |parts| :: sep !in parts[i]
    decreases |s|
  {
    match IndexOf(s, sep)
    case None => [s]
    case Some(i) =>
      var rest := Split(s[i + 1..], sep);
      var parts := [s[..i]] + rest;
      assert parts[1..] == rest;
      parts
  }

  /** Joining the pieces of a split with the separator gives back the text. */
  lemma {:induction false} JoinOfSplit(s: string, sep: char)
    ensures Join(Split(s, sep), sep) == s
    decreases |s|
  {
    match IndexOf(s, sep)
    case None =>
    case Some(i) =>
      var rest := Split(s[i + 1..], sep);
      JoinOfSplit(s[i + 1..], sep);
      assert ([s[..i]] + rest)[1..] == rest;
      assert s == s[..i] + [sep] + s[i + 1..];
  }

  /** `s.split(sep).pop()`: the last piece of the split. */
  function AfterLast(s: string, sep: char): string
  {
    var parts := Split(s, sep);
    parts[|parts| - 1]
  }

  /** `r` is the text of `s` after its last `sep`, or all of `s` when it has none. */
  predicate TextAfterLastSeparator(s: string, sep: char, r: string) {
    && sep !in r
    && |r| <= |s| && r == s[|s| - |r|..]
    && (|r| < |s| ==> s[|s| - |r| - 1] == sep)
  }

  lemma {:induction false} AfterLastSkipsFirstPiece(s: string, sep: char, i: nat)
    requires IndexOf(s, sep) == Some(i)
    ensures AfterLast(s, sep) == AfterLast(s[i + 1..], sep)
  {
    var rest := Split(s[i + 1..], sep);
    var parts := [s[..i]] + rest;
    assert Split(s, sep) == parts;
    assert parts[|parts| - 1] == rest[|rest| - 1];
  }

  /** The last piece is the text after the last separator, or the whole text
      when there is no separator at all. */
  lemma {:induction false} AfterLastIsTextAfterLastSeparator(s: string, sep: char)
    ensures TextAfterLastSeparator(s, sep, AfterLast(s, sep))
    ensures sep !in s ==> AfterLast(s, sep) == s
    decreases |s|
  {
    match IndexOf(s, sep)
    case None =>
      assert Split(s, sep) == [s];
      assert s[0..] == s;
    case Some(i) =>
      var tail := s[i + 1..];
      AfterLastIsTextAfterLastSeparator(tail, sep);
      AfterLastSkipsFirstPiece(s, sep, i);
      TextAfterSeparatorOfTail(s, sep, i, AfterLast(tail, sep));
  }

  /** A last piece shorter than the text is preceded by the separator. */
  lemma AfterLastFollowsSeparator(s: string, sep: char)
    ensures var e := AfterLast(s, sep);
            |e| < |s| ==> s == s[..|s| - |e| - 1] + [sep] + e
  {
    AfterLastIsTextAfterLastSeparator(s, sep);
    var e := AfterLast(s, sep);
    if |e| < |s| {
      var i := |s| - |e| - 1;
      assert s[i] == sep && s[i + 1..] == e;
      assert s == s[..i] + [s[i]] + s[i + 1..];
    }
  }

  /** What follows the last separator of the text after position `i` also
      follows the last separator of the whole text, when `s[i]` is one. */
  lemma TextAfterSeparatorOfTail(s: string, sep: char, i: nat, r: string)
    requires i < |s| && s[i] == sep
    requires TextAfterLastSeparator(s[i + 1..], sep, r)
    ensures TextAfterLastSeparator(s, sep, r)
  {
    var tail := s[i + 1..];
    assert |s| - |r| == i + 1 + (|tail| - |r|);
    assert s[|s| - |r|..] == tail[|tail| - |r|..];
    if |r| == |tail| {
      assert s[|s| - |r| - 1] == s[i];
    } else {
      assert s[|s| - |r| - 1] == tail[|tail| - |r| - 1];
    }
  }

  lemma IndexOfAfterFreeHead(head: string, c: char, rest: string)
    requires c !in head
    ensures IndexOf(head + [c] + rest, c) == Some(|head|)
  {
    var s := head + [c] + rest;
    assert s[..|head|] == head;
    assert s[|head|] == c;
  }

  /** A text with no separator in front of its first separator splits into
      that text, then the pieces of the remainder. */
  lemma SplitAtFirstSeparator(head: string, sep: char, rest: string)
    requires sep !in head
    ensures Split(head + [sep] + rest, sep) == [head] + Split(rest, sep)
  {
    var s := head + [sep] + rest;
    IndexOfAfterFreeHead(head, sep, rest);
    assert s[..|head|] == head;
    assert s[|head| + 1..] == rest;
  }

  /** The first piece of a split is the text before the first separator. */
  lemma FirstPiece(word: string, sep: char, rest: string)
    requires sep !in word
    requires rest == [] || rest[0] == sep
    ensures Split(word + rest, sep)[0] == word
  {
    if rest == [] {
      assert word + rest == word;
    } else {
      assert word + rest == word + [sep] + rest[1..];
      SplitAtFirstSeparator(word, sep, rest[1..]);
    }
  }

  /** The last piece of a text ending in a separator and a separator-free
      word is that word. */
  lemma {:induction false} AfterLastOfJoined(x: string, sep: char, e: string)
    requires sep !in e
    ensures AfterLast(x + [sep] + e, sep) == e
  {
    var s := x + [sep] + e;
    AfterLastIsTextAfterLastSeparator(s, sep);
    var r := AfterLast(s, sep);
    var start := |s| - |r|;
    assert forall j | start <= j < |s| :: s[j] in r;
    assert s[|x|] == sep;
    assert start > |x|;
    assert forall j | |x| + 1 <= j < |s| :: s[j] in e;
    assert start <= |x| + 1;
    assert s[|x| + 1..] == e;
  }

  /** `s.split(sep)[n]`, which is `undefined` past the last piece. */
  function PieceAt(s: string, sep: char, n: nat): Option<string>
  {
    var parts := Split(s, sep);
    if n < |parts| then Some(parts[n]) else None
  }

  predicate IsPrefix(p: string, s: string) {
    |p| <= |s| && s[..|p|] == p
  }

  /** `s.startsWith(p)`. */
  predicate StartsWith(s: string, p: string) {
    IsPrefix(p, s)
  }

  /** `s.indexOf(pat)` for a string pattern: its first occurrence in `s`. */
  function FindSub(s: string, pat: string): (r: Option<nat>)
    ensures r.Some? ==> r.value + |pat| <= |s| && IsPrefix(pat, s[r.value..])
    ensures r.Some? ==> forall j | 0 <= j < r.value :: !IsPrefix(pat, s[j..])
    ensures r.None? ==> forall j | 0 <= j <= |s| :: !IsPrefix(pat, s[j..])
    decreases |s|
  {
    if IsPrefix(pat, s) then Some(0)
    else if s == [] then None
    else
      match FindSub(s[1..], pat)
      case None =>
        assert forall j | 1 <= j <= |s| :: s[j..] == s[1..][j - 1..];
        None
      case Some(i) =>
        assert forall j | 1 <= j <= |s| :: s[j..] == s[1..][j - 1..];
        Some(i + 1)
  }

  /** `s.replace(pat, rep)` with a string pattern: only the first occurrence
      is replaced, and `s` is returned unchanged when there is none. */
  function ReplaceFirst(s: string, pat: string, rep: string): (r: string)
    ensures FindSub(s, pat).None? ==> r == s
  {
    match FindSub(s, pat)
    case None => s
    case Some(i) => s[..i] + rep + s[i + |pat|..]
  }

  /** Removing a prefix with `replace(prefix, '')` gives back exactly the rest. */
  lemma {:induction false} ReplacePrefixWithEmpty(prefix: string, rest: string)
    ensures ReplaceFirst(prefix + rest, prefix, "") == rest
  {
    var s := prefix + rest;
    assert s[..|prefix|] == prefix;
    assert FindSub(s, prefix) == Some(0);
    assert s[|prefix|..] == rest;
  }

  /** ASCII lower-casing of one character; other characters are kept. */
  function LowerChar(c: char): (d: char)
    ensures 'A' <= c <= 'Z' ==> 'a' <= d <= 'z' && d as int == c as int + 32
    ensures !('A' <= c <= 'Z') ==> d == c
  {
    if 'A' <= c <= 'Z' then (c as int + 32) as char else c
  }

  /** ASCII upper-casing of one character; other characters are kept. */
  function UpperChar(c: char): (d: char)
    ensures 'a' <= c <= 'z' ==> 'A' <= d <= 'Z' && d as int + 32 == c as int
    ensures !('a' <= c <= 'z') ==> d == c
  {
    if 'a' <= c <= 'z' then (c as int - 32) as char else c
  }

  /** `s.toLowerCase()` restricted to ASCII letters. */
  function ToLower(s: string): (r: string)
    ensures |r| == |s|
    ensures forall k | 0 <= k < |s| :: r[k] == LowerChar(s[k])
  {
    seq(|s|, k requires 0 <= k < |s| => LowerChar(s[k]))
  }

  lemma {:induction false} ToLowerIdempotent(s: string)
    ensures ToLower(ToLower(s)) == ToLower(s)
  {
    var t := ToLower(s);
    forall k | 0 <= k < |s|
      ensures ToLower(t)[k] == t[k]
    {
      assert t[k] == LowerChar(s[k]);
    }
  }

  /** `s.toUpperCase()` restricted to ASCII letters. */
  function ToUpper(s: string): (r: string)
    ensures |r| == |s|
    ensures forall k | 0 <= k < |s| :: r[k] == UpperChar(s[k])
  {
    seq(|s|, k requires 0 <= k < |s| => UpperChar(s[k]))
  }

  /** Two texts that differ only in the case of their letters lower-case alike. */
  lemma {:induction false} ToLowerOfToUpper(s: string)
    ensures ToLower(ToUpper(s)) == ToLower(s)
  {
    var u := ToUpper(s);
    forall k | 0 <= k < |s|
      ensures ToLower(u)[k] == ToLower(s)[k]
    {
      assert u[k] == UpperChar(s[k]);
    }
  }

  /** JavaScript truthiness of an optional string: present and non-empty. */
  predicate Truthy(o: Option<string>) {
    o.Some? && o.value != ""
  }

  /** JavaScript's `o || fallback` for an optional string. */
  function OrElse(o: Option<string>, fallback: string): (r: string)
    ensures Truthy(o) ==> r == o.value
    ensures !Truthy(o) ==> r == fallback
  {
    if Truthy(o) then o.value else fallback
  }
}

=== FILE: json.dfy ===
/** The JSON-like values of Firestore documents and request bodies, with
    JavaScript truthiness and the `x || fallback` idiom over them. */
module Json {
  import opened Wrappers

  /** Numbers are whole numbers in this model. */
  datatype Value =
    | Null
    | Bool(b: bool)
    | Num(n: int)
    | Str(s: string)
    | Arr(items: seq<Value>)
    | Obj(fields: map<string, Value>)

  /** A document or object literal: field name to value. The spread
      `{...a, ...b}` is `a + b`, where the fields of `b` win. */
  type Doc = map<string, Value>

  /** `d.k`, which is `undefined` (here `None`) for a missing field. */
  function Get(d: Doc, k: string): (r: Option<Value>)
    ensures r.Some? <==> k in d
    ensures r.Some? ==> r.value == d[k]
  {
    if k in d then Some(d[k]) else None
  }

  /** JavaScript truthiness: `undefined`, `null`, `false`, `0` and `""` are
      falsy; every array and object is truthy. */
  predicate Truthy(v: Option<Value>) {
    match v
    case None => false
    case Some(Null) => false
    case Some(Bool(b)) => b
    case Some(Num(n)) => n != 0
    case Some(Str(s)) => s != ""
    case Some(_) => true
  }

  /** `v || fallback`. */
  function Or(v: Option<Value>, fallback: Value): (r: Value)
    ensures Truthy(v) ==> Some(r) == v
    ensures !Truthy(v) ==> r == fallback
  {
    if Truthy(v) then v.value else fallback
  }

  /** The string `s` as an optional value: how an optional string field compares
      with a stored value under `===`. */
  function OptStr(s: Option<string>): Option<Value> {
    match s
    case None => None
    case Some(t) => Some(Str(t))
  }
}

=== FILE: paging.dfy ===
/** Offset/limit pagination shared by the campaign, school and update listings:
    `offset = (page - 1) * limit`, `pages = Math.ceil(total / limit)`, and the
    Firestore `.limit(limit).offset(offset)` window over a query result. */
module Paging {

  function Min(a: int, b: int): int {
    if a <= b then a else b
  }

  /** `Math.ceil(total / limit)`: the fewest pages of `limit` items holding `total` items. */
  function PageCount(total: nat, limit: nat): (pages: nat)
    requires limit > 0
    ensures pages * limit >= total
    ensures pages == 0 || (pages - 1) * limit < total
    ensures pages == 0 <==> total == 0
  {
    var q := (total + limit - 1) / limit;
    var r := (total + limit - 1) % limit;
    assert total + limit - 1 == q * limit + r && 0 <= r < limit;
    assert (q - 1) * limit == q * limit - limit;
    q
  }

  /** The `pagination` part of a listing reply. */
  datatype Pagination = Pagination(total: nat, page: int, limit: int, pages: nat)

  /** The offset of a 1-based page. */
  function Offset(page: int, limit: int): (o: int)
    ensures page >= 1 && limit >= 0 ==> o >= 0
  {
    (page - 1) * limit
  }

  /** `.limit(limit).offset(offset)` applied to the ordered result `items`:
      skip `offset` items, then keep at most `limit`. */
  function Window<T>(items: seq<T>, offset: nat, limit: nat): (w: seq<T>)
    ensures |w| <= limit
    ensures |w| == Min(limit, |items| - offset) || (offset >= |items| && w == [])
    ensures forall k | 0 <= k < |w| :: w[k] == items[offset + k]
  {
    if offset >= |items| then []
    else items[offset..Min(offset + limit, |items|)]
  }

  lemma MulMonotone(a: nat, b: nat, c: nat)
    requires a <= b
    ensures a * c <= b * c
  {
  }

  lemma OffsetOfNextPage(page: nat, limit: nat)
    requires page >= 1
    ensures Offset(page + 1, limit) == Offset(page, limit) + limit
  {
  }

  /** A page holds items exactly when its number is within the page count. */
  lemma {:induction false} PageNonEmptyIffWithinCount<T>(items: seq<T>, page: nat, limit: nat)
    requires page >= 1 && limit > 0
    ensures |Window(items, Offset(page, limit), limit)| > 0 <==> page <= PageCount(|items|, limit)
  {
    var pages := PageCount(|items|, limit);
    var off := Offset(page, limit);
    if page <= pages {
      MulMonotone(page - 1, pages - 1, limit);
    } else {
      MulMonotone(pages, page - 1, limit);
    }
  }

  /** `count` consecutive pages, the first at `offset`: reading pages 1, 2, ...
      in turn is reading the windows at offsets 0, limit, 2 * limit, ... */
  function PagesFrom<T>(items: seq<T>, limit: nat, offset: nat, count: nat): seq<T>
    decreases count
  {
    if count == 0 then []
    else Window(items, offset, limit) + PagesFrom(items, limit, offset + limit, count - 1)
  }

  lemma {:induction false} PagesFromIsSuffix<T>(items: seq<T>, limit: nat, offset: nat, count: nat)
    requires limit > 0
    requires offset <= |items| <= offset + count * limit
    ensures PagesFrom(items, limit, offset, count) == items[offset..]
    decreases count
  {
    if count > 0 {
      var next := offset + limit;
      assert offset + count * limit == next + (count - 1) * limit;
      if next <= |items| {
        PagesFromIsSuffix(items, limit, next, count - 1);
        assert Window(items, offset, limit) == items[offset..next];
        assert items[offset..] == items[offset..next] + items[next..];
      } else {
        assert Window(items, offset, limit) == items[offset..];
        PagesFromEmptyPast(items, limit, next, count - 1);
      }
    }
  }

  lemma {:induction false} PagesFromEmptyPast<T>(items: seq<T>, limit: nat, offset: nat, count: nat)
    requires offset >= |items|
    ensures PagesFrom(items, limit, offset, count) == []
    decreases count
  {
    if count > 0 {
      PagesFromEmptyPast(items, limit, offset + limit, count - 1);
    }
  }

  /** Reading pages 1 to `Math.ceil(total / limit)` in turn returns every item
      of the result once, in order. */
  lemma {:induction false} PagesCoverResult<T>(items: seq<T>, limit: nat)
    requires limit > 0
    ensures PagesFrom(items, limit, Offset(1, limit), PageCount(|items|, limit)) == items
  {
    var pages := PageCount(|items|, limit);
    assert Offset(1, limit) == 0;
    PagesFromIsSuffix(items, limit, 0, pages);
  }
}

=== FILE: population.dfy ===
/** The population settings panel: student and teacher head counts, the totals
    derived from them while editing, and the payload saved for one section. */
module Population {
  import opened Wrappers
  import JsNumber

  /** The population figures of a school record as stored; any may be missing. */
  datatype StoredStudents = StoredStudents(male: Option<int>, female: Option<int>, total: Option<int>)
  datatype StoredTeachers = StoredTeachers(total: Option<int>, steamInvolved: Option<int>, nonSteamInvolved: Option<int>)

  /** The figures the panel displays. */
  datatype Students = Students(male: int, female: int, total: int)
  datatype Teachers = Teachers(total: int, steamInvolved: int, nonSteamInvolved: int)
  datatype PopulationData = PopulationData(students: Students, teachers: Teachers)

  /** The figures being edited: the student total is absent until loaded, the
      teacher split until one of the teacher fields is edited. */
  datatype EditStudents = EditStudents(male: int, female: int, total: Option<int>)
  datatype EditTeachers = EditTeachers(total: int, steamInvolved: int, nonSteamInvolved: Option<int>)
  datatype EditData = EditData(students: EditStudents, teachers: EditTeachers)

  datatype Section = StudentsSection | TeachersSection

  /** The input fields of the two edit dialogs. */
  datatype StudentField = Male | Female
  datatype TeacherField = TeacherTotal | SteamInvolved

  const InitialEdit: EditData := EditData(EditStudents(0, 0, None), EditTeachers(0, 0, None))

  /** `n || 0` for an optional number. */
  function OrZero(n: Option<int>): (r: int)
    ensures n.Some? ==> r == n.value
    ensures n.None? ==> r == 0
  {
    if n.Some? then n.value else 0
  }

  function Max0(x: int): (r: int)
    ensures r >= 0 && r >= x
    ensures r == 0 || r == x
  {
    if x > 0 then x else 0
  }

  /** `parseInt(value) || 0`: text that does not start with a number reads as 0. */
  function ParseCount(value: string): int {
    JsNumber.ParseIntOr(value, JsNumber.NoRadix, 0)
  }

  /** Text with no leading number counts as 0; otherwise the number it starts with. */
  lemma ParseCountReadsLeadingNumber(value: string)
    ensures JsNumber.ParseInt(value, JsNumber.NoRadix).None? ==> ParseCount(value) == 0
    ensures JsNumber.ParseInt(value, JsNumber.NoRadix).Some? ==>
              ParseCount(value) == JsNumber.ParseInt(value, JsNumber.NoRadix).value
  {
  }

  /** A count typed as its decimal rendering is read back unchanged. */
  lemma ParseCountOfDecimal(n: nat)
    ensures ParseCount(JsNumber.ToDecimal(n)) == n
  {
    JsNumber.ParseIntOfDecimal(n, JsNumber.NoRadix);
  }

  /** The displayed figures once a school record arrives: a missing or zero
      figure reads as 0, except that a missing or zero student total is the sum
      of the two counts, and a missing or zero non-STEAM count is the difference
      of the teacher figures (which, unlike during editing, may be negative). */
  function Load(s: StoredStudents, t: StoredTeachers): (p: PopulationData)
    ensures p.students.male == OrZero(s.male) && p.students.female == OrZero(s.female)
    ensures OrZero(s.total) == 0 ==> p.students.total == p.students.male + p.students.female
    ensures OrZero(s.total) != 0 ==> p.students.total == s.total.value
    ensures p.teachers.total == OrZero(t.total) && p.teachers.steamInvolved == OrZero(t.steamInvolved)
    ensures OrZero(t.nonSteamInvolved) == 0 ==>
              p.teachers.nonSteamInvolved == p.teachers.total - p.teachers.steamInvolved
    ensures OrZero(t.nonSteamInvolved) != 0 ==> p.teachers.nonSteamInvolved == t.nonSteamInvolved.value
  {
    var male := OrZero(s.male);
    var female := OrZero(s.female);
    var total := if OrZero(s.total) != 0 then OrZero(s.total) else male + female;
    var teachers := OrZero(t.total);
    var steam := OrZero(t.steamInvolved);
    var nonSteam := if OrZero(t.nonSteamInvolved) != 0 then OrZero(t.nonSteamInvolved) else teachers - steam;
    PopulationData(Students(male, female, total), Teachers(teachers, steam, nonSteam))
  }

  /** The edit figures seeded from the displayed ones: the student total is
      carried over, the non-STEAM count is not. */
  function EditFrom(p: PopulationData): (e: EditData)
    ensures e.students == EditStudents(p.students.male, p.students.female, Some(p.students.total))
    ensures e.teachers == EditTeachers(p.teachers.total, p.teachers.steamInvolved, None)
  {
    EditData(EditStudents(p.students.male, p.students.female, Some(p.students.total)),
             EditTeachers(p.teachers.total, p.teachers.steamInvolved, None))
  }

  /** Typing a student count `n` (the text already read by `ParseCount`): that
      count changes and the total is recomputed as the sum of the two counts. */
  function EditStudent(e: EditData, field: StudentField, n: int): (r: EditData)
    ensures r.teachers == e.teachers
    ensures field == Male ==> r.students.male == n && r.students.female == e.students.female
    ensures field == Female ==> r.students.female == n && r.students.male == e.students.male
    ensures r.students.total == Some(r.students.male + r.students.female)
  {
    var male := if field == Male then n else e.students.male;
    var female := if field == Female then n else e.students.female;
    e.(students := EditStudents(male, female, Some(male + female)))
  }

  /** Typing a teacher figure `n`: that figure changes and the non-STEAM count
      is recomputed, floored at zero. */
  function EditTeacher(e: EditData, field: TeacherField, n: int): (r: EditData)
    ensures r.students == e.students
    ensures field == TeacherTotal ==>
              r.teachers.total == n && r.teachers.steamInvolved == e.teachers.steamInvolved
    ensures field == SteamInvolved ==>
              r.teachers.steamInvolved == n && r.teachers.total == e.teachers.total
    ensures r.teachers.nonSteamInvolved.Some? && r.teachers.nonSteamInvolved.value >= 0
    ensures r.teachers.nonSteamInvolved.value >= r.teachers.total - r.teachers.steamInvolved
    ensures r.teachers.nonSteamInvolved.value == 0 || r.teachers.nonSteamInvolved.value == r.teachers.total - r.teachers.steamInvolved
  {
    var total := if field == TeacherTotal then n else e.teachers.total;
    var steam := if field == SteamInvolved then n else e.teachers.steamInvolved;
    e.(teachers := EditTeachers(total, steam, Some(Max0(total - steam))))
  }

  /** The field a dialog input is bound to. */
  datatype InputField = StudentInput(sf: StudentField) | TeacherInput(tf: TeacherField)

  /** `handleInputChange`: the typed text is read with `parseInt(value) || 0`
      and the edit of its section applied; the other section is untouched. */
  function InputChange(e: EditData, field: InputField, value: string): EditData {
    Edit(e, field, ParseCount(value))
  }

  /** The edit of an input's section with the number read from the text. */
  function Edit(e: EditData, field: InputField, n: int): EditData {
    match field
    case StudentInput(sf) => EditStudent(e, sf, n)
    case TeacherInput(tf) => EditTeacher(e, tf, n)
  }

  /** The derived figures of the edit data agree with the counts they come from. */
  predicate Consistent(e: EditData) {
    && e.students.total == Some(e.students.male + e.students.female)
    && e.teachers.nonSteamInvolved == Some(Max0(e.teachers.total - e.teachers.steamInvolved))
  }

  /** Every edit keeps the derived figures consistent, and touches only its
      own section. */
  lemma EditsKeepConsistent(e: EditData, field: InputField, value: string)
    requires Consistent(e)
    ensures Consistent(InputChange(e, field, value))
    ensures field.StudentInput? ==> InputChange(e, field, value).teachers == e.teachers
    ensures field.TeacherInput? ==> InputChange(e, field, value).students == e.students
  {
    NumericEditKeepsConsistent(e, field, ParseCount(value));
  }

  lemma NumericEditKeepsConsistent(e: EditData, field: InputField, n: int)
    requires Consistent(e)
    ensures Consistent(Edit(e, field, n))
    ensures field.StudentInput? ==> Edit(e, field, n).teachers == e.teachers
    ensures field.TeacherInput? ==> Edit(e, field, n).students == e.students
  {
  }

  /** A student edit followed by a teacher edit leaves the data consistent,
      whatever it was before. */
  lemma EditingBothSectionsMakesConsistent(e: EditData, sf: StudentField, tf: TeacherField, n1: int, n2: int)
    ensures Consistent(EditTeacher(EditStudent(e, sf, n1), tf, n2))
    ensures Consistent(EditStudent(EditTeacher(e, tf, n2), sf, n1))
  {
  }

  /** What saving one section sends: for students the two counts and their
      sum, for teachers the two figures and the floored difference. */
  datatype Payload = StudentsPayload(students: Students) | TeachersPayload(teachers: Teachers)

  function SavePayload(e: EditData, section: Section): (r: Payload)
    ensures section == StudentsSection ==>
              r == StudentsPayload(Students(e.students.male, e.students.female, e.students.male + e.students.female))
    ensures section == TeachersSection ==>
              && r.TeachersPayload?
              && r.teachers.total == e.teachers.total
              && r.teachers.steamInvolved == e.teachers.steamInvolved
              && r.teachers.nonSteamInvolved >= 0
              && r.teachers.nonSteamInvolved >= r.teachers.total - r.teachers.steamInvolved
              && (r.teachers.nonSteamInvolved == 0 || r.teachers.nonSteamInvolved == r.teachers.total - r.teachers.steamInvolved)
  {
    match section
    case StudentsSection =>
      StudentsPayload(Students(e.students.male, e.students.female, e.students.male + e.students.female))
    case TeachersSection =>
      var total := e.teachers.total;
      var steam := e.teachers.steamInvolved;
      TeachersPayload(Teachers(total, steam, Max0(total - steam)))
  }

  /** For consistent edit data the payload is exactly what the dialog shows. */
  lemma PayloadOfConsistentEdit(e: EditData)
    requires Consistent(e)
    ensures SavePayload(e, StudentsSection).students.total == e.students.total.value
    ensures SavePayload(e, TeachersSection).teachers.nonSteamInvolved == e.teachers.nonSteamInvolved.value
  {
  }

  /** The outcome of `handleUpdate`: without a signed-in user nothing is sent
      and nothing changes; a failed save changes nothing either; a successful
      one replaces exactly the saved section of the displayed figures. */
  datatype UpdateOutcome = NotSignedIn | Saved(sent: Payload, shown: PopulationData) | SaveFailed(sent: Payload)

  function Update(userId: Option<string>, e: EditData, shown: PopulationData, section: Section, saveSucceeds: bool): (r: UpdateOutcome)
    ensures userId.None? || userId.value == "" <==> r.NotSignedIn?
    ensures !r.NotSignedIn? ==> r.sent == SavePayload(e, section)
    ensures r.SaveFailed? <==> !r.NotSignedIn? && !saveSucceeds
    ensures r.Saved? && section == StudentsSection ==>
              r.shown.teachers == shown.teachers && r.shown.students == r.sent.students
    ensures r.Saved? && section == TeachersSection ==>
              r.shown.students == shown.students && r.shown.teachers == r.sent.teachers
  {
    if userId.None? || userId.value == "" then NotSignedIn
    else
      var payload := SavePayload(e, section);
      if !saveSucceeds then SaveFailed(payload)
      else match payload
        case StudentsPayload(s) => Saved(payload, shown.(students := s))
        case TeachersPayload(t) => Saved(payload, shown.(teachers := t))
  }
}

=== FILE: rate_limit.dfy ===
/** The fixed-window rate limiter: a store from `ip:path` to a request count
    and the time its window ends, advanced by one pure step per request. */
module RateLimit {
  import opened Wrappers
  import JsText

  datatype Entry = Entry(count: int, resetTime: int)

  type Store = map<string, Entry>

  /** The options passed to `rateLimit`; each may be left out. */
  datatype Options = Options(windowMs: Option<int>, max: Option<int>, message: Option<string>)

  datatype Config = Config(windowMs: int, max: int, message: string)

  const DefaultWindowMs: int := 60 * 1000
  const DefaultMax: int := 100
  const DefaultMessage: string := "Too many requests, please try again later."

  /** `n || fallback` for an optional number. */
  function NumberOr(n: Option<int>, fallback: int): (r: int)
    ensures n.Some? && n.value != 0 ==> r == n.value
    ensures n.None? || n.value == 0 ==> r == fallback
  {
    if n.Some? && n.value != 0 then n.value else fallback
  }

  /** The settings `rateLimit` derives from its options: a missing or zero
      window or maximum, or a missing or empty message, takes the default. */
  function Configure(o: Options): (c: Config)
    ensures c.windowMs == (if o.windowMs.Some? && o.windowMs.value != 0 then o.windowMs.value else DefaultWindowMs)
    ensures c.max == (if o.max.Some? && o.max.value != 0 then o.max.value else DefaultMax)
    ensures c.message == (if JsText.Truthy(o.message) then o.message.value else DefaultMessage)
  {
    Config(NumberOr(o.windowMs, DefaultWindowMs), NumberOr(o.max, DefaultMax),
           JsText.OrElse(o.message, DefaultMessage))
  }

  /** The client address: `req.ip`, else the `x-forwarded-for` header, else the
      socket's remote address; a missing address prints as `undefined`. */
  function ClientIp(ip: Option<string>, forwardedFor: Option<string>, remote: Option<string>): (r: string)
    ensures JsText.Truthy(ip) ==> r == ip.value
    ensures !JsText.Truthy(ip) && JsText.Truthy(forwardedFor) ==> r == forwardedFor.value
    ensures !JsText.Truthy(ip) && !JsText.Truthy(forwardedFor) ==>
              r == (if remote.Some? then remote.value else "undefined")
  {
    if JsText.Truthy(ip) then ip.value
    else if JsText.Truthy(forwardedFor) then forwardedFor.value
    else match remote
      case Some(a) => a
      case None => "undefined"
  }

  /** The store key of a request. */
  function Key(ip: string, path: string): string {
    ip + ":" + path
  }

  /** Whether the request went on to the next handler or got a 429 reply. */
  datatype Decision = Allow | Reject(status: int, message: string)

  datatype StepResult = StepResult(store: Store, decision: Decision)

  /** The window of `key` is over at time `now`, or was never opened. */
  predicate Expired(store: Store, key: string, now: int) {
    key !in store || now > store[key].resetTime
  }

  /** One request for `key` at time `now`. A missing or expired entry starts a
      new window with count 1 and lets the request through. Otherwise the
      count goes up by one, and the request is rejected with 429 exactly when
      the new count exceeds the maximum; rejected requests are counted too.
      No other key's entry is touched. */
  function Step(store: Store, key: string, now: int, c: Config): (r: StepResult)
    ensures r.store.Keys == store.Keys + {key}
    ensures forall k | k in store && k != key :: r.store[k] == store[k]
    ensures Expired(store, key, now) ==>
              r.store[key] == Entry(1, now + c.windowMs) && r.decision == Allow
    ensures !Expired(store, key, now) ==>
              && r.store[key] == Entry(store[key].count + 1, store[key].resetTime)
              && (r.decision == Allow <==> store[key].count + 1 <= c.max)
              && (r.decision.Reject? ==> r.decision == Reject(429, c.message))
  {
    if Expired(store, key, now) then
      StepResult(store[key := Entry(1, now + c.windowMs)], Allow)
    else
      var e := Entry(store[key].count + 1, store[key].resetTime);
      var s := store[key := e];
      if e.count > c.max then StepResult(s, Reject(429, c.message))
      else StepResult(s, Allow)
  }

  /** A request at exactly the window's reset time still counts against that
      window; only a strictly later one opens a new window. */
  lemma ResetTimeBelongsToOldWindow(store: Store, key: string, c: Config)
    requires key in store
    ensures var r := Step(store, key, store[key].resetTime, c);
            r.store[key] == Entry(store[key].count + 1, store[key].resetTime)
    ensures var r := Step(store, key, store[key].resetTime + 1, c);
            r.store[key] == Entry(1, store[key].resetTime + 1 + c.windowMs)
  {
  }

  function Max(a: int, b: int): int {
    if a >= b then a else b
  }

  function Min(a: int, b: int): int {
    if a <= b then a else b
  }

  datatype RunResult = RunResult(store: Store, allowed: nat)

  /** A sequence of requests for one key at the times `times`, with the number
      of them that were let through. */
  function Run(store: Store, key: string, times: seq<int>, c: Config): RunResult
    decreases |times|
  {
    if times == [] then RunResult(store, 0)
    else
      var r := Step(store, key, times[0], c);
      var rest := Run(r.store, key, times[1..], c);
      RunResult(rest.store, rest.allowed + if r.decision == Allow then 1 else 0)
  }

  /** Requests that all fall within an open window are counted one by one and
      let through only while the count stays at or below the maximum. */
  lemma {:induction false} RunInOpenWindow(store: Store, key: string, times: seq<int>, c: Config)
    requires key in store
    requires forall i | 0 <= i < |times| :: times[i] <= store[key].resetTime
    ensures var r := Run(store, key, times, c);
            && key in r.store
            && r.store[key] == Entry(store[key].count + |times|, store[key].resetTime)
            && r.allowed == Max(0, Min(|times|, c.max - store[key].count))
    decreases |times|
  {
    if times != [] {
      var s := Step(store, key, times[0], c);
      assert !Expired(store, key, times[0]);
      RunInOpenWindow(s.store, key, times[1..], c);
    }
  }

  /** The exact number of requests one window lets through: the opening request,
      then every further one while the count stays within the maximum. With a
      positive maximum that is never more than the maximum. */
  lemma {:induction false} WindowAllowsAtMostMax(store: Store, key: string, times: seq<int>, c: Config)
    requires |times| >= 1 && Expired(store, key, times[0])
    requires forall i | 0 <= i < |times| :: times[i] <= times[0] + c.windowMs
    ensures var r := Run(store, key, times, c);
            r.allowed == 1 + Max(0, Min(|times| - 1, c.max - 1))
    ensures c.max >= 1 ==> Run(store, key, times, c).allowed <= c.max
  {
    var s := Step(store, key, times[0], c);
    assert s.store[key] == Entry(1, times[0] + c.windowMs);
    RunInOpenWindow(s.store, key, times[1..], c);
  }
}

=== FILE: register.dfy ===
/** The five-step school registration wizard: the per-step validators, the
    step counter, the challenge toggle and the per-field error map. */
module Register {
  import opened Wrappers
  import JsText
  import Seqs

  /** The text inputs of the wizard, named as in the form. */
  datatype TextField =
    | SchoolName | Country | City | SchoolType | EmisCode
    | AddressLine1 | AddressLine2 | DigitalAddress | TownCity | DistrictRegion | PostalAddress
    | SchoolEmail | SchoolContactNumber
    | ContactName | Email | Phone | StaffId
    | Password | ConfirmPassword

  /** The keys of the validation-error map. */
  datatype Field = Text(name: TextField) | Challenges | AcceptTerms

  type Errors = map<Field, string>

  datatype FormData = FormData(
    schoolName: string, country: string, city: string, schoolType: string, emisCode: string,
    addressLine1: string, addressLine2: string, digitalAddress: string, townCity: string,
    districtRegion: string, postalAddress: string, schoolEmail: string, schoolContactNumber: string,
    contactName: string, email: string, phone: string, staffId: string,
    password: string, confirmPassword: string,
    challenges: seq<string>, acceptTerms: bool)

  /** The form as it starts: every text empty, no challenge, terms not accepted. */
  const InitialForm: FormData :=
    FormData("", "", "", "", "", "", "", "", "", "", "", "", "", "", "", "", "", "", "", [], false)

  function TextOf(d: FormData, f: TextField): string {
    match f
    case SchoolName => d.schoolName
    case Country => d.country
    case City => d.city
    case SchoolType => d.schoolType
    case EmisCode => d.emisCode
    case AddressLine1 => d.addressLine1
    case AddressLine2 => d.addressLine2
    case DigitalAddress => d.digitalAddress
    case TownCity => d.townCity
    case DistrictRegion => d.districtRegion
    case PostalAddress => d.postalAddress
    case SchoolEmail => d.schoolEmail
    case SchoolContactNumber => d.schoolContactNumber
    case ContactName => d.contactName
    case Email => d.email
    case Phone => d.phone
    case StaffId => d.staffId
    case Password => d.password
    case ConfirmPassword => d.confirmPassword
  }

  /** `{ ...formData, [name]: value }`. */
  function WithText(d: FormData, f: TextField, v: string): (r: FormData)
    ensures TextOf(r, f) == v
    ensures forall g | g != f :: TextOf(r, g) == TextOf(d, g)
    ensures r.challenges == d.challenges && r.acceptTerms == d.acceptTerms
  {
    match f
    case SchoolName => d.(schoolName := v)
    case Country => d.(country := v)
    case City => d.(city := v)
    case SchoolType => d.(schoolType := v)
    case EmisCode => d.(emisCode := v)
    case AddressLine1 => d.(addressLine1 := v)
    case AddressLine2 => d.(addressLine2 := v)
    case DigitalAddress => d.(digitalAddress := v)
    case TownCity => d.(townCity := v)
    case DistrictRegion => d.(districtRegion := v)
    case PostalAddress => d.(postalAddress := v)
    case SchoolEmail => d.(schoolEmail := v)
    case SchoolContactNumber => d.(schoolContactNumber := v)
    case ContactName => d.(contactName := v)
    case Email => d.(email := v)
    case Phone => d.(phone := v)
    case StaffId => d.(staffId := v)
    case Password => d.(password := v)
    case ConfirmPassword => d.(confirmPassword := v)
  }

  // ----- Character classes of the three patterns -----

  predicate IsUpperOrDigit(c: char) {
    'A' <= c <= 'Z' || '0' <= c <= '9'
  }

  /** `^[A-Z0-9]{6,12}$`. */
  predicate IsEmisCode(s: string) {
    6 <= |s| <= 12 && forall k | 0 <= k < |s| :: IsUpperOrDigit(s[k])
  }

  /** `[A-Za-z0-9-_]`. */
  predicate IsStaffIdChar(c: char) {
    'A' <= c <= 'Z' || 'a' <= c <= 'z' || '0' <= c <= '9' || c == '-' || c == '_'
  }

  /** `[^\s@]`. */
  predicate IsEmailChar(c: char) {
    !JsText.IsSpace(c) && c != '@'
  }

  /** The pattern `^[^\s@]+@[^\s@]+\.[^\s@]+$` matched with the `@` at `at`
      and the dot at `dot`: three non-empty runs of characters other than
      spaces and `@`. */
  predicate EmailMatchAt(s: string, at: int, dot: int) {
    && 0 < at && at + 1 < dot && dot + 1 < |s|
    && s[at] == '@' && s[dot] == '.'
    && forall k | 0 <= k < |s| && k != at && k != dot :: IsEmailChar(s[k])
  }

  /** Whether the email pattern matches `s` at all. */
  ghost predicate MatchesEmailPattern(s: string) {
    exists at, dot :: EmailMatchAt(s, at, dot)
  }

  /** The email check as the form runs it: exactly one `@`, not first, no
      space anywhere, and a dot strictly inside the text after the `@`. */
  predicate IsEmail(s: string) {
    match JsText.IndexOf(s, '@')
    case None => false
    case Some(at) =>
      && at > 0
      && (forall k | 0 <= k < |s| && k != at :: IsEmailChar(s[k]))
      && |s| - at >= 4
      && '.' in s[at + 2..|s| - 1]
  }

  lemma {:induction false} IsEmailMatchesPattern(s: string)
    ensures IsEmail(s) <==> MatchesEmailPattern(s)
  {
    if IsEmail(s) {
      var at := JsText.IndexOf(s, '@').value;
      var mid := s[at + 2..|s| - 1];
      var m := JsText.IndexOf(mid, '.').value;
      var dot := at + 2 + m;
      assert s[dot] == mid[m] == '.';
      assert EmailMatchAt(s, at, dot);
    }
    if MatchesEmailPattern(s) {
      var at, dot :| EmailMatchAt(s, at, dot);
      assert '@' !in s[..at];
      assert JsText.IndexOf(s, '@') == Some(at);
      var mid := s[at + 2..|s| - 1];
      assert mid[dot - at - 2] == s[dot];
      assert forall k | 0 <= k < |s| && k != at :: IsEmailChar(s[k]);
    }
  }

  // ----- Messages -----

  const EmisRequired: string := "EMIS Code is required"
  const EmisFormat: string := "EMIS Code must be 6-12 characters long and contain only uppercase letters and numbers"
  const SchoolEmailRequired: string := "School email is required"
  const SchoolEmailInvalid: string := "Please enter a valid school email address"
  const EmailRequired: string := "Email is required"
  const EmailInvalid: string := "Please enter a valid email address"
  const StaffIdRequired: string := "Staff ID is required"
  const StaffIdShort: string := "Staff ID must be at least 3 characters long"
  const StaffIdChars: string := "Staff ID can only contain letters, numbers, hyphens, and underscores"
  const PasswordRequired: string := "Password is required"
  const PasswordShort: string := "Password must be at least 6 characters"
  const ConfirmRequired: string := "Please confirm your password"
  const ConfirmMismatch: string := "Passwords do not match"
  const TermsRequired: string := "You must accept the terms and conditions"
  const ChallengesRequired: string := "Please select at least one challenge"

  /** The error for a required text that must also match a pattern. */
  function PatternError(blank: bool, matches: bool, required: string, invalid: string): Option<string> {
    if blank then Some(required) else if !matches then Some(invalid) else None
  }

  /** `required` when the condition holds, nothing otherwise. */
  function RequiredIf(cond: bool, message: string): Option<string> {
    if cond then Some(message) else None
  }

  /** The error map a validator builds: an entry for exactly those checked
      fields whose check produces a message, holding that message. */
  function Collect(fields: set<Field>, message: Field -> Option<string>): (e: Errors)
    ensures forall f :: f in e <==> f in fields && message(f).Some?
    ensures forall f | f in e :: e[f] == message(f).value
  {
    map f | f in fields && message(f).Some? :: message(f).value
  }

  /** A validator passes (`Object.keys(errors).length === 0`) exactly when no
      checked field produces a message. */
  lemma CollectEmptyIff(fields: set<Field>, message: Field -> Option<string>)
    ensures Collect(fields, message) == map[] <==> forall f | f in fields :: message(f).None?
  {
    var e := Collect(fields, message);
    if e != map[] {
      var f :| f in e;
    }
  }

  // ----- Step 1: school information -----

  /** The EMIS code's single error: blank, then not matching the pattern once
      trimmed. */
  function EmisError(d: FormData): (m: Option<string>)
    ensures m == Some(EmisRequired) <==> JsText.Blank(d.emisCode)
    ensures m == Some(EmisFormat) <==> !JsText.Blank(d.emisCode) && !IsEmisCode(JsText.Trim(d.emisCode))
    ensures m.None? <==> !JsText.Blank(d.emisCode) && IsEmisCode(JsText.Trim(d.emisCode))
  {
    PatternError(JsText.Blank(d.emisCode), IsEmisCode(JsText.Trim(d.emisCode)), EmisRequired, EmisFormat)
  }

  /** The message step 1 stores for a field, if any. */
  function Step1Message(d: FormData, f: Field): (m: Option<string>)
    ensures m.Some? ==> m.value != ""
  {
    match f
    case Text(SchoolName) => RequiredIf(JsText.Blank(d.schoolName), "School name is required")
    case Text(Country) => RequiredIf(d.country == "", "Country is required")
    case Text(City) => RequiredIf(d.city == "", "City is required")
    case Text(SchoolType) => RequiredIf(d.schoolType == "", "School type is required")
    case Text(EmisCode) => EmisError(d)
    case _ => None
  }

  const Step1Fields: set<Field> := {Text(SchoolName), Text(Country), Text(City), Text(SchoolType), Text(EmisCode)}

  /** `validateStep1`. The name and EMIS code are trimmed; country, city and
      type only need to be non-empty. */
  function ValidateStep1(d: FormData): Errors {
    Collect(Step1Fields, f => Step1Message(d, f))
  }

  /** Step 1 in plain terms. */
  predicate Step1Ok(d: FormData) {
    && JsText.HasNonSpace(d.schoolName)
    && d.country != "" && d.city != "" && d.schoolType != ""
    && IsEmisCode(JsText.Trim(d.emisCode))
  }

  lemma Step1MessagesIff(d: FormData)
    ensures (forall f | f in Step1Fields :: Step1Message(d, f).None?) <==> Step1Ok(d)
  {
    JsText.NotBlankIffHasNonSpace(d.schoolName);
    if IsEmisCode(JsText.Trim(d.emisCode)) {
      assert JsText.Trim(d.emisCode) != [];
      JsText.BlankIffTrimEmpty(d.emisCode);
    }
  }

  /** Step 1 passes exactly when the name holds more than spaces, country,
      city and type are chosen, and the trimmed EMIS code has 6 to 12
      upper-case letters and digits. */
  lemma Step1PassesIff(d: FormData)
    ensures ValidateStep1(d) == map[] <==> Step1Ok(d)
  {
    Step1MessagesIff(d);
    CollectEmptyIff(Step1Fields, f => Step1Message(d, f));
  }

  // ----- Step 2: address and contact -----

  /** The school email's single error: blank, then not an email. */
  function SchoolEmailError(d: FormData): (m: Option<string>)
    ensures m == Some(SchoolEmailRequired) <==> JsText.Blank(d.schoolEmail)
    ensures m == Some(SchoolEmailInvalid) <==> !JsText.Blank(d.schoolEmail) && !IsEmail(d.schoolEmail)
    ensures m.None? <==> !JsText.Blank(d.schoolEmail) && IsEmail(d.schoolEmail)
  {
    PatternError(JsText.Blank(d.schoolEmail), IsEmail(d.schoolEmail), SchoolEmailRequired, SchoolEmailInvalid)
  }

  function Step2Message(d: FormData, f: Field): (m: Option<string>)
    ensures m.Some? ==> m.value != ""
  {
    match f
    case Text(AddressLine1) => RequiredIf(JsText.Blank(d.addressLine1), "Address Line 1 is required")
    case Text(DigitalAddress) => RequiredIf(JsText.Blank(d.digitalAddress), "Digital Address is required")
    case Text(TownCity) => RequiredIf(JsText.Blank(d.townCity), "Town/City is required")
    case Text(DistrictRegion) => RequiredIf(JsText.Blank(d.districtRegion), "District/Region is required")
    case Text(PostalAddress) => RequiredIf(JsText.Blank(d.postalAddress), "Postal Address is required")
    case Text(SchoolEmail) => SchoolEmailError(d)
    case Text(SchoolContactNumber) =>
      RequiredIf(JsText.Blank(d.schoolContactNumber), "School contact number is required")
    case _ => None
  }

  const Step2Fields: set<Field> :=
    {Text(AddressLine1), Text(DigitalAddress), Text(TownCity), Text(DistrictRegion),
     Text(PostalAddress), Text(SchoolEmail), Text(SchoolContactNumber)}

  /** `validateStep2`. The email pattern is tested on the untrimmed text, and
      the second address line is never checked. */
  function ValidateStep2(d: FormData): Errors {
    Collect(Step2Fields, f => Step2Message(d, f))
  }

  ghost predicate Step2Ok(d: FormData) {
    && JsText.HasNonSpace(d.addressLine1) && JsText.HasNonSpace(d.digitalAddress)
    && JsText.HasNonSpace(d.townCity) && JsText.HasNonSpace(d.districtRegion)
    && JsText.HasNonSpace(d.postalAddress) && JsText.HasNonSpace(d.schoolContactNumber)
    && MatchesEmailPattern(d.schoolEmail)
  }

  /** A text the email check accepts is never blank: its first character is
      neither a space nor the `@`. */
  lemma EmailIsNotBlank(s: string)
    requires IsEmail(s)
    ensures !JsText.Blank(s)
  {
    assert !JsText.IsSpace(s[0]);
  }

  /** An email field passes exactly when its text matches the pattern. */
  lemma EmailFieldPassesIff(s: string, required: string, invalid: string)
    ensures PatternError(JsText.Blank(s), IsEmail(s), required, invalid).None? <==> MatchesEmailPattern(s)
  {
    IsEmailMatchesPattern(s);
    if IsEmail(s) {
      EmailIsNotBlank(s);
    }
  }

  /** The address lines of step 2 pass exactly when they hold more than spaces. */
  lemma Step2AddressIff(d: FormData)
    ensures Step2Message(d, Text(AddressLine1)).None? <==> JsText.HasNonSpace(d.addressLine1)
    ensures Step2Message(d, Text(DigitalAddress)).None? <==> JsText.HasNonSpace(d.digitalAddress)
    ensures Step2Message(d, Text(TownCity)).None? <==> JsText.HasNonSpace(d.townCity)
  {
    JsText.NotBlankIffHasNonSpace(d.addressLine1);
    JsText.NotBlankIffHasNonSpace(d.digitalAddress);
    JsText.NotBlankIffHasNonSpace(d.townCity);
  }

  /** The region, postal address and contact number of step 2. */
  lemma Step2ContactIff(d: FormData)
    ensures Step2Message(d, Text(DistrictRegion)).None? <==> JsText.HasNonSpace(d.districtRegion)
    ensures Step2Message(d, Text(PostalAddress)).None? <==> JsText.HasNonSpace(d.postalAddress)
    ensures Step2Message(d, Text(SchoolContactNumber)).None? <==> JsText.HasNonSpace(d.schoolContactNumber)
  {
    JsText.NotBlankIffHasNonSpace(d.districtRegion);
    JsText.NotBlankIffHasNonSpace(d.postalAddress);
    JsText.NotBlankIffHasNonSpace(d.schoolContactNumber);
  }

  /** The school email passes exactly when it matches the pattern. */
  lemma Step2EmailIff(d: FormData)
    ensures Step2Message(d, Text(SchoolEmail)).None? <==> MatchesEmailPattern(d.schoolEmail)
  {
    EmailFieldPassesIff(d.schoolEmail, SchoolEmailRequired, SchoolEmailInvalid);
  }

  lemma Step2MessagesIff(d: FormData)
    ensures (forall f | f in Step2Fields :: Step2Message(d, f).None?) <==> Step2Ok(d)
  {
    Step2AddressIff(d);
    Step2ContactIff(d);
    Step2EmailIff(d);
  }

  /** Step 2 passes exactly when the six required texts hold more than spaces
      and the school email matches the pattern. */
  lemma Step2PassesIff(d: FormData)
    ensures ValidateStep2(d) == map[] <==> Step2Ok(d)
  {
    Step2MessagesIff(d);
    CollectEmptyIff(Step2Fields, f => Step2Message(d, f));
  }

  /** `addressLine2` plays no part in step 2. */
  lemma AddressLine2Unchecked(d: FormData, v: string)
    ensures ValidateStep2(WithText(d, AddressLine2, v)) == ValidateStep2(d)
  {
    var d' := WithText(d, AddressLine2, v);
    assert d' == d.(addressLine2 := v);
    assert forall f :: Step2Message(d', f) == Step2Message(d, f);
  }

  // ----- Step 3: challenges -----

  /** `validateStep3`. */
  function ValidateStep3(d: FormData): (e: Errors)
    ensures e == map[] <==> |d.challenges| > 0
    ensures e != map[] ==> e == map[Challenges := ChallengesRequired]
  {
    if |d.challenges| == 0 then
      var e := map[Challenges := ChallengesRequired];
      assert Challenges in e;
      e
    else map[]
  }

  // ----- Step 4: contact person -----

  /** The contact email's single error: blank, then not an email. */
  function EmailError(d: FormData): (m: Option<string>)
    ensures m == Some(EmailRequired) <==> JsText.Blank(d.email)
    ensures m == Some(EmailInvalid) <==> !JsText.Blank(d.email) && !IsEmail(d.email)
    ensures m.None? <==> !JsText.Blank(d.email) && IsEmail(d.email)
  {
    PatternError(JsText.Blank(d.email), IsEmail(d.email), EmailRequired, EmailInvalid)
  }

  predicate AllStaffIdChars(s: string) {
    forall k | 0 <= k < |s| :: IsStaffIdChar(s[k])
  }

  /** The staff id's single error: blank, then too short, then a character
      outside `[A-Za-z0-9-_]`, all judged on the trimmed text. */
  function StaffIdError(d: FormData): (m: Option<string>)
    ensures m == Some(StaffIdRequired) <==> JsText.Blank(d.staffId)
    ensures m == Some(StaffIdShort) <==> !JsText.Blank(d.staffId) && |JsText.Trim(d.staffId)| < 3
    ensures m == Some(StaffIdChars) <==>
              !JsText.Blank(d.staffId) && |JsText.Trim(d.staffId)| >= 3 && !AllStaffIdChars(JsText.Trim(d.staffId))
  {
    var t := JsText.Trim(d.staffId);
    if JsText.Blank(d.staffId) then Some(StaffIdRequired)
    else if |t| < 3 then Some(StaffIdShort)
    else if !AllStaffIdChars(t) then Some(StaffIdChars)
    else None
  }

  /** A staff id is accepted exactly when its trimmed text has at least three
      characters, all letters, digits, hyphens or underscores. */
  lemma StaffIdPassesIff(d: FormData)
    ensures StaffIdError(d).None? <==> |JsText.Trim(d.staffId)| >= 3 && AllStaffIdChars(JsText.Trim(d.staffId))
  {
    if |JsText.Trim(d.staffId)| >= 3 {
      JsText.BlankIffTrimEmpty(d.staffId);
    }
  }

  function Step4Message(d: FormData, f: Field): (m: Option<string>)
    ensures m.Some? ==> m.value != ""
  {
    match f
    case Text(ContactName) => RequiredIf(JsText.Blank(d.contactName), "Contact name is required")
    case Text(Email) => EmailError(d)
    case Text(Phone) => RequiredIf(JsText.Blank(d.phone), "Phone number is required")
    case Text(StaffId) => StaffIdError(d)
    case _ => None
  }

  const Step4Fields: set<Field> := {Text(ContactName), Text(Email), Text(Phone), Text(StaffId)}

  /** `validateStep4`. */
  function ValidateStep4(d: FormData): Errors {
    Collect(Step4Fields, f => Step4Message(d, f))
  }

  ghost predicate Step4Ok(d: FormData) {
    && JsText.HasNonSpace(d.contactName) && JsText.HasNonSpace(d.phone)
    && MatchesEmailPattern(d.email)
    && |JsText.Trim(d.staffId)| >= 3 && AllStaffIdChars(JsText.Trim(d.staffId))
  }

  /** The name and phone pass exactly when they hold more than spaces. */
  lemma Step4ContactIff(d: FormData)
    ensures Step4Message(d, Text(ContactName)).None? <==> JsText.HasNonSpace(d.contactName)
    ensures Step4Message(d, Text(Phone)).None? <==> JsText.HasNonSpace(d.phone)
  {
    JsText.NotBlankIffHasNonSpace(d.contactName);
    JsText.NotBlankIffHasNonSpace(d.phone);
  }

  /** The email passes exactly when it matches the pattern. */
  lemma Step4EmailIff(d: FormData)
    ensures Step4Message(d, Text(Email)).None? <==> MatchesEmailPattern(d.email)
  {
    EmailFieldPassesIff(d.email, EmailRequired, EmailInvalid);
  }

  lemma Step4MessagesIff(d: FormData)
    ensures (forall f | f in Step4Fields :: Step4Message(d, f).None?) <==> Step4Ok(d)
  {
    Step4ContactIff(d);
    Step4EmailIff(d);
    StaffIdPassesIff(d);
    assert Step4Message(d, Text(StaffId)) == StaffIdError(d);
  }

  /** Step 4 passes exactly when the name and phone hold more than spaces, the
      email matches the pattern and the staff id is acceptable. */
  lemma Step4PassesIff(d: FormData)
    ensures ValidateStep4(d) == map[] <==> Step4Ok(d)
  {
    Step4MessagesIff(d);
    CollectEmptyIff(Step4Fields, f => Step4Message(d, f));
  }

  // ----- Step 5: account security -----

  /** The password's error: missing, then shorter than six characters. */
  function PasswordError(d: FormData): (m: Option<string>)
    ensures m.None? <==> |d.password| >= 6
    ensures m == Some(PasswordRequired) <==> d.password == ""
  {
    if d.password == "" then Some(PasswordRequired)
    else if |d.password| < 6 then Some(PasswordShort)
    else None
  }

  /** The confirmation's error: missing, then different from the password. */
  function ConfirmError(d: FormData): (m: Option<string>)
    ensures m.None? <==> d.confirmPassword != "" && d.confirmPassword == d.password
    ensures m == Some(ConfirmRequired) <==> d.confirmPassword == ""
  {
    if d.confirmPassword == "" then Some(ConfirmRequired)
    else if d.password != d.confirmPassword then Some(ConfirmMismatch)
    else None
  }

  function Step5Message(d: FormData, f: Field): (m: Option<string>)
    ensures m.Some? ==> m.value != ""
  {
    match f
    case Text(Password) => PasswordError(d)
    case Text(ConfirmPassword) => ConfirmError(d)
    case AcceptTerms => RequiredIf(!d.acceptTerms, TermsRequired)
    case _ => None
  }

  const Step5Fields: set<Field> := {Text(Password), Text(ConfirmPassword), AcceptTerms}

  /** `validateStep5`: six characters are enough, whatever the page's hint says. */
  function ValidateStep5(d: FormData): Errors {
    Collect(Step5Fields, f => Step5Message(d, f))
  }

  /** Step 5 passes exactly for a password of at least six characters, typed
      again identically, with the terms accepted. */
  lemma Step5PassesIff(d: FormData)
    ensures ValidateStep5(d) == map[] <==> |d.password| >= 6 && d.confirmPassword == d.password && d.acceptTerms
  {
    CollectEmptyIff(Step5Fields, f => Step5Message(d, f));
    assert Step5Message(d, Text(Password)) == PasswordError(d);
    assert Step5Message(d, Text(ConfirmPassword)) == ConfirmError(d);
    assert Step5Message(d, AcceptTerms) == RequiredIf(!d.acceptTerms, TermsRequired);
  }

  // ----- The wizard -----

  datatype Wizard = Wizard(step: int, form: FormData, errors: Errors)

  const InitialWizard: Wizard := Wizard(1, InitialForm, map[])

  /** The validator of a step with a Continue button. */
  function ValidateStep(step: int, d: FormData): Errors
    requires 1 <= step <= 4
  {
    if step == 1 then ValidateStep1(d)
    else if step == 2 then ValidateStep2(d)
    else if step == 3 then ValidateStep3(d)
    else ValidateStep4(d)
  }

  /** `handleNextStep`: steps 1 to 4 run their validator, which replaces the
      error map, and advance by one when it finds nothing; any other step
      leaves everything as it is. */
  function NextStep(w: Wizard): (r: Wizard)
    ensures r.form == w.form
    ensures !(1 <= w.step <= 4) ==> r == w
    ensures 1 <= w.step <= 4 ==> r.errors == ValidateStep(w.step, w.form)
    ensures r.step == w.step + 1 <==> 1 <= w.step <= 4 && ValidateStep(w.step, w.form) == map[]
    ensures r.step == w.step || r.step == w.step + 1
  {
    if 1 <= w.step <= 4 then
      var e := ValidateStep(w.step, w.form);
      Wizard(if e == map[] then w.step + 1 else w.step, w.form, e)
    else w
  }

  /** The counter never leaves 1..5: from step 5 Continue does nothing. */
  lemma NextStepStaysInRange(w: Wizard)
    requires 1 <= w.step <= 5
    ensures 1 <= NextStep(w).step <= 5
    ensures w.step == 5 ==> NextStep(w) == w
  {
  }

  /** Reaching step 5 from step 1 takes four successful Continues, each of which
      needs its step's validator to pass; the form never changes on the way,
      so four Continues reach step 5 exactly when steps 1 to 4 all pass on it. */
  lemma ReachingLastStepNeedsValidSteps(w: Wizard)
    requires w.step == 1
    ensures var f := w.form;
            NextStep(NextStep(NextStep(NextStep(w)))).step == 5 <==>
              && ValidateStep1(f) == map[] && ValidateStep2(f) == map[]
              && ValidateStep3(f) == map[] && ValidateStep4(f) == map[]
    ensures NextStep(NextStep(NextStep(NextStep(w)))).step == 5 ==>
              && Step1Ok(w.form) && Step2Ok(w.form) && |w.form.challenges| > 0 && Step4Ok(w.form)
  {
    var w1 := NextStep(w);
    var w2 := NextStep(w1);
    var w3 := NextStep(w2);
    var w4 := NextStep(w3);
    assert w1.form == w.form && w2.form == w.form && w3.form == w.form;
    Step1PassesIff(w.form);
    Step2PassesIff(w.form);
    Step4PassesIff(w.form);
  }

  /** `handleRegistration`'s gate: step 5's validator replaces the errors, and
      account creation goes ahead only when it finds nothing. */
  function SubmitRegistration(w: Wizard): (r: (Wizard, bool))
    ensures r.0 == w.(errors := ValidateStep5(w.form))
    ensures r.1 <==> ValidateStep5(w.form) == map[]
  {
    var e := ValidateStep5(w.form);
    (w.(errors := e), e == map[])
  }

  /** `errors` without `f` when it holds a non-empty message for it. */
  function ClearError(errors: Errors, f: Field): (r: Errors)
    ensures f in errors && errors[f] != "" ==> r == errors - {f}
    ensures !(f in errors && errors[f] != "") ==> r == errors
  {
    if f in errors && errors[f] != "" then errors - {f} else errors
  }

  /** `handleInputChange`: the edited text changes and its error goes away;
      every other text and every other error stays. */
  function EditText(w: Wizard, f: TextField, v: string): (r: Wizard)
    ensures r.step == w.step
    ensures TextOf(r.form, f) == v
    ensures forall g | g != f :: TextOf(r.form, g) == TextOf(w.form, g)
    ensures r.form.challenges == w.form.challenges && r.form.acceptTerms == w.form.acceptTerms
    ensures Text(f) in w.errors && w.errors[Text(f)] != "" ==> Text(f) !in r.errors
    ensures forall g | g != Text(f) :: (g in r.errors <==> g in w.errors)
    ensures forall g | g != Text(f) && g in r.errors :: r.errors[g] == w.errors[g]
  {
    Wizard(w.step, WithText(w.form, f, v), ClearError(w.errors, Text(f)))
  }

  /** Every message a validator stores is non-empty, so editing a field that
      shows an error always removes it. */
  lemma ValidatorMessagesNonEmpty(d: FormData, step: int)
    requires 1 <= step <= 4
    ensures forall f | f in ValidateStep(step, d) :: ValidateStep(step, d)[f] != ""
  {
  }

  /** The new challenge list: a selected challenge is removed (every copy), an
      unselected one is added at the end. */
  function Toggle(list: seq<string>, c: string): (r: seq<string>)
    ensures c in list ==> r == Seqs.Filter((x: string) => x != c, list)
    ensures c !in list ==> r == list + [c]
  {
    if c in list then Seqs.Filter((x: string) => x != c, list) else list + [c]
  }

  /** `handleChallengeToggle`: the list is toggled, and the challenges error is
      cleared when the new list is not empty. */
  function ToggleChallenge(w: Wizard, c: string): (r: Wizard)
    ensures r.form == w.form.(challenges := Toggle(w.form.challenges, c))
    ensures |r.form.challenges| > 0 ==> r.errors == ClearError(w.errors, Challenges)
    ensures |r.form.challenges| == 0 ==> r.errors == w.errors
    ensures r.step == w.step
  {
    var list := Toggle(w.form.challenges, c);
    var errors := if |list| > 0 then ClearError(w.errors, Challenges) else w.errors;
    Wizard(w.step, w.form.(challenges := list), errors)
  }

  /** Toggling removes a selected challenge and adds an unselected one, and
      keeps every other challenge selected or not as it was. */
  lemma ToggleFlipsOnlyThatChallenge(list: seq<string>, c: string)
    ensures (c in Toggle(list, c)) <==> c !in list
    ensures forall x | x != c :: (x in Toggle(list, c)) <==> (x in list)
  {
    var r := Toggle(list, c);
    if c in list {
      forall x | x != c && x in list
        ensures x in r
      {
        var k :| 0 <= k < |list| && list[k] == x;
      }
      assert forall k | 0 <= k < |r| :: r[k] != c;
    }
  }

  /** A list without duplicates stays without duplicates. */
  lemma {:induction false} ToggleKeepsNoDuplicates(list: seq<string>, c: string)
    requires Seqs.NoDuplicates(list)
    ensures Seqs.NoDuplicates(Toggle(list, c))
  {
    if c in list {
      Seqs.FilterNoDuplicates((x: string) => x != c, list);
    } else {
      var r := list + [c];
      forall i, j | 0 <= i < j < |r|
        ensures r[i] != r[j]
      {
        if j == |list| {
          assert r[i] == list[i];
        }
      }
    }
  }

  /** Toggling an unselected challenge twice gives back the very same list. */
  lemma ToggleTwiceRestoresAbsent(list: seq<string>, c: string)
    requires c !in list
    ensures Toggle(Toggle(list, c), c) == list
  {
    var once := list + [c];
    assert c in once;
    var p := (x: string) => x != c;
    Seqs.FilterAll(p, list);
    Seqs.FilterAppendDropped(p, list, c);
  }

  /** Toggling a selected challenge twice moves it to the end: the same set of
      challenges, still without duplicates. */
  lemma ToggleTwiceRestoresPresent(list: seq<string>, c: string)
    requires c in list && Seqs.NoDuplicates(list)
    ensures var r := Toggle(Toggle(list, c), c);
            && Seqs.NoDuplicates(r)
            && (forall x :: x in r <==> x in list)
            && r == Seqs.Filter((x: string) => x != c, list) + [c]
  {
    var once := Toggle(list, c);
    ToggleFlipsOnlyThatChallenge(list, c);
    ToggleFlipsOnlyThatChallenge(once, c);
    ToggleKeepsNoDuplicates(list, c);
    ToggleKeepsNoDuplicates(once, c);
  }
}

=== FILE: rich_text.dfy ===
/** The description editor's length limit: which editor states it accepts,
    when it reports a new text to the form, and the two limit warnings. The
    editor is seen through its plain text; formatting is an opaque label. */
module RichText {
  import opened Wrappers

  datatype EditorState = EditorState(text: string, formatting: string)

  const DefaultMaxLength: nat := 200

  /** `maxLength = 200` when the prop is left out. */
  function MaxLength(prop: Option<nat>): (m: nat)
    ensures prop.Some? ==> m == prop.value
    ensures prop.None? ==> m == DefaultMaxLength
  {
    prop.GetOr(DefaultMaxLength)
  }

  /** A proposed state is taken when it fits the limit, shortens the text, or
      leaves the text as it was (a formatting change). */
  predicate Accepts(current: EditorState, proposed: EditorState, maxLength: nat) {
    || |proposed.text| <= maxLength
    || |proposed.text| < |current.text|
    || proposed.text == current.text
  }

  /** `handleEditorChange`: the state after the change, and the text handed to
      `onChange`, which is called only for an accepted state with new text. */
  function HandleChange(current: EditorState, proposed: EditorState, maxLength: nat): (r: (EditorState, Option<string>))
    ensures Accepts(current, proposed, maxLength) ==> r.0 == proposed
    ensures !Accepts(current, proposed, maxLength) ==> r.0 == current
    ensures r.1.Some? <==> Accepts(current, proposed, maxLength) && proposed.text != current.text
    ensures r.1.Some? ==> r.1.value == proposed.text
  {
    if Accepts(current, proposed, maxLength) then
      (proposed, if proposed.text != current.text then Some(proposed.text) else None)
    else (current, None)
  }

  /** Once within the limit, the text stays within it whatever is proposed. */
  lemma HandleChangeKeepsLimit(current: EditorState, proposed: EditorState, maxLength: nat)
    requires |current.text| <= maxLength
    ensures |HandleChange(current, proposed, maxLength).0.text| <= maxLength
  {
  }

  /** Over any run of proposals the text stays within the limit and every
      text reported to the form is within it too. */
  function Run(current: EditorState, proposals: seq<EditorState>, maxLength: nat): (r: (EditorState, seq<string>))
    requires |current.text| <= maxLength
    ensures |r.0.text| <= maxLength
    ensures forall k | 0 <= k < |r.1| :: |r.1[k]| <= maxLength
    decreases |proposals|
  {
    if proposals == [] then (current, [])
    else
      var step := HandleChange(current, proposals[0], maxLength);
      HandleChangeKeepsLimit(current, proposals[0], maxLength);
      var rest := Run(step.0, proposals[1..], maxLength);
      var reported := if step.1.Some? then [step.1.value] else [];
      (rest.0, reported + rest.1)
  }

  /** "N characters remaining": at least nine tenths of the limit used but not
      all of it. The source compares with `maxLength * 0.9` in floating point;
      `10 * len >= 9 * max` is the same comparison on whole numbers. */
  predicate ShowsRemaining(length: nat, maxLength: nat) {
    10 * length >= 9 * maxLength && length < maxLength
  }

  /** "Character limit reached". */
  predicate ShowsLimitReached(length: nat, maxLength: nat) {
    length == maxLength
  }

  /** The two warnings never show together; at the default limit the first
      appears from 180 characters. */
  lemma WarningsExclusive(length: nat, maxLength: nat)
    ensures !(ShowsRemaining(length, maxLength) && ShowsLimitReached(length, maxLength))
    ensures ShowsRemaining(length, DefaultMaxLength) <==> 180 <= length < 200
  {
  }
}

=== FILE: school_profile.dfy ===
/** The shared conversion between the school record of the API and the
    eleven-field profile form. */
module SchoolProfileUtils {
  import opened Wrappers
  import JsText

  /** A school record as the API returns it: six required text fields and
      five optional address fields. */
  datatype ApiSchool = ApiSchool(
    schoolName: string, schoolType: string, city: string, country: string,
    email: string, phone: string,
    addressLine1: Option<string>, addressLine2: Option<string>, digitalAddress: Option<string>,
    district: Option<string>, postalAddress: Option<string>)

  /** The profile form's data: every field is text. */
  datatype SchoolData = SchoolData(
    schoolName: string, schoolType: string,
    addressLine1: string, addressLine2: string, digitalAddress: string,
    city: string, district: string, country: string,
    email: string, phone: string, postalAddress: string)

  /** `convertSchoolToSchoolData`: required fields are copied and an absent
      optional field becomes the empty text. */
  function ToSchoolData(s: ApiSchool): (d: SchoolData)
    ensures d.schoolName == s.schoolName && d.schoolType == s.schoolType
    ensures d.city == s.city && d.country == s.country && d.email == s.email && d.phone == s.phone
    ensures d.addressLine1 == s.addressLine1.GetOr("") && d.addressLine2 == s.addressLine2.GetOr("")
    ensures d.digitalAddress == s.digitalAddress.GetOr("") && d.district == s.district.GetOr("")
    ensures d.postalAddress == s.postalAddress.GetOr("")
  {
    SchoolData(
      s.schoolName, s.schoolType,
      JsText.OrElse(s.addressLine1, ""), JsText.OrElse(s.addressLine2, ""), JsText.OrElse(s.digitalAddress, ""),
      s.city, JsText.OrElse(s.district, ""), s.country,
      s.email, s.phone, JsText.OrElse(s.postalAddress, ""))
  }

  /** `convertSchoolDataToSchool`: every field is sent, so converting back
      gives the form data unchanged. */
  function ToSchool(d: SchoolData): (s: ApiSchool)
    ensures s.addressLine1.Some? && s.addressLine2.Some? && s.digitalAddress.Some?
    ensures s.district.Some? && s.postalAddress.Some?
    ensures ToSchoolData(s) == d
  {
    ApiSchool(
      d.schoolName, d.schoolType, d.city, d.country, d.email, d.phone,
      Some(d.addressLine1), Some(d.addressLine2), Some(d.digitalAddress),
      Some(d.district), Some(d.postalAddress))
  }

  /** A record survives the trip through the form exactly when none of its
      optional fields is absent. */
  lemma SchoolRoundTrip(s: ApiSchool)
    ensures ToSchool(ToSchoolData(s)) == s <==>
              && s.addressLine1.Some? && s.addressLine2.Some? && s.digitalAddress.Some?
              && s.district.Some? && s.postalAddress.Some?
  {
  }
}

/** The school profile settings page: its own seven-field view of the
    school, three sections edited and saved separately, and the reset on
    cancel. */
module SchoolProfile {
  import opened Wrappers
  import JsText
  import SchoolProfileUtils

  /** The page's data. `postalAddress` is optional in the source's type, but
      the page always fills it, so it is text here. */
  datatype ProfileData = ProfileData(
    schoolName: string, schoolType: string, country: string, city: string,
    postalAddress: string, email: string, phone: string)

  /** The inputs of the page, by their `name` attribute. */
  datatype Field = SchoolName | SchoolType | Country | City | PostalAddress | Email | Phone

  function FieldName(f: Field): string {
    match f
    case SchoolName => "schoolName"
    case SchoolType => "schoolType"
    case Country => "country"
    case City => "city"
    case PostalAddress => "postalAddress"
    case Email => "email"
    case Phone => "phone"
  }

  function Get(d: ProfileData, f: Field): string {
    match f
    case SchoolName => d.schoolName
    case SchoolType => d.schoolType
    case Country => d.country
    case City => d.city
    case PostalAddress => d.postalAddress
    case Email => d.email
    case Phone => d.phone
  }

  /** Two data values with the same fields are the same. */
  lemma SameFieldsSameData(a: ProfileData, b: ProfileData)
    requires forall f: Field :: Get(a, f) == Get(b, f)
    ensures a == b
  {
    assert Get(a, SchoolName) == Get(b, SchoolName) && Get(a, SchoolType) == Get(b, SchoolType);
    assert Get(a, Country) == Get(b, Country) && Get(a, City) == Get(b, City);
    assert Get(a, PostalAddress) == Get(b, PostalAddress);
    assert Get(a, Email) == Get(b, Email) && Get(a, Phone) == Get(b, Phone);
  }

  /** One field set to `value`, every other field kept. */
  function Set(d: ProfileData, f: Field, value: string): (r: ProfileData)
    ensures forall g: Field :: Get(r, g) == if g == f then value else Get(d, g)
  {
    match f
    case SchoolName => d.(schoolName := value)
    case SchoolType => d.(schoolType := value)
    case Country => d.(country := value)
    case City => d.(city := value)
    case PostalAddress => d.(postalAddress := value)
    case Email => d.(email := value)
    case Phone => d.(phone := value)
  }

  /** The page's `convertSchoolToSchoolData`: the postal address is always
      reset to the empty text, whatever the record holds. */
  function FromApi(s: SchoolProfileUtils.ApiSchool): (d: ProfileData)
    ensures d.postalAddress == ""
    ensures d.schoolName == s.schoolName && d.schoolType == s.schoolType
    ensures d.country == s.country && d.city == s.city && d.email == s.email && d.phone == s.phone
  {
    ProfileData(s.schoolName, s.schoolType, s.country, s.city, "", s.email, s.phone)
  }

  /** The fields the page's `convertSchoolDataToSchool` sends: all but the
      postal address. */
  const ApiKeys: set<string> := {"schoolName", "schoolType", "country", "city", "email", "phone"}

  /** The page's `convertSchoolDataToSchool`. */
  function ToApi(d: ProfileData): (u: map<string, string>)
    ensures u.Keys == ApiKeys
    ensures forall f: Field | f != PostalAddress :: FieldName(f) in u && u[FieldName(f)] == Get(d, f)
  {
    map["schoolName" := d.schoolName, "schoolType" := d.schoolType, "country" := d.country,
        "city" := d.city, "email" := d.email, "phone" := d.phone]
  }

  /** Loading a record and converting it back gives the record's six
      required fields, under their own names. */
  lemma ApiRoundTrip(s: SchoolProfileUtils.ApiSchool)
    ensures ToApi(FromApi(s)) == map["schoolName" := s.schoolName, "schoolType" := s.schoolType,
                                     "country" := s.country, "city" := s.city,
                                     "email" := s.email, "phone" := s.phone]
  {
  }

  /** The three sections the page edits and saves separately. */
  datatype Section = Basic | Address | Contact

  /** The fields a section's save sends to the API. */
  function SentFields(section: Section): set<Field> {
    match section
    case Basic => {SchoolName, SchoolType}
    case Address => {Country, City}
    case Contact => {Email, Phone}
  }

  /** The fields a successful save copies into the page's data: the address
      section also copies the postal address, which it does not send. */
  function SavedFields(section: Section): (fs: set<Field>)
    ensures SentFields(section) <= fs
    ensures fs - SentFields(section) == if section == Address then {PostalAddress} else {}
  {
    if section == Address then SentFields(section) + {PostalAddress} else SentFields(section)
  }

  /** The update a section's save sends: its fields, under their names. */
  function Payload(d: ProfileData, section: Section): (u: map<string, string>)
    ensures u.Keys <= ApiKeys
    ensures forall f: Field :: FieldName(f) in u <==> f in SentFields(section)
    ensures forall f | f in SentFields(section) :: u[FieldName(f)] == Get(d, f)
  {
    match section
    case Basic => map["schoolName" := d.schoolName, "schoolType" := d.schoolType]
    case Address => map["country" := d.country, "city" := d.city]
    case Contact => map["email" := d.email, "phone" := d.phone]
  }

  /** The page's data after a successful save of a section from the form. */
  function Commit(saved: ProfileData, form: ProfileData, section: Section): (r: ProfileData)
    ensures forall f: Field :: Get(r, f) == if f in SavedFields(section) then Get(form, f) else Get(saved, f)
  {
    match section
    case Basic => saved.(schoolName := form.schoolName, schoolType := form.schoolType)
    case Address => saved.(country := form.country, city := form.city, postalAddress := form.postalAddress)
    case Contact => saved.(email := form.email, phone := form.phone)
  }

  function FailureMessage(section: Section): string {
    match section
    case Basic => "Failed to update basic information"
    case Address => "Failed to update address information"
    case Contact => "Failed to update contact information"
  }

  /** The page's state: the loaded data (`schoolData`), the form, the
      sections in edit mode, the loading flag and the error. */
  datatype Page = Page(
    saved: Option<ProfileData>, form: Option<ProfileData>, editing: set<Section>,
    loading: bool, error: Option<string>)

  const Initial: Page := Page(None, None, {}, true, None)

  /** The form exists only once the data has been loaded. */
  predicate Valid(p: Page) {
    p.form.Some? ==> p.saved.Some?
  }

  const LoadFailedMessage: string := "Failed to load school data"
  const NoProfileMessage: string := "No school profile found"

  /** The loading effect, with the effect that copies fresh data into the
      form: a record that has arrived is converted and becomes both the data
      and the form; a failed request sets an error; a finished request with
      no record for a signed-in user sets the other error; otherwise the page
      waits. */
  function Load(p: Page, record: Option<SchoolProfileUtils.ApiSchool>, schoolLoading: bool, schoolError: bool,
                userId: Option<string>): (r: Page)
    ensures record.Some? && !schoolLoading ==>
              r == p.(saved := Some(FromApi(record.value)), form := Some(FromApi(record.value)),
                      loading := false, error := None)
    ensures !(record.Some? && !schoolLoading) && schoolError ==>
              r == p.(error := Some(LoadFailedMessage), loading := false)
    ensures !(record.Some? && !schoolLoading) && !schoolError && !schoolLoading && JsText.Truthy(userId) ==>
              r == p.(error := Some(NoProfileMessage), loading := false)
    ensures Valid(p) ==> Valid(r)
  {
    if record.Some? && !schoolLoading then
      var d := FromApi(record.value);
      p.(saved := Some(d), form := Some(d), loading := false, error := None)
    else if schoolError then p.(error := Some(LoadFailedMessage), loading := false)
    else if !schoolLoading && record.None? && JsText.Truthy(userId) then
      p.(error := Some(NoProfileMessage), loading := false)
    else p
  }

  /** `handleInputChange`: without a form nothing changes; otherwise the one
      field named by the input takes the typed value. */
  function InputChange(p: Page, f: Field, value: string): (r: Page)
    ensures p.form.None? ==> r == p
    ensures p.form.Some? ==> r.form.Some? && r.saved == p.saved && r.editing == p.editing
    ensures p.form.Some? ==> forall g: Field :: Get(r.form.value, g) == if g == f then value else Get(p.form.value, g)
    ensures Valid(p) ==> Valid(r)
  {
    if p.form.None? then p else p.(form := Some(Set(p.form.value, f, value)))
  }

  /** The edit button of a section. */
  function StartEditing(p: Page, section: Section): (r: Page)
    ensures r.editing == p.editing + {section} && r.form == p.form && r.saved == p.saved
  {
    p.(editing := p.editing + {section})
  }

  /** The cancel button of a section: the whole form goes back to the
      loaded data, discarding unsaved edits of every section. */
  function Cancel(p: Page, section: Section): (r: Page)
    ensures r.form == p.saved && r.saved == p.saved
    ensures r.editing == p.editing - {section}
    ensures Valid(r)
  {
    p.(form := p.saved, editing := p.editing - {section})
  }

  /** What a save did: the update sent (if any), the error toast (if any),
      and the page afterwards. */
  datatype SaveResult = SaveResult(sent: Option<map<string, string>>, toast: Option<string>, page: Page)

  /** `handleSaveBasicInfo`, `handleSaveAddress` and `handleSaveContact`.
      Without a form or a signed-in user nothing happens. Otherwise the
      section's update is sent; on success the section's fields are copied
      into the data and its edit mode ends, and on failure an error toast is
      shown and the page is unchanged. The new data is a new object, so the
      effect watching it copies it into the form as well: a successful save
      resets the whole form to the data. The mutation's outcome is an input. */
  function Save(p: Page, userId: Option<string>, section: Section, succeeds: bool): (r: SaveResult)
    requires Valid(p)
    ensures p.form.None? || !JsText.Truthy(userId) ==> r == SaveResult(None, None, p)
    ensures p.form.Some? && JsText.Truthy(userId) ==>
              && r.sent == Some(Payload(p.form.value, section))
    ensures p.form.Some? && JsText.Truthy(userId) && !succeeds ==>
              r.toast == Some(FailureMessage(section)) && r.page == p
    ensures p.form.Some? && JsText.Truthy(userId) && succeeds ==>
              && r.toast.None?
              && r.page.saved == Some(Commit(p.saved.value, p.form.value, section))
              && r.page.form == r.page.saved
              && r.page.editing == p.editing - {section}
    ensures Valid(r.page)
  {
    if p.form.None? || !JsText.Truthy(userId) then SaveResult(None, None, p)
    else
      var sent := Some(Payload(p.form.value, section));
      if succeeds then
        var committed := Some(Commit(p.saved.value, p.form.value, section));
        SaveResult(sent, None, p.(saved := committed, form := committed, editing := p.editing - {section}))
      else SaveResult(sent, Some(FailureMessage(section)), p)
  }

  /** A value typed into a field and saved with its section ends up in the
      page's data, and is sent to the API unless it is the postal address. */
  lemma TypedValueIsSaved(p: Page, userId: Option<string>, f: Field, value: string, section: Section)
    requires Valid(p) && p.form.Some? && JsText.Truthy(userId)
    requires f in SavedFields(section)
    ensures var r := Save(InputChange(p, f, value), userId, section, true);
            && Get(r.page.saved.value, f) == value
            && (f != PostalAddress <==> FieldName(f) in r.sent.value)
            && (f != PostalAddress ==> r.sent.value[FieldName(f)] == value)
  {
    var q := InputChange(p, f, value);
    var r := Save(q, userId, section, true);
    assert Get(q.form.value, f) == value;
    if f == PostalAddress {
      assert section == Address;
      assert r.sent.value.Keys == {"country", "city"};
    }
  }

  /** A save keeps only its own section's edits: a value typed into a field
      of another section is dropped from the form, which shows the loaded
      value again, and never reaches the data. */
  lemma SaveDiscardsOtherSectionsEdits(p: Page, userId: Option<string>, f: Field, value: string, section: Section)
    requires Valid(p) && p.form.Some? && JsText.Truthy(userId)
    requires f !in SavedFields(section)
    ensures var r := Save(InputChange(p, f, value), userId, section, true);
            && Get(r.page.form.value, f) == Get(p.saved.value, f)
            && Get(r.page.saved.value, f) == Get(p.saved.value, f)
  {
  }

  /** Saving the three sections one after another, all successfully, leaves
      the data with each field as the form held it when its own section was
      saved; the form is then level with the data. */
  lemma SavingEverySectionKeepsFirstEdits(p: Page, userId: Option<string>)
    requires Valid(p) && p.form.Some? && JsText.Truthy(userId)
    ensures var r1 := Save(p, userId, Basic, true).page;
            var r2 := Save(r1, userId, Address, true).page;
            var r3 := Save(r2, userId, Contact, true).page;
            && r3.saved == r3.form
            && (forall f | f in SavedFields(Basic) :: Get(r3.saved.value, f) == Get(p.form.value, f))
            && (forall f | f !in SavedFields(Basic) :: Get(r3.saved.value, f) == Get(p.saved.value, f))
  {
    var r1 := Save(p, userId, Basic, true).page;
    var r2 := Save(r1, userId, Address, true).page;
    var r3 := Save(r2, userId, Contact, true).page;
    assert r1.form == r1.saved;
    assert r2.form == r2.saved;
    forall f: Field
      ensures Get(r2.saved.value, f) == Get(r1.saved.value, f)
      ensures Get(r3.saved.value, f) == Get(r2.saved.value, f)
    {
    }
    SameFieldsSameData(r2.saved.value, r1.saved.value);
    SameFieldsSameData(r3.saved.value, r2.saved.value);
  }

  /** The postal address is never sent, and a record always loads with an
      empty one: an address saved on this page is gone after a reload. */
  lemma PostalAddressIsNotKept(p: Page, userId: Option<string>, section: Section, succeeds: bool,
                               record: SchoolProfileUtils.ApiSchool)
    requires Valid(p)
    ensures var r := Save(p, userId, section, succeeds);
            r.sent.Some? ==> "postalAddress" !in r.sent.value
    ensures Load(p, Some(record), false, false, userId).form.value.postalAddress == ""
  {
  }

  /** The avatar shows the name's first character, or `S` for an empty name. */
  function AvatarInitial(schoolName: string): (r: string)
    ensures |r| == 1
    ensures schoolName != "" ==> r[0] == schoolName[0]
    ensures schoolName == "" ==> r == "S"
  {
    if schoolName != "" then schoolName[..1] else "S"
  }

  /** What the page renders. */
  datatype Screen = LoadingScreen | ErrorScreen(message: string) | NoDataScreen | ProfileScreen(initial: string, data: ProfileData)

  const DefaultErrorMessage: string := "Failed to load school profile"

  /** The loading screen first, then an error, then the missing-data notice,
      and otherwise the profile. */
  function Render(p: Page, schoolLoading: bool, schoolError: bool): (r: Screen)
    ensures r.LoadingScreen? <==> p.loading || schoolLoading
    ensures r.ErrorScreen? <==> !p.loading && !schoolLoading && (JsText.Truthy(p.error) || schoolError)
    ensures r.ErrorScreen? ==> r.message == JsText.OrElse(p.error, DefaultErrorMessage)
    ensures r.ProfileScreen? <==> !p.loading && !schoolLoading && !JsText.Truthy(p.error) && !schoolError && p.saved.Some?
    ensures r.ProfileScreen? ==> r.data == p.saved.value && r.initial == AvatarInitial(p.saved.value.schoolName)
  {
    if p.loading || schoolLoading then LoadingScreen
    else if JsText.Truthy(p.error) || schoolError then ErrorScreen(JsText.OrElse(p.error, DefaultErrorMessage))
    else if p.saved.None? then NoDataScreen
    else ProfileScreen(AvatarInitial(p.saved.value.schoolName), p.saved.value)
  }

  /** A record that has arrived, with no error, shows the profile. */
  lemma LoadedRecordIsShown(record: SchoolProfileUtils.ApiSchool, userId: Option<string>)
    ensures Render(Load(Initial, Some(record), false, false, userId), false, false)
              == ProfileScreen(AvatarInitial(record.schoolName), FromApi(record))
  {
  }
}

=== FILE: schools.dfy ===
/** The schools service and the school controller of the backend. A school's
    document id is the uid of the account that registered it. */
module Schools {
  import opened Wrappers
  import opened Json
  import opened Http
  import opened Firestore
  import Seqs
  import Paging
  import JsText
  import Auth

  const NotFound: string := "School not found"

  /** The school document: the given fields with both timestamps set. */
  function Stamped(data: Doc, createdAt: string, updatedAt: string): (d: Doc)
    ensures d.Keys == data.Keys + {"createdAt", "updatedAt"}
    ensures d["createdAt"] == Str(createdAt) && d["updatedAt"] == Str(updatedAt)
    ensures forall k | k in data && k != "createdAt" && k != "updatedAt" :: d[k] == data[k]
  {
    data["createdAt" := Str(createdAt)]["updatedAt" := Str(updatedAt)]
  }

  /** `SchoolsService.createSchool`: the document is set (replacing any earlier
      one) under the user's id with one timestamp for both fields, and returned
      with `id` first, so that a stored `id` field wins. */
  function CreateSchool(store: Collection, data: Doc, userId: string, timestamp: string): (r: Written)
    ensures r.store.Keys == store.Keys + {userId}
    ensures forall k | k in store && k != userId :: r.store[k] == store[k]
    ensures r.store[userId] == Stamped(data, timestamp, timestamp)
    ensures r.result == WithId(userId, r.store[userId])
    ensures r.result["createdAt"] == r.result["updatedAt"]
  {
    var s := Stamped(data, timestamp, timestamp);
    Written(store[userId := s], WithId(userId, s))
  }

  /** `SchoolsService.updateSchool`: a missing school is an error and nothing
      is written; otherwise the patch stamped with `updatedAt` is written and
      the stored school merged with it is returned. */
  function UpdateSchool(store: Collection, id: string, patch: Doc, timestamp: string): (r: Result<Written, string>)
    ensures r.Err? <==> id !in store
    ensures r.Err? ==> r.error == NotFound
    ensures r.Ok? ==>
              && r.value.store == Patch(store, id, patch["updatedAt" := Str(timestamp)])
              && r.value.result == map["id" := Str(id)] + store[id] + patch["updatedAt" := Str(timestamp)]
  {
    if id !in store then Err(NotFound)
    else
      var updated := patch["updatedAt" := Str(timestamp)];
      Ok(Written(Patch(store, id, updated), map["id" := Str(id)] + store[id] + updated))
  }

  /** In the returned school the new `updatedAt` wins, then the patch, then
      what was stored. */
  lemma UpdateSchoolPrecedence(store: Collection, id: string, patch: Doc, timestamp: string, k: string)
    requires id in store
    ensures var res := UpdateSchool(store, id, patch, timestamp).value.result;
            && res["updatedAt"] == Str(timestamp)
            && (k != "updatedAt" && k in patch ==> res[k] == patch[k])
            && (k != "updatedAt" && k !in patch && k in store[id] ==> res[k] == store[id][k])
  {
  }

  datatype SchoolPage = SchoolPage(schools: seq<Doc>, pagination: Paging.Pagination)

  /** `getAllSchools(limit = 10, page = 1)`: one page of all schools. */
  function GetAllSchools(entries: seq<Entry>, limit: Option<int>, page: Option<int>): (r: SchoolPage)
    requires limit.GetOr(10) > 0 && page.GetOr(1) >= 1
    ensures |r.schools| <= limit.GetOr(10)
    ensures r.pagination.total == |entries|
    ensures r.pagination.pages * limit.GetOr(10) >= |entries|
    ensures r.pagination.pages == 0 || (r.pagination.pages - 1) * limit.GetOr(10) < |entries|
  {
    var l := limit.GetOr(10);
    var p := page.GetOr(1);
    Paging.MulMonotone(0, p - 1, l);
    var w := Paging.Window(entries, Paging.Offset(p, l), l);
    SchoolPage(Seqs.Map(EntryWithId, w), Paging.Pagination(|entries|, p, l, Paging.PageCount(|entries|, l)))
  }

  /** The listed schools are those at offsets `(page - 1) * limit` onwards. */
  lemma SchoolPageIsWindow(entries: seq<Entry>, limit: Option<int>, page: Option<int>)
    requires limit.GetOr(10) > 0 && page.GetOr(1) >= 1
    ensures var l := limit.GetOr(10);
            var p := page.GetOr(1);
            var r := GetAllSchools(entries, limit, page);
            && Paging.Offset(p, l) >= 0
            && |r.schools| == |Paging.Window(entries, Paging.Offset(p, l), l)|
            && forall k | 0 <= k < |r.schools| ::
                 r.schools[k] == EntryWithId(entries[Paging.Offset(p, l) + k])
  {
    Paging.MulMonotone(0, page.GetOr(1) - 1, limit.GetOr(10));
  }

  // ----- Controller -----

  /** The school a request is about: `params.id`, else the caller's own. */
  function TargetSchool(idParam: Option<string>, u: Auth.AuthUser): (id: string)
    ensures JsText.Truthy(idParam) ==> id == idParam.value
    ensures !JsText.Truthy(idParam) ==> id == u.uid
  {
    JsText.OrElse(idParam, u.uid)
  }

  /** The controller's `createSchool`: 401 without a user; otherwise the body
      with two timestamps is set under the caller's uid and echoed under 201. */
  function CreateSchoolHandler(store: Collection, user: Option<Auth.AuthUser>, body: Doc,
                               createdAt: string, updatedAt: string): (r: Handled)
    ensures user.None? ==> r == Handled(store, Unauthorized)
    ensures user.Some? ==>
              && r.store == store[user.value.uid := Stamped(body, createdAt, updatedAt)]
              && r.reply == Response(201, Obj(WithId(user.value.uid, Stamped(body, createdAt, updatedAt))))
  {
    if user.None? then Handled(store, Unauthorized)
    else
      var s := Stamped(body, createdAt, updatedAt);
      Handled(store[user.value.uid := s], Response(201, Obj(WithId(user.value.uid, s))))
  }

  /** The controller's `getSchool`. */
  function GetSchoolHandler(store: Collection, user: Option<Auth.AuthUser>, idParam: Option<string>): (r: Response)
    ensures user.None? ==> r == Unauthorized
    ensures user.Some? && TargetSchool(idParam, user.value) !in store ==> r == MessageReply(404, NotFound)
    ensures user.Some? && TargetSchool(idParam, user.value) in store ==>
              var id := TargetSchool(idParam, user.value);
              r == Response(200, Obj(WithId(id, store[id])))
  {
    if user.None? then Unauthorized
    else
      var id := TargetSchool(idParam, user.value);
      if id !in store then MessageReply(404, NotFound) else Response(200, Obj(WithId(id, store[id])))
  }

  /** The controller's `updateSchool`: 401, then 404 with nothing written, then
      the stamped body is written and echoed under 200. Any authenticated user
      may update any school named by `params.id`. */
  function UpdateSchoolHandler(store: Collection, user: Option<Auth.AuthUser>, idParam: Option<string>,
                               body: Doc, timestamp: string): (r: Handled)
    ensures user.None? ==> r == Handled(store, Unauthorized)
    ensures user.Some? && TargetSchool(idParam, user.value) !in store ==>
              r == Handled(store, MessageReply(404, NotFound))
    ensures r.reply.status == 200 <==> user.Some? && TargetSchool(idParam, user.value) in store
    ensures r.reply.status == 200 ==>
              var id := TargetSchool(idParam, user.value);
              var updated := body["updatedAt" := Str(timestamp)];
              r.store == Patch(store, id, updated) && r.reply == Response(200, Obj(map["id" := Str(id)] + updated))
  {
    if user.None? then Handled(store, Unauthorized)
    else
      var id := TargetSchool(idParam, user.value);
      if id !in store then Handled(store, MessageReply(404, NotFound))
      else
        var updated := body["updatedAt" := Str(timestamp)];
        Handled(Patch(store, id, updated), Response(200, Obj(map["id" := Str(id)] + updated)))
  }

  /** The controller and the service agree on which updates fail and on what
      is written. */
  lemma UpdateHandlerAgreesWithService(store: Collection, u: Auth.AuthUser, idParam: Option<string>,
                                       body: Doc, timestamp: string)
    ensures var id := TargetSchool(idParam, u);
            var h := UpdateSchoolHandler(store, Some(u), idParam, body, timestamp);
            var s := UpdateSchool(store, id, body, timestamp);
            && (h.reply.status == 404 <==> s.Err?)
            && (s.Ok? ==> h.store == s.value.store)
  {
  }

  /** Creating a school and then reading it back without an id returns what was
      stored, under the caller's uid. */
  lemma CreateThenGet(store: Collection, u: Auth.AuthUser, body: Doc, createdAt: string, updatedAt: string)
    ensures var c := CreateSchoolHandler(store, Some(u), body, createdAt, updatedAt);
            GetSchoolHandler(c.store, Some(u), None) == c.reply.(status := 200)
  {
  }
}

=== FILE: seqs.dfy ===
/** Sequence helpers shared by the list views: order-preserving filtering,
    `slice(0, n)`, sums and the subsequence relation. */
module Seqs {

  /** `a` is obtained from `b` by deleting elements, keeping the order of the rest. */
  predicate IsSubsequence<T(==)>(a: seq<T>, b: seq<T>)
    decreases |b|
  {
    if a == [] then true
    else if b == [] then false
    else if a[0] == b[0] then IsSubsequence(a[1..], b[1..])
    else IsSubsequence(a, b[1..])
  }

  /** `s.filter(p)`. */
  function Filter<T>(p: T -> bool, s: seq<T>): (r: seq<T>)
    ensures |r| <= |s|
    ensures forall k | 0 <= k < |r| :: p(r[k])
    ensures forall k | 0 <= k < |r| :: r[k] in s
    ensures forall k | 0 <= k < |s| && p(s[k]) :: s[k] in r
  {
    if s == [] then []
    else
      var rest := Filter(p, s[1..]);
      assert s == [s[0]] + s[1..];
      if p(s[0]) then [s[0]] + rest else rest
  }

  lemma {:induction false} FilterIsSubsequence<T>(p: T -> bool, s: seq<T>)
    ensures IsSubsequence(Filter(p, s), s)
  {
    if s != [] {
      FilterIsSubsequence(p, s[1..]);
      var rest := Filter(p, s[1..]);
      if !p(s[0]) {
        SubsequenceOfTail(rest, s);
      }
    }
  }

  /** Adding an element in front of the longer sequence keeps a subsequence one. */
  lemma SubsequenceOfTail<T>(a: seq<T>, b: seq<T>)
    requires b != [] && IsSubsequence(a, b[1..])
    ensures IsSubsequence(a, b)
  {
    if a != [] && a[0] == b[0] {
      SubsequenceDropHead(a, b[1..]);
    }
  }

  lemma {:induction false} SubsequenceDropHead<T>(a: seq<T>, c: seq<T>)
    requires a != [] && IsSubsequence(a, c)
    ensures IsSubsequence(a[1..], c)
    decreases |c|
  {
    var x := a[1..];
    if a[0] != c[0] {
      SubsequenceDropHead(a, c[1..]);
    }
    assert IsSubsequence(x, c[1..]);
    if x != [] && x[0] == c[0] {
      SubsequenceDropHead(x, c[1..]);
    }
  }

  lemma {:induction false} SubsequenceTransitive<T>(a: seq<T>, b: seq<T>, c: seq<T>)
    requires IsSubsequence(a, b) && IsSubsequence(b, c)
    ensures IsSubsequence(a, c)
    decreases |c|
  {
    if a != [] && c != [] {
      if b[0] == c[0] {
        if a[0] == b[0] {
          SubsequenceTransitive(a[1..], b[1..], c[1..]);
        } else {
          SubsequenceTransitive(a, b[1..], c[1..]);
        }
      } else {
        SubsequenceTransitive(a, b, c[1..]);
        if a[0] == c[0] {
          SubsequenceDropHead(a, c[1..]);
        }
      }
    }
  }

  /** One more element at the end of the longer sequence, or of both. */
  lemma {:induction false} SubsequenceAppend<T>(a: seq<T>, b: seq<T>, x: T)
    requires IsSubsequence(a, b)
    ensures IsSubsequence(a, b + [x])
    ensures IsSubsequence(a + [x], b + [x])
    decreases |b|
  {
    if b == [] {
      assert a == [];
      assert ([x] + [])[1..] == [];
    } else {
      assert (b + [x])[1..] == b[1..] + [x];
      if a != [] && a[0] == b[0] {
        SubsequenceAppend(a[1..], b[1..], x);
        assert (a + [x])[1..] == a[1..] + [x];
      } else {
        SubsequenceAppend(a, b[1..], x);
        if a != [] {
          assert (a + [x])[0] == a[0];
        }
      }
    }
  }

  /** A filter that keeps everything returns its input. */
  lemma {:induction false} FilterAll<T>(p: T -> bool, s: seq<T>)
    requires forall k | 0 <= k < |s| :: p(s[k])
    ensures Filter(p, s) == s
  {
    if s != [] {
      FilterAll(p, s[1..]);
    }
  }

  /** Filtering keeps a list free of duplicates. */
  lemma {:induction false} FilterNoDuplicates<T>(p: T -> bool, s: seq<T>)
    requires NoDuplicates(s)
    ensures NoDuplicates(Filter(p, s))
  {
    if s != [] {
      assert NoDuplicates(s[1..]) by {
        forall i, j | 0 <= i < j < |s[1..]|
          ensures s[1..][i] != s[1..][j]
        {
          assert s[1..][i] == s[i + 1] && s[1..][j] == s[j + 1];
        }
      }
      FilterNoDuplicates(p, s[1..]);
      var rest := Filter(p, s[1..]);
      if p(s[0]) {
        assert s[0] !in s[1..];
        assert s[0] !in rest;
        var r := [s[0]] + rest;
        forall i, j | 0 <= i < j < |r|
          ensures r[i] != r[j]
        {
          if i == 0 {
            assert r[j] == rest[j - 1];
          } else {
            assert r[i] == rest[i - 1] && r[j] == rest[j - 1];
          }
        }
      }
    }
  }

  /** Filtering a list with one more, rejected, element at the end. */
  lemma {:induction false} FilterAppendDropped<T>(p: T -> bool, s: seq<T>, x: T)
    requires !p(x)
    ensures Filter(p, s + [x]) == Filter(p, s)
  {
    if s == [] {
      assert [x][1..] == [];
    } else {
      assert (s + [x])[1..] == s[1..] + [x];
      FilterAppendDropped(p, s[1..], x);
    }
  }

  /** `s.slice(0, n)`. */
  function Take<T>(s: seq<T>, n: nat): (r: seq<T>)
    ensures |r| <= n && |r| <= |s|
    ensures |r| == n || r == s
    ensures r == s[..|r|]
  {
    if n <= |s| then s[..n] else s
  }

  /** Every element occurs at most once. */
  predicate NoDuplicates<T(==)>(s: seq<T>) {
    forall i, j | 0 <= i < j < |s| :: s[i] != s[j]
  }

  /** `s.map(f)`. */
  function Map<T, U>(f: T -> U, s: seq<T>): (r: seq<U>)
    ensures |r| == |s|
    ensures forall k | 0 <= k < |s| :: r[k] == f(s[k])
  {
    seq(|s|, k requires 0 <= k < |s| => f(s[k]))
  }

  /** The position where `x` first occurs in `s`. */
  function FirstIndex<T(==)>(s: seq<T>, x: T): (i: nat)
    requires x in s
    ensures i < |s| && s[i] == x
    ensures forall k | 0 <= k < i :: s[k] != x
  {
    if s[0] == x then 0 else 1 + FirstIndex(s[1..], x)
  }

  /** `r` holds values of `s`, in the order of their first occurrences in `s`. */
  predicate InFirstOccurrenceOrder<T(==)>(r: seq<T>, s: seq<T>) {
    && (forall k | 0 <= k < |r| :: r[k] in s)
    && (forall i, j | 0 <= i < j < |r| :: FirstIndex(s, r[i]) < FirstIndex(s, r[j]))
  }

  /** One more element at the end does not move an earlier first occurrence,
      and a new value first occurs at the end. */
  lemma FirstIndexAppend<T>(s: seq<T>, y: T, x: T)
    requires x in s + [y]
    ensures x in s ==> FirstIndex(s + [y], x) == FirstIndex(s, x)
    ensures x !in s ==> FirstIndex(s + [y], x) == |s|
  {
    assert forall k | 0 <= k < |s| :: (s + [y])[k] == s[k];
    if x in s {
      assert (s + [y])[FirstIndex(s, x)] == x;
    }
  }

  /** Dropping the first value keeps the first-occurrence order. */
  lemma InFirstOccurrenceOrderTail<T>(a: seq<T>, s: seq<T>)
    requires a != [] && InFirstOccurrenceOrder(a, s)
    ensures InFirstOccurrenceOrder(a[1..], s)
    ensures forall v | v in a[1..] :: FirstIndex(s, a[0]) < FirstIndex(s, v)
  {
    var tail := a[1..];
    forall i, j | 0 <= i < j < |tail|
      ensures FirstIndex(s, tail[i]) < FirstIndex(s, tail[j])
    {
      assert tail[i] == a[i + 1] && tail[j] == a[j + 1];
    }
    forall v | v in tail
      ensures FirstIndex(s, a[0]) < FirstIndex(s, v)
    {
      var m :| 0 <= m < |tail| && tail[m] == v;
      assert a[m + 1] == v;
    }
  }

  /** A value first occurring before all of a list's values can go in front. */
  lemma InFirstOccurrenceOrderCons<T>(x: T, rest: seq<T>, s: seq<T>)
    requires x in s && InFirstOccurrenceOrder(rest, s)
    requires forall k | 0 <= k < |rest| :: FirstIndex(s, x) < FirstIndex(s, rest[k])
    ensures InFirstOccurrenceOrder([x] + rest, s)
  {
    var r := [x] + rest;
    forall i, j | 0 <= i < j < |r|
      ensures FirstIndex(s, r[i]) < FirstIndex(s, r[j])
    {
      assert r[j] == rest[j - 1];
      if i > 0 {
        assert r[i] == rest[i - 1];
      }
    }
  }

  /** Filtering keeps the first-occurrence order. */
  lemma {:induction false} FilterKeepsFirstOccurrenceOrder<T>(p: T -> bool, a: seq<T>, s: seq<T>)
    requires InFirstOccurrenceOrder(a, s)
    ensures InFirstOccurrenceOrder(Filter(p, a), s)
  {
    if a != [] {
      InFirstOccurrenceOrderTail(a, s);
      FilterKeepsFirstOccurrenceOrder(p, a[1..], s);
      var rest := Filter(p, a[1..]);
      if p(a[0]) {
        assert forall k | 0 <= k < |rest| :: rest[k] in a[1..];
        InFirstOccurrenceOrderCons(a[0], rest, s);
      }
    }
  }
}

=== FILE: updates.dfy ===
/** The controller for campaign updates, the news items a school posts. */
module Updates {
  import opened Wrappers
  import opened Json
  import opened Http
  import opened Firestore
  import Seqs
  import Paging
  import JsText
  import JsNumber
  import Auth

  const NotFound: string := "Update not found"
  const NotOwner: string := "Forbidden: You do not own this update"

  function Uid(user: Option<Auth.AuthUser>): Option<string> {
    if user.Some? then Some(user.value.uid) else None
  }

  /** `createUpdate`: 401 without a user; otherwise the body, with `schoolId`
      forced to the caller and two clock readings as timestamps, is added and
      echoed with its id under 201. */
  function CreateUpdateHandler(store: Collection, user: Option<Auth.AuthUser>, body: Doc,
                               createdAt: string, updatedAt: string, newId: string): (r: Handled)
    ensures user.None? ==> r == Handled(store, Unauthorized)
    ensures user.Some? ==>
              && newId in r.store && r.store - {newId} == store - {newId}
              && Get(r.store[newId], "schoolId") == Some(Str(user.value.uid))
              && Get(r.store[newId], "createdAt") == Some(Str(createdAt))
              && Get(r.store[newId], "updatedAt") == Some(Str(updatedAt))
              && (forall k | k in body && k !in {"schoolId", "createdAt", "updatedAt"} :: Get(r.store[newId], k) == Some(body[k]))
              && r.reply == Response(201, Obj(WithId(newId, r.store[newId])))
  {
    if user.None? then Handled(store, Unauthorized)
    else
      var u := body["schoolId" := Str(user.value.uid)]["createdAt" := Str(createdAt)]["updatedAt" := Str(updatedAt)];
      Handled(store[newId := u], Response(201, Obj(WithId(newId, u))))
  }

  /** `parseInt(limit, 10) || 10` with `limit` defaulting to the text `10`. */
  function LimitNum(limit: Option<string>): int {
    JsNumber.ParseIntOr(limit.GetOr("10"), JsNumber.Radix10, 10)
  }

  /** `parseInt(page, 10) || 1` with `page` defaulting to the text `1`. */
  function PageNum(page: Option<string>): int {
    JsNumber.ParseIntOr(page.GetOr("1"), JsNumber.Radix10, 1)
  }

  /** The parsed limit and page are never zero: a missing, unparsable or zero
      text falls back to 10 and 1. A negative text, such as `-5`, is kept. */
  lemma ParsedPagingNeverZero(limit: Option<string>, page: Option<string>)
    ensures LimitNum(limit) != 0 && PageNum(page) != 0
    ensures limit.None? ==> LimitNum(limit) == 10
    ensures page.None? ==> PageNum(page) == 1
  {
    DefaultLimitText();
    DefaultPageText();
  }

  lemma DefaultLimitText()
    ensures JsNumber.ParseInt("10", JsNumber.Radix10) == Some(10)
  {
    var d := JsNumber.ToDecimal(10);
    assert d == JsNumber.ToDecimal(1) + [JsNumber.DecimalChar(0)];
    assert d == "10";
    JsNumber.ParseIntOfDecimal(10, JsNumber.Radix10);
  }

  lemma DefaultPageText()
    ensures JsNumber.ParseInt("1", JsNumber.Radix10) == Some(1)
  {
    assert JsNumber.ToDecimal(1) == "1";
    JsNumber.ParseIntOfDecimal(1, JsNumber.Radix10);
  }

  /** The rendering of a positive number is read back as that number. */
  lemma ParsedPagingOfNumber(n: nat)
    requires n >= 1
    ensures LimitNum(Some(JsNumber.ToDecimal(n))) == n
    ensures PageNum(Some(JsNumber.ToDecimal(n))) == n
  {
    JsNumber.ParseIntOfDecimal(n, JsNumber.Radix10);
  }

  /** A negative limit survives the fallback. */
  lemma NegativeLimitKept(n: nat)
    requires n >= 1
    ensures LimitNum(Some("-" + JsNumber.ToDecimal(n))) == -(n as int)
  {
    JsNumber.ParseIntOfNegativeDecimal(n, JsNumber.Radix10);
  }

  /** The selection before filtering by school: a non-empty `schoolId`
      narrows it to that school's updates, otherwise all are taken. */
  function SchoolSelection(entries: seq<Entry>, schoolId: Option<string>): (r: seq<Entry>)
    ensures !JsText.Truthy(schoolId) ==> r == entries
    ensures JsText.Truthy(schoolId) ==> r == WhereEquals(entries, "schoolId", Str(schoolId.value))
  {
    if JsText.Truthy(schoolId) then WhereEquals(entries, "schoolId", Str(schoolId.value)) else entries
  }

  /** `orderBy('createdAt', 'desc')`, then the optional `where` on the
      school: the selected updates that have a `createdAt` text, newest first. */
  function UpdatesQuery(entries: seq<Entry>, schoolId: Option<string>): (r: seq<Entry>)
    ensures SortedDesc(r, "createdAt")
  {
    OrderByDesc(SchoolSelection(entries, schoolId), "createdAt")
  }

  /** The query holds exactly the updates with a `createdAt` text, of the
      requested school when one is given. */
  lemma UpdatesQueryContents(entries: seq<Entry>, schoolId: Option<string>)
    ensures var r := UpdatesQuery(entries, schoolId);
            && multiset(r) == multiset(Seqs.Filter(HasString("createdAt"), SchoolSelection(entries, schoolId)))
            && (forall k | 0 <= k < |r| :: r[k] in entries && "createdAt" in r[k].data && r[k].data["createdAt"].Str?)
            && (JsText.Truthy(schoolId) ==>
                  forall k | 0 <= k < |r| :: Get(r[k].data, "schoolId") == Some(Str(schoolId.value)))
            && (forall k | 0 <= k < |entries| && HasString("createdAt")(entries[k])
                           && (!JsText.Truthy(schoolId) || Get(entries[k].data, "schoolId") == Some(Str(schoolId.value)))
                  :: entries[k] in r)
  {
    var sel := SchoolSelection(entries, schoolId);
    var r := UpdatesQuery(entries, schoolId);
    assert r == OrderByDesc(sel, "createdAt");
    if JsText.Truthy(schoolId) {
      forall k | 0 <= k < |r|
        ensures Get(r[k].data, "schoolId") == Some(Str(schoolId.value))
      {
        assert r[k] in sel;
      }
    }
  }

  function PaginationValue(total: nat, page: int, limit: int, pages: int): Value {
    Obj(map["total" := Num(total), "page" := Num(page), "limit" := Num(limit), "pages" := Num(pages)])
  }

  /** `getUpdates` once `limitNum` and `pageNum` are parsed from the query
      texts (`LimitNum`, `PageNum`): one page of the
      (optionally school-filtered) updates at offset `(pageNum - 1) * limitNum`,
      with `Math.ceil(total / limitNum)` pages. */
  function ListUpdates(entries: seq<Entry>, schoolId: Option<string>, limitNum: int, pageNum: int): (r: Response)
    requires limitNum > 0 && pageNum >= 1
    ensures r.status == 200
    ensures var q := UpdatesQuery(entries, schoolId);
            && Paging.Offset(pageNum, limitNum) >= 0
            && r.body == Obj(map["updates" := Arr(Seqs.Map((e: Entry) => Obj(EntryWithId(e)),
                                                            Paging.Window(q, Paging.Offset(pageNum, limitNum), limitNum))),
                                 "pagination" := PaginationValue(|q|, pageNum, limitNum, Paging.PageCount(|q|, limitNum))])
  {
    var q := UpdatesQuery(entries, schoolId);
    var w := Paging.Window(q, Paging.Offset(pageNum, limitNum), limitNum);
    Response(200, Obj(map["updates" := Arr(Seqs.Map((e: Entry) => Obj(EntryWithId(e)), w)),
                          "pagination" := PaginationValue(|q|, pageNum, limitNum, Paging.PageCount(|q|, limitNum))]))
  }

  /** Listing documents with their ids keeps every field other than `id`. */
  lemma ListedKeepField(w: seq<Entry>, field: string, v: Value)
    requires field != "id"
    requires forall k | 0 <= k < |w| :: Get(w[k].data, field) == Some(v)
    ensures var items := Seqs.Map((e: Entry) => Obj(EntryWithId(e)), w);
            forall k | 0 <= k < |items| :: items[k].Obj? && Get(items[k].fields, field) == Some(v)
  {
  }

  /** Every listed update belongs to the requested school, and a page holds at
      most `limitNum` updates. */
  lemma UpdatesPageBelongsToSchool(entries: seq<Entry>, schoolId: string, limitNum: int, pageNum: int)
    requires schoolId != ""
    requires limitNum > 0 && pageNum >= 1
    ensures var items := ListUpdates(entries, Some(schoolId), limitNum, pageNum).body.fields["updates"].items;
            && |items| <= limitNum
            && forall k | 0 <= k < |items| :: items[k].Obj? && Get(items[k].fields, "schoolId") == Some(Str(schoolId))
  {
    var q := UpdatesQuery(entries, Some(schoolId));
    var items := Seqs.Map((e: Entry) => Obj(EntryWithId(e)), Paging.Window(q, Paging.Offset(pageNum, limitNum), limitNum));
    assert ListUpdates(entries, Some(schoolId), limitNum, pageNum).body.fields["updates"].items == items;
    WindowBelongsToSchool(q, schoolId, Paging.Offset(pageNum, limitNum), limitNum);
  }

  /** A window over the updates of one school holds only that school's updates. */
  lemma WindowBelongsToSchool(q: seq<Entry>, schoolId: string, offset: nat, limit: nat)
    requires forall k | 0 <= k < |q| :: Get(q[k].data, "schoolId") == Some(Str(schoolId))
    ensures var items := Seqs.Map((e: Entry) => Obj(EntryWithId(e)), Paging.Window(q, offset, limit));
            && |items| <= limit
            && forall k | 0 <= k < |items| :: items[k].Obj? && Get(items[k].fields, "schoolId") == Some(Str(schoolId))
  {
    var w := Paging.Window(q, offset, limit);
    assert forall k | 0 <= k < |w| :: w[k] == q[offset + k];
    ListedKeepField(w, "schoolId", Str(schoolId));
  }

  /** `getUpdateById`. */
  function GetUpdateById(store: Collection, id: string): (r: Response)
    ensures id !in store <==> r == MessageReply(404, NotFound)
    ensures id in store ==> r == Response(200, Obj(WithId(id, store[id])))
  {
    if id !in store then MessageReply(404, NotFound) else Response(200, Obj(WithId(id, store[id])))
  }

  /** `updateUpdate`: 401, then 404, then 403; only the owner's request writes
      the body stamped with a fresh `updatedAt`, which the reply echoes. */
  function UpdateUpdateHandler(store: Collection, user: Option<Auth.AuthUser>, id: string,
                               body: Doc, timestamp: string): (r: Handled)
    ensures OwnerCheck(store, Uid(user), id, NotFound, NotOwner).Some? ==>
              r == Handled(store, OwnerCheck(store, Uid(user), id, NotFound, NotOwner).value)
    ensures r.reply.status == 200 <==> user.Some? && id in store && OwnedBy(store[id], user.value.uid)
    ensures r.reply.status == 200 ==>
              && r.store == Patch(store, id, body["updatedAt" := Str(timestamp)])
              && r.reply.body.Obj? && Get(r.reply.body.fields, "updatedAt") == Some(Str(timestamp))
              && r.reply.body.fields.Keys == body.Keys + {"id", "updatedAt"}
              && Get(r.reply.body.fields, "id") == Some(if "id" in body then body["id"] else Str(id))
              && forall k | k in body && k != "updatedAt" :: Get(r.reply.body.fields, k) == Some(body[k])
  {
    match OwnerCheck(store, Uid(user), id, NotFound, NotOwner)
    case Some(refusal) => Handled(store, refusal)
    case None =>
      var updated := body["updatedAt" := Str(timestamp)];
      Handled(Patch(store, id, updated), Response(200, Obj(map["id" := Str(id)] + updated)))
  }

  /** `deleteUpdate`: the same checks in the same order; the owner's request
      removes the update. */
  function DeleteUpdateHandler(store: Collection, user: Option<Auth.AuthUser>, id: string): (r: Handled)
    ensures OwnerCheck(store, Uid(user), id, NotFound, NotOwner).Some? ==>
              r == Handled(store, OwnerCheck(store, Uid(user), id, NotFound, NotOwner).value)
    ensures r.reply.status == 200 <==> user.Some? && id in store && OwnedBy(store[id], user.value.uid)
    ensures r.reply.status == 200 ==>
              && r.store == store - {id}
              && r.reply.body == Obj(map["message" := Str("Update deleted successfully"), "id" := Str(id)])
  {
    match OwnerCheck(store, Uid(user), id, NotFound, NotOwner)
    case Some(refusal) => Handled(store, refusal)
    case None =>
      Handled(store - {id}, Response(200, Obj(map["message" := Str("Update deleted successfully"), "id" := Str(id)])))
  }

  /** Update and delete refuse exactly the same requests with the same replies. */
  lemma UpdateAndDeleteRefuseAlike(store: Collection, user: Option<Auth.AuthUser>, id: string,
                                   body: Doc, timestamp: string)
    ensures var u := UpdateUpdateHandler(store, user, id, body, timestamp);
            var d := DeleteUpdateHandler(store, user, id);
            (u.reply.status != 200 || d.reply.status != 200) ==> u == d
  {
  }
}

=== FILE: uploads.dfy ===
/** File uploads to S3: the object key and public URL of an upload, the key
    `deleteFile` recovers from a URL, the content-type table, and the upload
    route's multer filter and handler. */
module Uploads {
  import opened Wrappers
  import opened Json
  import opened Http
  import JsText

  const OctetStream: string := "application/octet-stream"

  /** The extensions with a known content type, in lower case. */
  const ContentTypes: map<string, string> := map[
    "jpg" := "image/jpeg",
    "jpeg" := "image/jpeg",
    "png" := "image/png",
    "gif" := "image/gif",
    "webp" := "image/webp",
    "pdf" := "application/pdf",
    "doc" := "application/msword",
    "docx" := "application/vnd.openxmlformats-officedocument.wordprocessingml.document",
    "xls" := "application/vnd.ms-excel",
    "xlsx" := "application/vnd.openxmlformats-officedocument.spreadsheetml.sheet",
    "txt" := "text/plain"
  ]

  /** `getContentType`: the table entry of the lower-cased extension, or the
      generic binary type. */
  function ContentType(extension: string): (t: string)
    ensures JsText.ToLower(extension) in ContentTypes ==> t == ContentTypes[JsText.ToLower(extension)]
    ensures JsText.ToLower(extension) !in ContentTypes ==> t == OctetStream
  {
    var key := JsText.ToLower(extension);
    if key in ContentTypes then ContentTypes[key] else OctetStream
  }

  /** The content type does not depend on the case of the extension. */
  lemma ContentTypeIgnoresCase(extension: string)
    ensures ContentType(JsText.ToUpper(extension)) == ContentType(extension)
    ensures ContentType(JsText.ToLower(extension)) == ContentType(extension)
  {
    JsText.ToLowerOfToUpper(extension);
    JsText.ToLowerIdempotent(extension);
  }

  /** The generic type is returned exactly for the extensions outside the table. */
  lemma ContentTypeKnownIff(extension: string)
    ensures ContentType(extension) != OctetStream <==> JsText.ToLower(extension) in ContentTypes
  {
  }

  /** `originalName.split('.').pop()`: the text after the last dot, or the
      whole name when it has none. */
  function Extension(name: string): (e: string)
    ensures '.' !in e
    ensures '.' !in name ==> e == name
    ensures |e| < |name| ==> name == name[..|name| - |e| - 1] + "." + e
  {
    JsText.AfterLastIsTextAfterLastSeparator(name, '.');
    JsText.AfterLastFollowsSeparator(name, '.');
    JsText.AfterLast(name, '.')
  }

  /** The object key `folder/uuid.extension` of an upload. */
  function ObjectKey(folder: string, id: string, name: string): string {
    folder + "/" + id + "." + Extension(name)
  }

  /** The key keeps the extension of the uploaded file, so the stored content
      type is that of the original name. */
  lemma ObjectKeyKeepsExtension(folder: string, id: string, name: string)
    ensures Extension(ObjectKey(folder, id, name)) == Extension(name)
    ensures ContentType(Extension(ObjectKey(folder, id, name))) == ContentType(Extension(name))
  {
    var e := Extension(name);
    assert ObjectKey(folder, id, name) == (folder + "/" + id) + ['.'] + e;
    JsText.AfterLastOfJoined(folder + "/" + id, '.', e);
  }

  function BaseUrl(bucket: string, region: string): string {
    "https://" + bucket + ".s3." + region + ".amazonaws.com/"
  }

  /** The public URL of an object. */
  function PublicUrl(bucket: string, region: string, key: string): (url: string)
    ensures JsText.StartsWith(url, BaseUrl(bucket, region))
  {
    var u := BaseUrl(bucket, region) + key;
    assert u[..|BaseUrl(bucket, region)|] == BaseUrl(bucket, region);
    u
  }

  /** `deleteFile`'s key: the URL with its first occurrence of the base URL
      removed. */
  function KeyOfUrl(bucket: string, region: string, url: string): string {
    JsText.ReplaceFirst(url, BaseUrl(bucket, region), "")
  }

  /** Deleting by the URL an upload returned deletes exactly the uploaded object. */
  lemma DeleteRecoversKey(bucket: string, region: string, key: string)
    ensures KeyOfUrl(bucket, region, PublicUrl(bucket, region, key)) == key
  {
    JsText.ReplacePrefixWithEmpty(BaseUrl(bucket, region), key);
  }

  /** A URL that does not mention the bucket's base URL is used as the key as it is. */
  lemma ForeignUrlIsItsOwnKey(bucket: string, region: string, url: string)
    requires JsText.FindSub(url, BaseUrl(bucket, region)).None?
    ensures KeyOfUrl(bucket, region, url) == url
  {
  }

  datatype Stored = Stored(key: string, contentType: string, url: string)

  /** `uploadFile` of the service: where the object goes, with what content type,
      and the URL returned; `id` is the fresh uuid. */
  function UploadFile(bucket: string, region: string, folder: string, id: string, name: string): (s: Stored)
    ensures s.key == ObjectKey(folder, id, name)
    ensures s.contentType == ContentType(Extension(name))
    ensures s.url == PublicUrl(bucket, region, s.key)
  {
    var key := ObjectKey(folder, id, name);
    Stored(key, ContentType(Extension(name)), PublicUrl(bucket, region, key))
  }

  // ----- Upload route -----

  const MaxFileSize: nat := 5 * 1024 * 1024

  /** The MIME types the multer filter lets through. */
  const AllowedTypes: set<string> := {
    "image/jpeg", "image/jpg", "image/png", "image/gif", "image/webp",
    "application/pdf", "application/msword",
    "application/vnd.openxmlformats-officedocument.wordprocessingml.document"
  }

  datatype File = File(mimetype: string, size: nat, originalName: string)

  /** What multer does with the multipart request: hand the (possibly absent)
      file to the handler, or refuse it with an error for Express. */
  datatype Intake = Accepted(file: Option<File>) | Refused(message: string)

  /** The filter runs before the size limit: a file of another type is refused
      whatever its size; a file of more than 5 MiB is refused by the limit. */
  function Multer(file: Option<File>): (r: Intake)
    ensures r.Accepted? <==> file.None? || (file.value.mimetype in AllowedTypes && file.value.size <= MaxFileSize)
    ensures r.Accepted? ==> r.file == file
    ensures file.Some? && file.value.mimetype !in AllowedTypes ==> r == Refused("Invalid file type")
    ensures file.Some? && file.value.mimetype in AllowedTypes && file.value.size > MaxFileSize ==>
              r == Refused("File too large")
  {
    match file
    case None => Accepted(None)
    case Some(f) =>
      if f.mimetype !in AllowedTypes then Refused("Invalid file type")
      else if f.size > MaxFileSize then Refused("File too large")
      else Accepted(file)
  }

  const UploadFailed: string := "Failed to upload file to S3"

  /** The upload handler: 400 without a file; otherwise the file goes to
      `folder` (default `uploads`, used only when the field is missing) and
      its URL is returned, or a 500 when S3 refuses it. */
  function UploadHandler(bucket: string, region: string, file: Option<File>, folder: Option<string>,
                         id: string, s3Accepts: bool): (r: Response)
    ensures file.None? ==> r == MessageReply(400, "No file provided")
    ensures file.Some? && !s3Accepts ==>
              r == Response(500, Obj(map["message" := Str(UploadFailed), "error" := Str(UploadFailed)]))
    ensures file.Some? && s3Accepts ==>
              var key := ObjectKey(folder.GetOr("uploads"), id, file.value.originalName);
              r == Response(200, Obj(map["url" := Str(PublicUrl(bucket, region, key)),
                                         "message" := Str("File uploaded successfully to S3")]))
  {
    match file
    case None => MessageReply(400, "No file provided")
    case Some(f) =>
      if !s3Accepts then Response(500, Obj(map["message" := Str(UploadFailed), "error" := Str(UploadFailed)]))
      else
        var stored := UploadFile(bucket, region, folder.GetOr("uploads"), id, f.originalName);
        Response(200, Obj(map["url" := Str(stored.url), "message" := Str("File uploaded successfully to S3")]))
  }

  /** A file that passed the filter and was stored can later be deleted by the
      URL in the reply. */
  lemma UploadedUrlDeletesUpload(bucket: string, region: string, f: File, folder: Option<string>, id: string)
    ensures var r := UploadHandler(bucket, region, Some(f), folder, id, true);
            var key := ObjectKey(folder.GetOr("uploads"), id, f.originalName);
            && r.status == 200
            && KeyOfUrl(bucket, region, r.body.fields["url"].s) == key
  {
    DeleteRecoversKey(bucket, region, ObjectKey(folder.GetOr("uploads"), id, f.originalName));
  }
}

=== FILE: verification.dfy ===
/** The verification card: three checks over a school record, the number of
    checks passed, and the settings page the card sends the user to next. */
module Verification {
  import opened Wrappers
  import JsText

  datatype SchoolData = SchoolData(
    contactName: Option<string>, email: Option<string>, phone: Option<string>,
    city: Option<string>, country: Option<string>,
    studentsTotal: Option<int>, teachersTotal: Option<int>)

  /** Contact name, email and phone are all present and non-empty. */
  predicate HasContactInfo(d: Option<SchoolData>) {
    d.Some? && JsText.Truthy(d.value.contactName) && JsText.Truthy(d.value.email) && JsText.Truthy(d.value.phone)
  }

  /** City and country are both present and non-empty. */
  predicate HasAddress(d: Option<SchoolData>) {
    d.Some? && JsText.Truthy(d.value.city) && JsText.Truthy(d.value.country)
  }

  /** A positive student total or a positive teacher total. */
  predicate HasPopulation(d: Option<SchoolData>) {
    d.Some? && ((d.value.studentsTotal.Some? && d.value.studentsTotal.value > 0)
             || (d.value.teachersTotal.Some? && d.value.teachersTotal.value > 0))
  }

  function Count(b: bool): nat {
    if b then 1 else 0
  }

  /** `[hasContactInfo, hasAddress, hasPopulation].filter(Boolean).length`. */
  function CompletedSteps(d: Option<SchoolData>): (n: nat)
    ensures n <= 3
    ensures n == 3 <==> HasContactInfo(d) && HasAddress(d) && HasPopulation(d)
    ensures n == 0 <==> !HasContactInfo(d) && !HasAddress(d) && !HasPopulation(d)
  {
    Count(HasContactInfo(d)) + Count(HasAddress(d)) + Count(HasPopulation(d))
  }

  predicate IsComplete(d: Option<SchoolData>) {
    CompletedSteps(d) == 3
  }

  /** The "N out of 3 steps remaining" figure. */
  function Remaining(d: Option<SchoolData>): (n: nat)
    ensures n <= 3
    ensures n == 0 <==> IsComplete(d)
    ensures n == 3 <==> d.None? || (!HasContactInfo(d) && !HasAddress(d) && !HasPopulation(d))
  {
    3 - CompletedSteps(d)
  }

  /** The step the card points at: the first failing check, in the order
      contact, address, population; none once all pass. */
  datatype Step = ContactStep | AddressStep | PopulationStep | AllDone

  function NextStep(d: Option<SchoolData>): (s: Step)
    ensures s == ContactStep <==> !HasContactInfo(d)
    ensures s == AddressStep <==> HasContactInfo(d) && !HasAddress(d)
    ensures s == PopulationStep <==> HasContactInfo(d) && HasAddress(d) && !HasPopulation(d)
    ensures s == AllDone <==> IsComplete(d)
  {
    if !HasContactInfo(d) then ContactStep
    else if !HasAddress(d) then AddressStep
    else if !HasPopulation(d) then PopulationStep
    else AllDone
  }

  /** `getNextVerificationStep`. */
  function NextLink(d: Option<SchoolData>): string {
    if !HasContactInfo(d) then "/settings?tab=security"
    else if !HasAddress(d) then "/settings?tab=profile"
    else if !HasPopulation(d) then "/settings?tab=population"
    else "/settings"
  }

  /** `getNextStepText`. */
  function NextText(d: Option<SchoolData>): string {
    if !HasContactInfo(d) then "Update Contact Information"
    else if !HasAddress(d) then "Update School Address"
    else if !HasPopulation(d) then "Update Student Population"
    else "View Settings"
  }

  function StepLink(s: Step): string {
    match s
    case ContactStep => "/settings?tab=security"
    case AddressStep => "/settings?tab=profile"
    case PopulationStep => "/settings?tab=population"
    case AllDone => "/settings"
  }

  function StepText(s: Step): string {
    match s
    case ContactStep => "Update Contact Information"
    case AddressStep => "Update School Address"
    case PopulationStep => "Update Student Population"
    case AllDone => "View Settings"
  }

  /** The link and the button text always name the same step, and the plain
      settings link is offered exactly when verification is complete. */
  lemma LinkAndTextAgree(d: Option<SchoolData>)
    ensures NextLink(d) == StepLink(NextStep(d))
    ensures NextText(d) == StepText(NextStep(d))
    ensures NextLink(d) == "/settings" <==> IsComplete(d)
    ensures NextText(d) == "View Settings" <==> IsComplete(d)
  {
  }

  /** Without a record no check passes and the card asks for contact details. */
  lemma NoRecordNoSteps()
    ensures CompletedSteps(None) == 0
    ensures NextLink(None) == "/settings?tab=security"
  {
  }
}

=== FILE: wrappers.dfy ===
/** Failure-carrying datatypes shared by every module of the model. */
module Wrappers {

  /** An optional value: JavaScript's `undefined` (or `null`) versus a present value. */
  datatype Option<+T> = None | Some(value: T) {

    /** The present value, or `default` when absent. */
    function GetOr(default: T): T {
      match this
      case Some(v) => v
      case None => default
    }
  }

  /** The outcome of an operation that either produces a value or fails with an error. */
  datatype Result<+T, +E> = Ok(value: T) | Err(error: E)
}
